=== FILE: README.md ===
# Agents SDK: AI-SDK adapter, turn input and Responses request shaping, in Dafny

This project models three parts of the OpenAI Agents SDK for JavaScript:

- **The AI-SDK adapter** (`aiSdk.js`). It lets an agent talk to any Vercel AI SDK
  LanguageModelV2 model. The model covers:
  - how protocol items become LanguageModelV2 messages; consecutive `function_call`
    items are grouped into one assistant message;
  - how tool outputs, tools, handoffs, the output type and the tool choice are converted;
  - how `getResponse` builds its request and assembles its response;
  - how `getStreamedResponse` turns the part stream into events and one final
    `response_done`.
- **The runner's turn loop.** This covers:
  - how a turn's input is built (`getTurnInput`, `selectModel`);
  - what a server-managed conversation (`conversationId` or `previousResponseId`) sends on
    each turn;
  - the approval and resume state machine;
  - the order of run-item events.
- **The Responses-API model's request shaping.** This covers:
  - instructions normalization, the `prompt` parameter, the merging of
    `reasoning`/`text` with `providerData`, and keys lifted to the top level;
  - usage;
  - the stream event mapping.

Everything is modelled with immutable datatypes and pure functions. The streamed loop is
the one exception: it is a method, with the loop invariants its contract needs. JSON values
are an abstract `Json` datatype, and JS objects are `map<string, Json>`. Object spread
`{...a, ...b}` is `Json.Spread(a, b)`, in which the right-hand side wins.

Foreign calls become function-typed parameters:

- `JSON.parse`, `JSON.stringify` and `new URL`;
- the tool's `invoke`;
- the model backend, modelled as a script of responses consumed one per turn.

Modules, one per file:

| module | file | what |
|---|---|---|
| `Wrappers` | wrappers.dfy | `Option`, `Result` |
| `Json` | json.dfy | JSON values, objects, `Spread` |
| `Items` | items.dfy | protocol items (messages, calls, results, reasoning, …) |
| `AiSdkMessages` | aisdk_messages.dfy | `itemsToLanguageV2Messages`, `convertToAiSdkOutput`, `parseArguments` |
| `AiSdkTools` | aisdk_tools.dfy | `toolChoiceToLanguageV2Format`, `getResponseFormat`, `toolToLanguageV2Tool`, handoffs |
| `AiSdkModel` | aisdk_model.dfy | `getResponse`: request and response assembly |
| `AiSdkStream` | aisdk_stream.dfy | `getStreamedResponse`: events, call table, final event |
| `TurnInput` | turn_input.dfy | `getTurnInput`, `selectModel`, what a server-managed turn sends |
| `Runner` | runner.dfy | processing a model response, deciding tool calls |
| `RunEvents` | events.dfy | run-item events |
| `Turns` | turns.dfy | run state, one turn, resume, the next request |
| `RunLoop` | run_loop.dfy | the turn loop and `run` on a saved state |
| `RunnerScenarios` | runner_scenarios.dfy | the runner's documented scenarios, proved on the model |
| `ResponsesModel` | responses.dfy | Responses-API parameters, usage, stream mapping |

The runner and the Responses model are reconstructed from their test suites
(`run.test.ts`, `run.stream.test.ts`, `openaiResponsesModel.test.ts`). The rows below cite
those tests as the source of each behaviour.

## Model

| member | source | states |
|---|---|---|
| AiSdkMessages.ItemsToMessages | packages/agents-extensions/dist/aiSdk.js:20-200 | The conversion succeeds exactly when every item is supported. Otherwise it fails with the error of the first unsupported item. The prompt carries exactly the input's tool calls and tool results, in input order. |
| AiSdkMessages.FoldErrors | packages/agents-extensions/dist/aiSdk.js:20-200 | By induction over the items: the loop fails exactly when some item is unsupported, and it fails with the first such item's own error. |
| AiSdkMessages.FoldCallsAndResults | packages/agents-extensions/dist/aiSdk.js:113-160 | Once flushed, the loop's messages hold exactly the input's `function_call` and `function_call_result` references, in input order. Nothing is lost, duplicated or reordered. |
| AiSdkMessages.EmittingStep | packages/agents-extensions/dist/aiSdk.js:26-35 | A system, user, reasoning or unknown item adds no tool call and no tool result. |
| AiSdkMessages.FlushingStep | packages/agents-extensions/dist/aiSdk.js:84-109 | An assistant message adds no call. A tool result adds exactly its own result reference, after the flushed calls. |
| AiSdkMessages.FlushPointOrder | packages/agents-extensions/dist/aiSdk.js:137-160 | An assistant message or a tool result lands at an output position before which every earlier `function_call` has been emitted. In particular, a call precedes the result that answers it. |
| AiSdkMessages.ConsecutiveCallsShareOneMessage | packages/agents-extensions/dist/aiSdk.js:113-136 | An input made only of calls becomes ONE assistant message. It carries every call in order, with the first call's provider data as its options. |
| AiSdkMessages.RunOfCallsIsOneMessage | packages/agents-extensions/dist/aiSdk.js:113-160 | Take the calls between one flush point (or the start) and the next flush point (or the end). They land as ONE assistant message carrying all of them, in order. That message comes right before the flush point's own message, or last. |
| AiSdkMessages.PendingTracksRun | packages/agents-extensions/dist/aiSdk.js:26-35 | Between flush points, the pending assistant message holds exactly the calls met so far. Items that do not flush never close it. |
| AiSdkMessages.UserMessageOvertakesCall | packages/agents-extensions/dist/aiSdk.js:36-83 | `[call, user, result]` becomes `[user, assistant(call), tool(result)]`. A user message between a call and its result is emitted before the call. |
| AiSdkMessages.ConvertToAiSdkOutput | packages/agents-extensions/dist/aiSdk.js:218-238 | A text output, or an image with string data and media type, converts. Anything else raises "Unsupported tool output type" with its type. |
| AiSdkMessages.ToolOutputRoundTrip | packages/agents-extensions/dist/aiSdk.js:218-238 | Conversion keeps the type, the text, and the image data and media type. Converting back a single-entry output gives the same output. |
| AiSdkMessages.ParseArguments | packages/agents-extensions/dist/aiSdk.js:688-698 | Missing or empty arguments give `{}`, and so does text `JSON.parse` rejects. Otherwise the result is the parsed value. |
| AiSdkMessages.ParseArgumentsRoundTrip | packages/agents-extensions/dist/aiSdk.js:688-698 | Arguments written by a serializer whose output the parser reads back come back as the value written. |
| AiSdkMessages.ParseArgumentsEmptyObject | packages/agents-extensions/dist/aiSdk.js:688-698 | The result is `{}` exactly when the arguments are missing or empty, do not parse, or parse to `{}`. |
| AiSdkMessages.OutputTextPartsKeepsText | packages/agents-extensions/dist/aiSdk.js:89-102 | An assistant message made only of `output_text` parts keeps each one as a text part, in order. One with no `output_text` part has no parts. |
| AiSdkTools.ToolChoiceToLanguageV2Format | packages/agents-extensions/dist/aiSdk.js:699-713 | No setting, or the empty string, gives no choice. The three keywords map to themselves. Any other string names one tool. |
| AiSdkTools.ToolChoiceRoundTrip | packages/agents-extensions/dist/aiSdk.js:699-713 | Every tool choice is recovered from the string it is written as. |
| AiSdkTools.GetResponseFormat | packages/agents-extensions/dist/aiSdk.js:285-296 | Text stays text. Any other output type becomes a JSON format with its name and schema. |
| AiSdkTools.ResponseFormatRoundTrip | packages/agents-extensions/dist/aiSdk.js:285-296 | The format keeps everything of the output type except whether the schema is a Zod object. It also determines the output type back. |
| AiSdkTools.ToolToLanguageV2Tool | packages/agents-extensions/dist/aiSdk.js:246-277 | A function tool becomes a function definition. Hosted and computer tools become provider-defined tools with id `<provider>.<name>`. Hosted args are `providerData.args ?? {}`; computer args are the environment and dimensions. Any other type is an error. |
| AiSdkTools.ToolDefinitionRoundTrip | packages/agents-extensions/dist/aiSdk.js:246-277 | A function tool comes back from its definition. A provider tool's id is its name behind the provider prefix. |
| AiSdkTools.HandoffToLanguageV2Tool | packages/agents-extensions/dist/aiSdk.js:210-217 | A handoff is a function definition with its tool name, description and input schema. |
| AiSdkTools.ToolsForRequest | packages/agents-extensions/dist/aiSdk.js:352-355 | The request lists the agent's tools in order, then its handoffs in order. It fails exactly when some tool has an unknown type. |
| AiSdkTools.ToolsForRequestNames | packages/agents-extensions/dist/aiSdk.js:352-355 | The names offered to the model are the tool names followed by the handoff names. |
| AiSdkTools.ToolsForRequestFirstError | packages/agents-extensions/dist/aiSdk.js:246-277 | A failing tool list fails at its first unknown tool, with the one "Unsupported tool type" error. The message prints the tool object, so it does not say which tool failed. |
| AiSdkModel.BuildPrompt | packages/agents-extensions/dist/aiSdk.js:336-351 | A string input is one user text message. An item list goes through the item conversion. Truthy instructions come first, as a system message. |
| AiSdkModel.PromptKeepsToolCalls | packages/agents-extensions/dist/aiSdk.js:336-351 | The prompt carries exactly the input items' tool calls. |
| AiSdkModel.BuildGenerateRequest | packages/agents-extensions/dist/aiSdk.js:336-375 | Errors come in order: input conversion, then tool conversion, then a Zod output type. The request holds the computed fields and the `providerData` keys. Each computed field survives unless `providerData` names it; then the provided value wins. |
| AiSdkModel.ProviderDataTouchesOnlyItsKeys | packages/agents-extensions/dist/aiSdk.js:363-375 | Two requests that differ only in `providerData` agree on every property neither `providerData` names. |
| AiSdkModel.ProviderDataOverridesComputed | packages/agents-extensions/dist/aiSdk.js:363-375 | A `providerData` entry named `toolChoice` or `temperature` replaces the computed value. |
| AiSdkModel.BuildStreamRequestAsWritten | packages/agents-extensions/dist/aiSdk.js:519-532 | The streamed request has no Zod check. It has a `toolChoice` property exactly when `providerData` supplies one. |
| AiSdkModel.StreamRequestDropsToolChoice | packages/agents-extensions/dist/aiSdk.js:521-532 | With `toolChoice: 'required'`, the non-streamed request sends it and the streamed request as written does not. |
| AiSdkModel.BuildStreamRequest | packages/agents-extensions/dist/aiSdk.js:363-375 | The corrected streamed request carries the converted tool choice, unless `providerData` overrides it. |
| AiSdkModel.StreamRequestMatchesGenerate | packages/agents-extensions/dist/aiSdk.js:363-375 | Apart from the Zod check, the corrected streamed request equals the non-streamed one. |
| AiSdkModel.UsageOf | packages/agents-extensions/dist/aiSdk.js:420-433 | Missing or `NaN` token counts are 0, and the total is their sum. |
| AiSdkModel.CallItemPosition | packages/agents-extensions/dist/aiSdk.js:383-398 | The tool call at `content[i]` is output number "calls before i". So every call is output once, in content order. |
| AiSdkModel.CallItems | packages/agents-extensions/dist/aiSdk.js:383-398 | There is one `function_call` per tool call, each carrying the result's provider metadata. |
| AiSdkModel.CallArguments | packages/agents-extensions/dist/aiSdk.js:390-392 | String input is kept. Any other input is stringified, and a missing or null input is stringified as `{}`. |
| AiSdkModel.FirstText | packages/agents-extensions/dist/aiSdk.js:403 | The first text entry with a string `text`, if any. No earlier entry qualifies. |
| AiSdkModel.AssembleOutput | packages/agents-extensions/dist/aiSdk.js:383-414 | With tool calls, the output is the calls. Without them, it is the first text as one assistant message, or nothing. |
| AiSdkModel.GetResponse | packages/agents-extensions/dist/aiSdk.js:418-434 | The response id is the backend's id, or `FAKE_ID` when it has none. The usage and the output are the ones `AiSdkModel.UsageOf` and `AiSdkModel.AssembleOutput` describe. |
| AiSdkModel.CallsSuppressText | packages/agents-extensions/dist/aiSdk.js:399-402 | A result with tool calls yields only the calls, however much text it also has. |
| AiSdkStream.UpsertFacts | packages/agents-extensions/dist/aiSdk.js:561-573 | `functionCalls[id] = call`: an existing id keeps its place and takes the new value, and a new id goes last. |
| AiSdkStream.CallTableOrder | packages/agents-extensions/dist/aiSdk.js:561-573 | The table lists each streamed call id once, in order of first appearance. |
| AiSdkStream.CallTableLatest | packages/agents-extensions/dist/aiSdk.js:561-573 | Every entry is the last call streamed under its id, and every streamed id has an entry. |
| AiSdkStream.ObjectValuesOrder | packages/agents-extensions/dist/aiSdk.js:605-607 | `Object.values` lists every entry except one keyed `__proto__`. Array-index keys come first, in ascending numeric order, then the other keys in table order. |
| AiSdkStream.IndexOvertakesName | packages/agents-extensions/dist/aiSdk.js:605-607 | A call under an array-index id is listed before a call under a name that arrived earlier. |
| AiSdkStream.ProtoCallDropped | packages/agents-extensions/dist/aiSdk.js:564-570 | A call streamed under `__proto__` is not in the output. |
| AiSdkStream.StreamOutput | packages/agents-extensions/dist/aiSdk.js:597-607 | The final output is the text message first, when there is text, then the calls. |
| AiSdkStream.AccOfMeaning | packages/agents-extensions/dist/aiSdk.js:546-596 | The loop's state is the last non-empty response id, the last `finish` usage (0 for missing or `NaN`), the call table, and the joined text. |
| AiSdkStream.StreamResponse | packages/agents-extensions/dist/aiSdk.js:539-625 | The stream yields `response_started`, then every part's model event, with a text delta after each text part. An `error` part ends the stream with its error right after its own model event. Otherwise the stream ends with the final `response_done`. |
| AiSdkStream.DoneEventIsFinal | packages/agents-extensions/dist/aiSdk.js:608-619 | The final event built from the loop's state is the reference final event: id or `FAKE_ID`, usage with total, and output. |
| AiSdkStream.DeltasMakeText | packages/agents-extensions/dist/aiSdk.js:553-560 | Joining the streamed text deltas gives the final message's text. |
| AiSdkStream.ForwardsEveryPart | packages/agents-extensions/dist/aiSdk.js:546-552 | Every part is forwarded as a model event exactly once, in order. |
| AiSdkStream.StreamTextPresent | packages/agents-extensions/dist/aiSdk.js:597-604 | There is a text message exactly when some text delta arrived. |
| AiSdkStream.NoErrorMeaning | packages/agents-extensions/dist/aiSdk.js:589-591 | The loop runs to the end exactly when no part is an `error` part. |
| TurnInput.GetTurnInput | packages/agents-core/test/run.test.ts:513-535 | A string input becomes one user message, and an item list is kept. Either is followed by the generated items' raw items. |
| TurnInput.TurnInputGrows | packages/agents-core/test/run.test.ts:513-535 | The history grows by exactly the raw items generated since. |
| TurnInput.SelectModel | packages/agents-core/test/run.test.ts:1153-1183 | The agent's own model is used unless it is the placeholder. Then the run's override is used, if there is one. |
| TurnInput.RunModelUsedOnlyForPlaceholder | packages/agents-core/test/run.test.ts:1153-1183 | A different override is chosen exactly when the agent's model is the placeholder. |
| TurnInput.FullHistoryIsHeldPlusSent | packages/agents-core/test/run.test.ts:736-828 | The full history is what the server already holds followed by what this turn sends. Nothing is lost and nothing is repeated. |
| TurnInput.SendsOnlyNewItems | packages/agents-core/test/run.test.ts:736-792 | Once the server holds `held`, a turn sends exactly the raw items generated after it. |
| TurnInput.NothingNewSendsNothing | packages/agents-core/test/run.test.ts:935-976 | A server-managed turn with nothing new sends nothing. |
| TurnInput.FirstServerTurnIsFullHistory | packages/agents-core/test/run.test.ts:736-792 | The first server-managed turn sends the whole history, as a client-kept one does. |
| Runner.ProcessResponseAccepts | packages/agents-core/test/run.test.ts:309-338 | A response is accepted exactly when every function call in it names a known tool or handoff. The error names the first unknown call. |
| Runner.ProcessResponseRecordsOutput | packages/agents-core/test/run.test.ts:382-409 | The history records the response item for item, and every tool call run is recorded as a call. |
| Runner.Decide | packages/agents-core/test/run.test.ts:99-152 | A call is held exactly when it needs approval and has no decision. A rejected call gets 'Tool execution was not approved.' without running. A call whose tool needs no approval, or that was approved, runs, and its output is the tool's text. |
| Runner.ResultsAnswerCalls | packages/agents-core/test/run.test.ts:830-933 | A call's item is an approval request exactly while the call waits for a decision. Otherwise it is an output answering that call: the tool's text when the call runs, the refusal when it was rejected. |
| Runner.HeldRunsExactly | packages/agents-core/test/run.test.ts:1035-1109 | Exactly the calls that need approval and have no decision are held. |
| Runner.FindTool | packages/agents-core/test/run.test.ts:309-338 | The tool of that name, if any. Otherwise no tool has that name. |
| Turns.NextStep | packages/agents-core/test/run.test.ts:99-152 | The run is interrupted exactly when a call is held or an MCP approval is pending. Otherwise the first handoff switches agents. Under `stop_on_first_tool` the first tool output ends the run. Otherwise a final message ends it. |
| Turns.TakeTurn | packages/agents-core/test/run.test.ts:382-409 | A turn records its one response. It fails only on an unknown tool. It emits the events of the items it adds. The run's last response id becomes the response's id, or stays as it was when the response has none. |
| Turns.Resume | packages/agents-core/test/run.test.ts:830-933 | Resuming re-decides the held calls. It records no response and keeps the last response id. It leaves the server watermark where it was. |
| Turns.ResumeAnswersHeldCalls | packages/agents-core/test/run.test.ts:830-933 | Resuming answers each held call in place, in order. An approved call's output is the tool's text, a rejected call's is the refusal, and an undecided call's approval request comes back. |
| Turns.ResumeKeepsUndecidedHeld | packages/agents-core/test/run.test.ts:1035-1109 | A held call still undecided on resume interrupts the run again and stays held. |
| Turns.ConcludeAppendsResults | packages/agents-core/test/run.test.ts:309-338 | The end of a turn appends one item per call, in call order, right after the history it started from. |
| Turns.ConcludeHoldsUndecided | packages/agents-core/test/run.test.ts:1035-1109 | If the end of a turn leaves a call undecided, the run is interrupted holding exactly the undecided calls. |
| Turns.ResumeKeepsCoherent | packages/agents-core/test/run.test.ts:830-933 | Resuming keeps every tool output after its call. Nothing is held if the run goes on. |
| Turns.TurnAfterResponseSendsOnlyResults | packages/agents-core/test/run.test.ts:736-828 | After a response, a server-managed request sends only what was added after the response's items. |
| Turns.FullHistoryRequest | packages/agents-core/test/run.test.ts:1111-1146 | Without server-managed state, every request carries the input and the whole history, with no conversation id and no previous response id. |
| Turns.TurnChainsResponseId | packages/agents-core/test/run.test.ts:794-828 | After a turn, the next request names the id of the response the turn got. If that response has no id, the next request names the same response as the turn's own request. |
| Turns.ResumeKeepsResponseId | packages/agents-core/test/run.test.ts:886-933 | The resumed request names the same previous response as the interrupted state's next request: the interrupted turn's response. |
| RunLoop.Loop | packages/agents-core/test/run.test.ts:382-480 | One request per turn. The turn counter ends at its start plus the number of requests and never passes the limit. At the limit the run fails with no request. There is one recorded response per answered request. The events are the added items' events, in order. |
| RunLoop.NextTurn | packages/agents-core/test/run.test.ts:382-466 | A turn under the limit sends at least one request and never passes the limit. A failed or missing response fails the run without recording one. |
| RunLoop.LoopRecordsScript | packages/agents-core/test/run.test.ts:382-409 | The recorded responses are the earlier ones, then the backend's responses in order, one per answered request. |
| RunLoop.NextTurnRecordsScript | packages/agents-core/test/run.test.ts:382-409 | The same holds from one turn under the limit and the loop after it. |
| RunLoop.Run | packages/agents-core/test/run.test.ts:221-235 | An interrupted state is resumed first. A completed or failed state comes back unchanged, with no request and no event. |
| RunLoop.RecordsScriptStep | packages/agents-core/test/run.test.ts:382-409 | The recorded responses are the ones the backend gave, in order. |
| RunLoop.ChainsStep | packages/agents-core/test/run.test.ts:794-828 | A chained request followed by a chained rest of the run gives a chained run. |
| RunLoop.LoopChainsResponseIds | packages/agents-core/test/run.test.ts:794-828 | Under `previousResponseId`, a loop's first request is the state's own. Every later request names the id of the response the request before it got. If that response had no id, it names the same response as the request before it. |
| RunLoop.NextTurnChainsResponseIds | packages/agents-core/test/run.test.ts:794-828 | The same holds from one turn under the limit and the loop after it. |
| RunLoop.RunChainsResponseIds | packages/agents-core/test/run.test.ts:886-933 | `run` chains its requests on the responses the same way, also after a resume. Its first request names the response the saved state's last turn got. |
| RunEvents.ItemEventsNamed | packages/agents-core/test/run.stream.test.ts:320-399 | There is one event per generated item, named after its kind. |
| RunnerScenarios.EventsFollowGeneration | packages/agents-core/test/run.stream.test.ts:320-399 | A streamed run emits the message, tool call, tool output and final message events in the order the items are generated. |
| RunnerScenarios.ConversationSendsOnlyNewItems | packages/agents-core/test/run.test.ts:736-792 | With a `conversationId`, turn 1 sends the user message and later turns send only the previous turn's results. |
| RunnerScenarios.FullHistoryResendsEverything | packages/agents-core/test/run.test.ts:1111-1146 | Without server-managed state, the second turn resends the input, the message, the call and its result. |
| RunnerScenarios.PreviousResponseAcrossTurns | packages/agents-core/test/run.test.ts:794-828 | With `previousResponseId` "initial-response-123" there are two requests. The first names "initial-response-123". The second names the first response's id "resp-789" and sends only the result of `call-1`. |
| RunnerScenarios.HandoffSwitchesAgents | packages/agents-core/test/run.test.ts:340-364 | A handoff answers its call, and the target agent produces the final output. |
| RunnerScenarios.MaxTurnsZeroFails | packages/agents-core/test/run.test.ts:470-480 | With `maxTurns: 0` the run fails with MaxTurnsExceeded before any request. |
| RunnerScenarios.ModelErrorPropagates | packages/agents-core/test/run.test.ts:154-158 | A model with no response fails the run with 'No response found' after one request. |
| RunnerScenarios.RejectedCallEndsWithRefusal | packages/agents-core/test/run.test.ts:99-152 | A rejected held call under `stop_on_first_tool` ends the run with the refusal text. The tool does not run and the model is not called. |
| RunnerScenarios.ResumeWithConversation | packages/agents-core/test/run.test.ts:830-976 | Under a conversation id, the interrupted run sends the user message and the resumed run sends only the call's result. A further run on the completed state sends nothing. |
| RunnerScenarios.ResumeWithPreviousResponse | packages/agents-core/test/run.test.ts:886-933 | The resumed request continues from the interrupted turn's response id and sends only the call's result. |
| RunnerScenarios.ResumeSendsAppendedItems | packages/agents-core/test/run.test.ts:978-1033 | A message the caller appended to the interrupted state is sent on resume, before the call's result. |
| RunnerScenarios.ResumeWithMixedApprovals | packages/agents-core/test/run.test.ts:1035-1109 | With an MCP approval request and a held call, approving only the call and resuming sends only the call's result, and the run completes. |
| RunnerScenarios.ResumeSendsResult | packages/agents-core/test/run.stream.test.ts:586-645 | After an approved resume, a server-managed request sends the appended items, then the call's result. It never resends the call or an approval request. |
| ResponsesModel.NormalizeInstructions | packages/agents-openai/test/openaiResponsesModel.test.ts:107-164 | Instructions are `undefined` exactly when missing, empty or all white space. Otherwise they are sent verbatim. |
| ResponsesModel.TrimEmptyIffBlank | packages/agents-openai/test/openaiResponsesModel.test.ts:107-164 | `trim()` gives the empty string exactly when the string is all white space. |
| ResponsesModel.NormalizeIdempotent | packages/agents-openai/test/openaiResponsesModel.test.ts:107-164 | Normalizing kept instructions again changes nothing. |
| ResponsesModel.BuildParams | packages/agents-openai/test/openaiResponsesModel.test.ts:15-223 | The input is the request's items. `model` is sent exactly when no prompt is given, and the prompt goes under `prompt`. `reasoning`/`text` are merged with `providerData`, which wins. The other `providerData` keys are lifted. |
| ResponsesModel.MergeSetting | packages/agents-openai/test/openaiResponsesModel.test.ts:166-223 | The merged setting has the keys of both sides, and the provided side wins on shared keys. It is `undefined` exactly when neither is given. |
| ResponsesModel.SpreadKeepsRight | packages/agents-openai/test/openaiResponsesModel.test.ts:166-223 | Restricted to the provided object's keys, the merge is exactly the provided object. The provided settings are not changed. |
| ResponsesModel.PromptParam | packages/agents-openai/test/openaiResponsesModel.test.ts:77-105 | The prompt id is sent as `id`, with the version and variables when they are given. |
| ResponsesModel.PromptOmitsModel | packages/agents-openai/test/openaiResponsesModel.test.ts:77-105 | With a stored prompt, `model` is left out and the prompt id is sent. |
| ResponsesModel.SettingsMergeWithProviderData | packages/agents-openai/test/openaiResponsesModel.test.ts:166-223 | The test's settings merge to `reasoning` {effort, summary from providerData} and `text` {verbosity, tone}. `customFlag` is lifted to the top level. |
| ResponsesModel.UsageOf | packages/agents-openai/test/openaiResponsesModel.test.ts:59-73 | One response counts as one request, with its token counts and missing counts as 0. |
| ResponsesModel.TotalUsageCountsRequests | packages/agents-openai/test/openaiResponsesModel.test.ts:59-73 | A run's usage counts exactly one request per response. |
| ResponsesModel.MessageItemKeepsTexts | packages/agents-openai/test/openaiResponsesModel.test.ts:59-73 | The output message keeps all of the upstream message's texts, in order. |
| ResponsesModel.TranslateEvent | packages/agents-openai/test/openaiResponsesModel.test.ts:256-285 | `response.created` first yields `response_started`, and a text delta first yields `output_text_delta`. Every event is then passed on as a `model` event. |
| ResponsesModel.ModelEventsRoundTrip | packages/agents-openai/test/openaiResponsesModel.test.ts:256-285 | Every upstream event is passed on exactly once, unchanged and in order. |
| ResponsesModel.DeltaReassembles | packages/agents-openai/test/openaiResponsesModel.test.ts:256-285 | A delta event's `providerData` with the delta put back is the upstream event. |
| ResponsesModel.StreamCreatedThenDelta | packages/agents-openai/test/openaiResponsesModel.test.ts:256-285 | A created event and a delta give `response_started`, `model`, `output_text_delta`, `model`. |
| Json.Spread | packages/agents-extensions/dist/aiSdk.js:374 | `{...a, ...b}` has the keys of both, and `b` wins on a shared key. |

## Left out

- Tracing spans, the logger, `abortSignal` and the `signal` parameter: these are side channels that do not shape the request or response.
- `aisdk()` and the `AiSdkModel` constructor: these only wrap the model object.
- Message ids and statuses are dropped from protocol items, and so is `status: 'completed'` on output items: nothing in the modelled behaviour reads them.
- Parts of user message content other than text, image and file are reduced to their type tag, which is all the conversion reads.
- The runner's own source is not part of this model. The runner is reconstructed from `run.test.ts` and `run.stream.test.ts`.
- Runner: guardrails, lifecycle hooks other than `agent_end`, the GPT-5 default-model settings adjustments, serialization of a run state to a string, and the timing of concurrent tool execution.
- Runner.Decide: tools run one after another; their results are appended in call order, not in completion order.
- The Responses model's own source is not part of this model. Its request shaping is reconstructed from `openaiResponsesModel.test.ts`.
- ResponsesModel.BuildParams: parameter order is not modelled (a map has none). A non-object `providerData.reasoning`/`text` is treated as absent. Prompt variables are sent as given, without conversion.
- ResponsesModel: the `response.completed` translation, tool and output-type (`text.format`) conversion, and HTTP headers are not modelled.
- Error messages are modelled by their kind and the type they name, not as strings. `UnsupportedToolType` and `UnknownMessageType` name nothing, because their messages print the tool or item object itself (`[object Object]`).
- AiSdkModel: `JSON.stringify` and `JSON.parse` are opaque parameters, so exact argument text is not modelled.
- TurnInput.SelectModel: the default-model placeholder is modelled as the empty model name; which name the SDK uses for it is not modelled.

## Findings

| source | as written | input that shows it | evidently intended | confidence | as-written member | corrected member |
|---|---|---|---|---|---|---|
| packages/agents-extensions/dist/aiSdk.js:521-532 | The streamed request built for `doStream` omits `toolChoice`, which the non-streamed request sets at line 365. | `modelSettings.toolChoice = 'required'`, no `providerData`: `doGenerate` gets `toolChoice: {type: 'required'}`, and `doStream` gets no tool choice. | Plausibly, both requests carry the converted tool choice. No test or document says the streamed request should omit it. | not executed; plausible | AiSdkModel.BuildStreamRequestAsWritten, AiSdkModel.StreamRequestDropsToolChoice | AiSdkModel.BuildStreamRequest, AiSdkModel.StreamRequestMatchesGenerate |

=== FILE: aisdk_messages.dfy ===
/**
 * The AI-SDK adapter's translation of agent items into LanguageModelV2 prompt
 * messages (`itemsToLanguageV2Messages` and `convertToAiSdkOutput`).
 *
 * The translation is a left fold over the items that keeps one piece of state
 * besides the messages produced so far: a pending assistant message collecting
 * the tool-call parts of consecutive `function_call` items. The pending message
 * is emitted before the next assistant message, before the next tool result,
 * and at the end of the input. Everything else is emitted immediately, without
 * touching the pending message.
 */
module AiSdkMessages {
  import opened Wrappers
  import opened Json
  import opened Items

  /** A parsed URL; `new URL(...)` itself is a foreign function handed in by the caller. */
  datatype Url = Url(href: string)

  /** The two foreign functions the translation calls: `JSON.parse` and `new URL`. */
  datatype Foreign = Foreign(parseJson: string -> Option<Json>, parseUrl: string -> Option<Url>)

  /** One media entry of a `content` tool output. */
  datatype Media = Media(data: string, mediaType: string)

  /** The AI SDK's tool-result output. */
  datatype AiSdkOutput = TextValue(value: string) | ContentValue(media: seq<Media>)

  /** The `data` of a file part: a URL for images, the file string itself for files. */
  datatype FileData = UrlData(url: Url) | StringData(s: string)

  datatype Part =
    | TextPart(text: string, opts: ProviderData)
    | FilePart(file: Option<string>, data: FileData, mediaType: string, opts: ProviderData)
    | ToolCallPart(toolCallId: string, toolName: string, input: Json, opts: ProviderData)
    | ToolResultPart(toolCallId: string, toolName: string, output: AiSdkOutput, opts: ProviderData)
    | ReasoningPart(text: string, opts: ProviderData)

  /** A LanguageModelV2 prompt message; `RawMsg` is an `unknown` item's provider data passed as is. */
  datatype Message =
    | SystemMsg(content: string, opts: ProviderData)
    | UserMsg(parts: seq<Part>, opts: ProviderData)
    | AssistantMsg(parts: seq<Part>, opts: ProviderData)
    | ToolMsg(parts: seq<Part>, opts: ProviderData)
    | RawMsg(fields: Object)

  /** The exceptions the translation throws. */
  datatype ConversionError =
    | FileIdNotSupported
    | UnknownContentType(kind: string)
    | UnknownMessageType  // its message interpolates the item object itself, so it names no role
    | HostedToolCallsNotSupported
    | ComputerCallsNotSupported
    | ComputerCallResultsNotSupported
    | UnknownItemType(kind: string)
    | UnsupportedToolOutput(kind: string)
    | InvalidUrl(input: string)

  const ImageMediaType: string := "image/*"
  const FileMediaType: string := "application/octet-stream"

  /** `parseArguments`: empty or missing arguments and unparsable text both give `{}`. */
  function ParseArguments(args: Option<string>, parseJson: string -> Option<Json>): (r: Json)
    ensures args.None? || args == Some("") ==> r == JObject(map[])
    ensures args.Some? && args.value != "" && parseJson(args.value).Some? ==> r == parseJson(args.value).value
    ensures r == JObject(map[]) || (args.Some? && parseJson(args.value) == Some(r))
  {
    match args
    case None => JObject(map[])
    case Some(s) =>
      if s == "" then JObject(map[])
      else match parseJson(s)
        case Some(j) => j
        case None => JObject(map[])
  }

  /**
   * Arguments written by a serializer that the parser reads back come back as the
   * value written, the empty object `{}` included.
   */
  lemma ParseArgumentsRoundTrip(j: Json, stringify: Json -> string, parseJson: string -> Option<Json>)
    requires stringify(j) != "" && parseJson(stringify(j)) == Some(j)
    ensures ParseArguments(Some(stringify(j)), parseJson) == j
  {
  }

  /**
   * The arguments become `{}` exactly when they are missing or empty, when they do not
   * parse, or when they are the text of `{}` itself.
   */
  lemma ParseArgumentsEmptyObject(args: Option<string>, parseJson: string -> Option<Json>)
    ensures ParseArguments(args, parseJson) == JObject(map[]) <==>
      || args.None? || args.value == ""
      || parseJson(args.value).None? || parseJson(args.value) == Some(JObject(map[]))
  {
  }

  // ---------------------------------------------------------------------------
  // Tool outputs
  // ---------------------------------------------------------------------------

  /** `convertToAiSdkOutput`: text and single images convert, every other output is refused. */
  function ConvertToAiSdkOutput(o: ToolOutput): (r: Result<AiSdkOutput, ConversionError>)
    ensures r.Err? <==> !(o.kind == "text" && o.text.Some?) && !(o.kind == "image" && o.data.Some? && o.mediaType.Some?)
    ensures r.Err? ==> r.error == UnsupportedToolOutput(o.kind)
    ensures r.Ok? && r.value.TextValue? ==> o.kind == "text" && o.text == Some(r.value.value)
    ensures r.Ok? && r.value.ContentValue? ==>
      o.kind == "image" && r.value.media == [Media(o.data.value, o.mediaType.value)]
  {
    if o.kind == "text" && o.text.Some? then
      Ok(TextValue(o.text.value))
    else if o.kind == "image" && o.data.Some? && o.mediaType.Some? then
      Ok(ContentValue([Media(o.data.value, o.mediaType.value)]))
    else
      Err(UnsupportedToolOutput(o.kind))
  }

  /** The tool output an AI-SDK output came from, when it has a single-entry shape. */
  function ToolOutputOf(a: AiSdkOutput): ToolOutput
  {
    match a
    case TextValue(s) => TextOutput(s)
    case ContentValue(media) =>
      if |media| == 1 then ToolOutput("image", None, Some(media[0].data), Some(media[0].mediaType))
      else ToolOutput("content", None, None, None)
  }

  /** Converting keeps everything the conversion reads, in both directions. */
  lemma ToolOutputRoundTrip(o: ToolOutput, a: AiSdkOutput)
    ensures ConvertToAiSdkOutput(o) == Ok(a) ==>
      ToolOutputOf(a).kind == o.kind
      && (o.kind == "text" ==> ToolOutputOf(a).text == o.text)
      && (o.kind == "image" ==> ToolOutputOf(a).data == o.data && ToolOutputOf(a).mediaType == o.mediaType)
    ensures (a.TextValue? || |a.media| == 1) ==> ConvertToAiSdkOutput(ToolOutputOf(a)) == Ok(a)
  {
    if a.ContentValue? && |a.media| == 1 {
      assert a.media == [a.media[0]];
    }
  }

  // ---------------------------------------------------------------------------
  // Message content
  // ---------------------------------------------------------------------------

  /** One part of a user message given as a list. */
  function ConvertInputContent(c: InputContent, f: Foreign): (r: Result<Part, ConversionError>)
    ensures c.InputText? ==> r == Ok(TextPart(c.text, c.pd))
    ensures c.InputImage? ==> (r.Ok? <==> f.parseUrl(c.image).Some?)
    ensures c.InputImage? && r.Ok? ==> r.value == FilePart(None, UrlData(f.parseUrl(c.image).value), ImageMediaType, c.pd)
    ensures c.InputFile? ==> (r.Ok? <==> c.file.FileString?)
    ensures c.InputFile? && r.Ok? ==>
      r.value == FilePart(Some(c.file.s), StringData(c.file.s), FileMediaType, c.pd)
    ensures c.OtherInputContent? ==> r == Err(UnknownContentType(c.kind))
  {
    match c
    case InputText(text, pd) => Ok(TextPart(text, pd))
    case InputImage(image, pd) =>
      (match f.parseUrl(image)
       case Some(url) => Ok(FilePart(None, UrlData(url), ImageMediaType, pd))
       case None => Err(InvalidUrl(image)))
    case InputFile(file, pd) =>
      (match file
       case FileString(s) => Ok(FilePart(Some(s), StringData(s), FileMediaType, pd))
       case FileObject(_) => Err(FileIdNotSupported))
    case OtherInputContent(kind) => Err(UnknownContentType(kind))
  }

  /** True when a user-message part converts. */
  predicate InputContentSupported(c: InputContent, f: Foreign) {
    match c
    case InputText(_, _) => true
    case InputImage(image, _) => f.parseUrl(image).Some?
    case InputFile(file, _) => file.FileString?
    case OtherInputContent(_) => false
  }

  /** The parts of a user message given as a list, converted one by one, failing on the first bad part. */
  function ConvertInputParts(parts: seq<InputContent>, f: Foreign): (r: Result<seq<Part>, ConversionError>)
    ensures r.Ok? <==> forall i :: 0 <= i < |parts| ==> InputContentSupported(parts[i], f)
    ensures r.Ok? ==> |r.value| == |parts|
    ensures r.Ok? ==> forall i :: 0 <= i < |parts| ==> Ok(r.value[i]) == ConvertInputContent(parts[i], f)
    ensures r.Err? ==> exists i :: 0 <= i < |parts| && ConvertInputContent(parts[i], f) == Err(r.error)
  {
    if |parts| == 0 then Ok([])
    else
      var head :- ConvertInputContent(parts[0], f);
      var tail :- ConvertInputParts(parts[1..], f);
      assert forall i :: 1 <= i < |parts| ==> parts[i] == parts[1..][i - 1];
      Ok([head] + tail)
  }

  /** A user message's content: a plain string becomes one text part with no provider options. */
  function ConvertUserContent(c: UserContent, f: Foreign): (r: Result<seq<Part>, ConversionError>)
    ensures c.UserString? ==> r == Ok([TextPart(c.text, map[])])
    ensures c.UserParts? ==> r == ConvertInputParts(c.parts, f)
  {
    match c
    case UserString(s) => Ok([TextPart(s, map[])])
    case UserParts(parts) => ConvertInputParts(parts, f)
  }

  /** An assistant message's `output_text` parts, in order, as text parts; every other part is dropped. */
  function OutputTextParts(cs: seq<OutputContent>): (r: seq<Part>)
    ensures |r| <= |cs|
    ensures forall i :: 0 <= i < |r| ==> r[i].TextPart?
  {
    if |cs| == 0 then []
    else
      var init := OutputTextParts(cs[..|cs| - 1]);
      match cs[|cs| - 1]
      case OutputText(text, pd) => init + [TextPart(text, pd)]
      case OtherOutputContent(_) => init
  }

  /** Filtering distributes over concatenation: the kept parts stay in their order. */
  lemma {:induction false} OutputTextPartsAppend(a: seq<OutputContent>, b: seq<OutputContent>)
    ensures OutputTextParts(a + b) == OutputTextParts(a) + OutputTextParts(b)
    decreases |b|
  {
    if |b| == 0 {
      assert a + b == a;
    } else {
      assert (a + b)[..|a + b| - 1] == a + b[..|b| - 1];
      OutputTextPartsAppend(a, b[..|b| - 1]);
    }
  }

  /** All-text content is kept whole; content without text vanishes. */
  lemma {:induction false} OutputTextPartsKeepsText(cs: seq<OutputContent>)
    ensures (forall i :: 0 <= i < |cs| ==> cs[i].OutputText?) ==>
      OutputTextParts(cs) == seq(|cs|, i requires 0 <= i < |cs| => TextPart(cs[i].text, cs[i].pd))
    ensures (forall i :: 0 <= i < |cs| ==> !cs[i].OutputText?) ==> OutputTextParts(cs) == []
    decreases |cs|
  {
    if |cs| > 0 {
      var init := cs[..|cs| - 1];
      OutputTextPartsKeepsText(init);
      assert forall i :: 0 <= i < |init| ==> init[i] == cs[i];
    }
  }

  // ---------------------------------------------------------------------------
  // The fold
  // ---------------------------------------------------------------------------

  /** The pending assistant message: its tool-call parts and the provider options of the call that opened it. */
  datatype Pending = Pending(calls: seq<Part>, opts: ProviderData)

  /** The fold's state: messages emitted so far and the pending tool-call message, if any. */
  datatype Acc = Acc(out: seq<Message>, pending: Option<Pending>)

  /** The emitted messages followed by the pending one, as flushing produces them. */
  function Flush(acc: Acc): (r: seq<Message>)
    ensures acc.pending.None? ==> r == acc.out
    ensures acc.pending.Some? ==> r == acc.out + [AssistantMsg(acc.pending.value.calls, acc.pending.value.opts)]
  {
    match acc.pending
    case None => acc.out
    case Some(p) => acc.out + [AssistantMsg(p.calls, p.opts)]
  }

  /** The tool-call part a `function_call` item contributes. */
  function CallPart(callId: string, name: string, arguments: string, pd: ProviderData, f: Foreign): Part {
    ToolCallPart(callId, name, ParseArguments(Some(arguments), f.parseJson), pd)
  }

  /** One iteration of the loop over items. */
  function Step(acc: Acc, item: Item, f: Foreign): Result<Acc, ConversionError>
  {
    match item
    case SystemMessage(content, pd) =>
      Ok(acc.(out := acc.out + [SystemMsg(content, pd)]))
    case UserMessage(content, pd) =>
      var parts :- ConvertUserContent(content, f);
      Ok(acc.(out := acc.out + [UserMsg(parts, pd)]))
    case AssistantMessage(content, pd) =>
      Ok(Acc(Flush(acc) + [AssistantMsg(OutputTextParts(content), pd)], None))
    case OtherRoleMessage(_) =>
      Err(UnknownMessageType)
    case FunctionCall(callId, name, arguments, pd) =>
      var part := CallPart(callId, name, arguments, pd, f);
      (match acc.pending
       case None => Ok(acc.(pending := Some(Pending([part], pd))))
       case Some(p) => Ok(acc.(pending := Some(p.(calls := p.calls + [part])))))
    case FunctionCallResult(callId, name, output, pd) =>
      var converted :- ConvertToAiSdkOutput(output);
      Ok(Acc(Flush(acc) + [ToolMsg([ToolResultPart(callId, name, converted, pd)], pd)], None))
    case HostedToolCall(_, _, _) => Err(HostedToolCallsNotSupported)
    case ComputerCall(_) => Err(ComputerCallsNotSupported)
    case ComputerCallResult(_) => Err(ComputerCallResultsNotSupported)
    case Reasoning(content, pd) =>
      if |content| > 0 && content[0].text.Some? then
        Ok(acc.(out := acc.out + [AssistantMsg([ReasoningPart(content[0].text.value, pd)], pd)]))
      else
        Err(UnknownItemType("reasoning"))
    case UnknownItem(pd) =>
      Ok(acc.(out := acc.out + [RawMsg(pd)]))
    case OtherItem(kind) =>
      Err(UnknownItemType(kind))
  }

  /** The loop over the whole sequence, stated from its last item so that prefixes are folds too. */
  function Fold(items: seq<Item>, f: Foreign): Result<Acc, ConversionError>
    decreases |items|
  {
    if |items| == 0 then Ok(Acc([], None))
    else
      var acc :- Fold(items[..|items| - 1], f);
      Step(acc, items[|items| - 1], f)
  }

  /** `itemsToLanguageV2Messages`. */
  function ItemsToMessages(items: seq<Item>, f: Foreign): (r: Result<seq<Message>, ConversionError>)
    ensures r.Ok? <==> forall i :: 0 <= i < |items| ==> Supported(items[i], f)
    ensures r.Err? ==> exists i :: (0 <= i < |items| && ItemError(items[i], f) == Some(r.error)
      && forall j :: 0 <= j < i ==> Supported(items[j], f))
    ensures r.Ok? ==> ToolCalls(r.value) == InputCalls(items)
    ensures r.Ok? ==> ToolResults(r.value) == InputResults(items)
  {
    FoldErrors(items, f);
    match Fold(items, f)
    case Err(e) => Err(e)
    case Ok(acc) =>
      FoldCallsAndResults(items, f);
      Ok(Flush(acc))
  }

  // ---------------------------------------------------------------------------
  // Reference definitions the fold is proved against
  // ---------------------------------------------------------------------------

  /** The error an item raises on its own, if any; none of them depends on the items around it. */
  function ItemError(item: Item, f: Foreign): Option<ConversionError>
  {
    match item
    case UserMessage(UserParts(parts), _) =>
      if forall i :: 0 <= i < |parts| ==> InputContentSupported(parts[i], f) then None
      else Some(ConvertInputParts(parts, f).error)
    case OtherRoleMessage(_) => Some(UnknownMessageType)
    case FunctionCallResult(_, _, output, _) =>
      if ConvertToAiSdkOutput(output).Ok? then None else Some(UnsupportedToolOutput(output.kind))
    case HostedToolCall(_, _, _) => Some(HostedToolCallsNotSupported)
    case ComputerCall(_) => Some(ComputerCallsNotSupported)
    case ComputerCallResult(_) => Some(ComputerCallResultsNotSupported)
    case Reasoning(content, _) =>
      if |content| > 0 && content[0].text.Some? then None else Some(UnknownItemType("reasoning"))
    case OtherItem(kind) => Some(UnknownItemType(kind))
    case _ => None
  }

  predicate Supported(item: Item, f: Foreign) {
    ItemError(item, f).None?
  }

  /** A tool call as the prompt refers to it. */
  datatype CallRef = CallRef(callId: string, name: string)

  /** The call an item contributes, if it is a `function_call`. */
  function ItemCalls(item: Item): seq<CallRef> {
    if item.FunctionCall? then [CallRef(item.callId, item.name)] else []
  }

  /** The result an item contributes, if it is a `function_call_result`. */
  function ItemResults(item: Item): seq<CallRef> {
    if item.FunctionCallResult? then [CallRef(item.callId, item.name)] else []
  }

  /** The `function_call` items of the input, in order. */
  function InputCalls(items: seq<Item>): seq<CallRef>
  {
    if |items| == 0 then [] else InputCalls(items[..|items| - 1]) + ItemCalls(items[|items| - 1])
  }

  /** The `function_call_result` items of the input, in order. */
  function InputResults(items: seq<Item>): seq<CallRef>
  {
    if |items| == 0 then [] else InputResults(items[..|items| - 1]) + ItemResults(items[|items| - 1])
  }

  function PartCall(p: Part): seq<CallRef> {
    if p.ToolCallPart? then [CallRef(p.toolCallId, p.toolName)] else []
  }

  function PartResult(p: Part): seq<CallRef> {
    if p.ToolResultPart? then [CallRef(p.toolCallId, p.toolName)] else []
  }

  /** The tool-call parts among `parts`, in order. */
  function PartCalls(parts: seq<Part>): seq<CallRef>
  {
    if |parts| == 0 then [] else PartCalls(parts[..|parts| - 1]) + PartCall(parts[|parts| - 1])
  }

  /** The tool-result parts among `parts`, in order. */
  function PartResults(parts: seq<Part>): seq<CallRef>
  {
    if |parts| == 0 then [] else PartResults(parts[..|parts| - 1]) + PartResult(parts[|parts| - 1])
  }

  /** The tool calls a message carries; only assistant messages carry them. */
  function MessageCalls(m: Message): seq<CallRef> {
    if m.AssistantMsg? then PartCalls(m.parts) else []
  }

  /** The tool results a message carries; only tool messages carry them. */
  function MessageResults(m: Message): seq<CallRef> {
    if m.ToolMsg? then PartResults(m.parts) else []
  }

  /** Every tool call the prompt carries, in message order. */
  function ToolCalls(msgs: seq<Message>): seq<CallRef>
  {
    if |msgs| == 0 then [] else ToolCalls(msgs[..|msgs| - 1]) + MessageCalls(msgs[|msgs| - 1])
  }

  /** Every tool result the prompt carries, in message order. */
  function ToolResults(msgs: seq<Message>): seq<CallRef>
  {
    if |msgs| == 0 then [] else ToolResults(msgs[..|msgs| - 1]) + MessageResults(msgs[|msgs| - 1])
  }

  // ---------------------------------------------------------------------------
  // Proofs
  // ---------------------------------------------------------------------------

  lemma AppendOne<T>(s: seq<T>, x: T)
    ensures (s + [x])[..|s + [x]| - 1] == s && (s + [x])[|s + [x]| - 1] == x
  {
  }

  lemma {:induction false} TextPartsHaveNoCalls(cs: seq<OutputContent>)
    ensures PartCalls(OutputTextParts(cs)) == []
    decreases |cs|
  {
    if |cs| > 0 {
      TextPartsHaveNoCalls(cs[..|cs| - 1]);
      var init := OutputTextParts(cs[..|cs| - 1]);
      if cs[|cs| - 1].OutputText? {
        AppendOne(init, TextPart(cs[|cs| - 1].text, cs[|cs| - 1].pd));
      }
    }
  }

  /** A step fails exactly when its item is unsupported, with that item's error. */
  lemma StepError(acc: Acc, item: Item, f: Foreign)
    ensures Step(acc, item, f).Err? <==> !Supported(item, f)
    ensures Step(acc, item, f).Err? ==> ItemError(item, f) == Some(Step(acc, item, f).error)
  {
  }

  lemma {:induction false} FoldErrors(items: seq<Item>, f: Foreign)
    ensures Fold(items, f).Ok? <==> forall i :: 0 <= i < |items| ==> Supported(items[i], f)
    ensures Fold(items, f).Err? ==> exists i :: (0 <= i < |items| && ItemError(items[i], f) == Some(Fold(items, f).error)
      && forall j :: 0 <= j < i ==> Supported(items[j], f))
    decreases |items|
  {
    if |items| > 0 {
      var n := |items| - 1;
      var init := items[..n];
      FoldErrors(init, f);
      assert forall i :: 0 <= i < n ==> init[i] == items[i];
      if Fold(init, f).Ok? {
        StepError(Fold(init, f).value, items[n], f);
      }
    }
  }

  /** Every step only appends to the emitted messages. */
  lemma StepExtends(acc: Acc, item: Item, f: Foreign)
    requires Step(acc, item, f).Ok?
    ensures |acc.out| <= |Step(acc, item, f).value.out|
    ensures Step(acc, item, f).value.out[..|acc.out|] == acc.out
  {
  }

  /** Emitting a message before the pending one adds its own calls and results to those of the flush. */
  lemma FlushEmit(acc: Acc, m: Message)
    ensures ToolCalls(Flush(acc.(out := acc.out + [m]))) == ToolCalls(acc.out) + MessageCalls(m)
      + (if acc.pending.Some? then PartCalls(acc.pending.value.calls) else [])
    ensures ToolResults(Flush(acc.(out := acc.out + [m]))) == ToolResults(acc.out) + MessageResults(m)
    ensures ToolCalls(Flush(acc)) == ToolCalls(acc.out) + (if acc.pending.Some? then PartCalls(acc.pending.value.calls) else [])
    ensures ToolResults(Flush(acc)) == ToolResults(acc.out)
  {
    AppendOne(acc.out, m);
    if acc.pending.Some? {
      var p := acc.pending.value;
      AppendOne(acc.out + [m], AssistantMsg(p.calls, p.opts));
      AppendOne(acc.out, AssistantMsg(p.calls, p.opts));
    }
  }

  /** Emitting a message before the pending one. */
  lemma EmitCase(acc: Acc, m: Message)
    requires MessageCalls(m) == [] && MessageResults(m) == []
    ensures ToolCalls(Flush(acc.(out := acc.out + [m]))) == ToolCalls(Flush(acc))
    ensures ToolResults(Flush(acc.(out := acc.out + [m]))) == ToolResults(Flush(acc))
  {
    FlushEmit(acc, m);
  }

  /** Flushing the pending message, then emitting `m`. */
  lemma FlushCase(acc: Acc, m: Message)
    ensures ToolCalls(Flush(Acc(Flush(acc) + [m], None))) == ToolCalls(Flush(acc)) + MessageCalls(m)
    ensures ToolResults(Flush(Acc(Flush(acc) + [m], None))) == ToolResults(Flush(acc)) + MessageResults(m)
  {
    AppendOne(Flush(acc), m);
  }

  /** Adding a tool-call part to the pending message, opening it if there is none. */
  lemma CallCase(acc: Acc, part: Part, opts: ProviderData)
    requires part.ToolCallPart?
    ensures var p := if acc.pending.Some? then acc.pending.value.(calls := acc.pending.value.calls + [part]) else Pending([part], opts);
      ToolCalls(Flush(acc.(pending := Some(p)))) == ToolCalls(Flush(acc)) + PartCall(part)
      && ToolResults(Flush(acc.(pending := Some(p)))) == ToolResults(Flush(acc))
  {
    var p := if acc.pending.Some? then acc.pending.value.(calls := acc.pending.value.calls + [part]) else Pending([part], opts);
    var calls := if acc.pending.Some? then acc.pending.value.calls else [];
    AppendOne(calls, part);
    assert p.calls == calls + [part];
    assert PartCalls(p.calls) == PartCalls(calls) + PartCall(part);
    AppendOne(acc.out, AssistantMsg(p.calls, p.opts));
    assert ToolCalls(Flush(acc.(pending := Some(p)))) == ToolCalls(acc.out) + PartCalls(p.calls);
    assert ToolResults(Flush(acc.(pending := Some(p)))) == ToolResults(acc.out);
    FlushEmit(acc, SystemMsg("", map[]));
  }

  /** The message an item emits without touching the pending one. */
  function EmittedMessage(item: Item, f: Foreign): Message
    requires item.SystemMessage? || item.UnknownItem? || (item.UserMessage? && ConvertUserContent(item.user, f).Ok?)
      || (item.Reasoning? && |item.reasoning| > 0 && item.reasoning[0].text.Some?)
  {
    match item
    case SystemMessage(content, pd) => SystemMsg(content, pd)
    case UserMessage(content, pd) => UserMsg(ConvertUserContent(content, f).value, pd)
    case UnknownItem(pd) => RawMsg(pd)
    case Reasoning(content, pd) => AssistantMsg([ReasoningPart(content[0].text.value, pd)], pd)
  }

  lemma EmittingStep(acc: Acc, item: Item, f: Foreign)
    requires Step(acc, item, f).Ok?
    requires item.SystemMessage? || item.UserMessage? || item.UnknownItem? || item.Reasoning?
    ensures ToolCalls(Flush(Step(acc, item, f).value)) == ToolCalls(Flush(acc))
    ensures ToolResults(Flush(Step(acc, item, f).value)) == ToolResults(Flush(acc))
  {
    var m := EmittedMessage(item, f);
    assert Step(acc, item, f).value == acc.(out := acc.out + [m]);
    if item.Reasoning? {
      AppendOne([], m.parts[0]);
      assert PartCalls(m.parts) == PartCalls([]) + PartCall(m.parts[0]) == [];
    }
    EmitCase(acc, m);
  }

  /** A `function_call`: its call joins the pending message and no result is added. */
  lemma CallingStep(acc: Acc, item: Item, f: Foreign)
    requires Step(acc, item, f).Ok? && item.FunctionCall?
    ensures ToolCalls(Flush(Step(acc, item, f).value)) == ToolCalls(Flush(acc)) + ItemCalls(item)
    ensures ToolResults(Flush(Step(acc, item, f).value)) == ToolResults(Flush(acc)) + ItemResults(item)
  {
    var part := CallPart(item.callId, item.name, item.arguments, item.pd, f);
    var p := if acc.pending.Some? then acc.pending.value.(calls := acc.pending.value.calls + [part]) else Pending([part], item.pd);
    assert Step(acc, item, f).value == acc.(pending := Some(p));
    CallCase(acc, part, item.pd);
  }

  lemma FlushingStep(acc: Acc, item: Item, f: Foreign)
    requires Step(acc, item, f).Ok?
    requires item.AssistantMessage? || item.FunctionCallResult?
    ensures ToolCalls(Flush(Step(acc, item, f).value)) == ToolCalls(Flush(acc)) + ItemCalls(item)
    ensures ToolResults(Flush(Step(acc, item, f).value)) == ToolResults(Flush(acc)) + ItemResults(item)
  {
    var m := FlushPointMessage(item, f);
    assert Step(acc, item, f).value == Acc(Flush(acc) + [m], None);
    if item.AssistantMessage? {
      TextPartsHaveNoCalls(item.output);
    } else {
      AppendOne([], m.parts[0]);
      assert PartResults(m.parts) == PartResults([]) + PartResult(m.parts[0]) == ItemResults(item);
    }
    FlushCase(acc, m);
  }

  /** What one step adds to the calls and results of the flushed prompt: exactly its item's own. */
  lemma StepCallsAndResults(acc: Acc, item: Item, f: Foreign)
    requires Step(acc, item, f).Ok?
    ensures ToolCalls(Flush(Step(acc, item, f).value)) == ToolCalls(Flush(acc)) + ItemCalls(item)
    ensures ToolResults(Flush(Step(acc, item, f).value)) == ToolResults(Flush(acc)) + ItemResults(item)
  {
    if item.FunctionCall? {
      CallingStep(acc, item, f);
    } else if item.AssistantMessage? || item.FunctionCallResult? {
      FlushingStep(acc, item, f);
    } else {
      EmittingStep(acc, item, f);
    }
  }

  /** The flushed prompt carries exactly the input's calls and results, in input order. */
  lemma {:induction false} FoldCallsAndResults(items: seq<Item>, f: Foreign)
    requires Fold(items, f).Ok?
    ensures ToolCalls(Flush(Fold(items, f).value)) == InputCalls(items)
    ensures ToolResults(Flush(Fold(items, f).value)) == InputResults(items)
    decreases |items|
  {
    if |items| > 0 {
      var n := |items| - 1;
      FoldCallsAndResults(items[..n], f);
      StepCallsAndResults(Fold(items[..n], f).value, items[n], f);
    }
  }

  /** Folding a longer input only appends to what a prefix emitted. */
  lemma {:induction false} FoldPrefix(items: seq<Item>, m: nat, f: Foreign)
    requires m <= |items|
    requires Fold(items, f).Ok?
    ensures Fold(items[..m], f).Ok?
    ensures |Fold(items[..m], f).value.out| <= |Fold(items, f).value.out|
    ensures Fold(items, f).value.out[..|Fold(items[..m], f).value.out|] == Fold(items[..m], f).value.out
    decreases |items| - m
  {
    if m == |items| {
      assert items[..m] == items;
    } else {
      var n := |items| - 1;
      assert items[..n][..m] == items[..m];
      FoldPrefix(items[..n], m, f);
      StepExtends(Fold(items[..n], f).value, items[n], f);
    }
  }

  /** The message an assistant message or a tool result becomes, flushing whatever was pending. */
  function FlushPointMessage(item: Item, f: Foreign): Message
    requires item.AssistantMessage? || (item.FunctionCallResult? && ConvertToAiSdkOutput(item.result).Ok?)
  {
    match item
    case AssistantMessage(content, pd) => AssistantMsg(OutputTextParts(content), pd)
    case FunctionCallResult(callId, name, output, pd) =>
      ToolMsg([ToolResultPart(callId, name, ConvertToAiSdkOutput(output).value, pd)], pd)
  }

  /** A flush point emits the flushed prompt followed by its own message. */
  lemma FlushPointStep(acc: Acc, item: Item, f: Foreign)
    requires Step(acc, item, f).Ok?
    requires item.AssistantMessage? || item.FunctionCallResult?
    ensures item.FunctionCallResult? ==> ConvertToAiSdkOutput(item.result).Ok?
    ensures Step(acc, item, f).value.out == Flush(acc) + [FlushPointMessage(item, f)]
  {
  }

  /**
   * An assistant message or tool result at input position `j` lands at some output
   * position `k` with every earlier `function_call` already emitted before it: in
   * particular a tool call precedes the result that answers it.
   */
  lemma {:induction false} FlushPointOrder(items: seq<Item>, j: nat, f: Foreign)
    requires ItemsToMessages(items, f).Ok?
    requires j < |items| && (items[j].AssistantMessage? || items[j].FunctionCallResult?)
    ensures items[j].FunctionCallResult? ==> ConvertToAiSdkOutput(items[j].result).Ok?
    ensures exists k :: (0 <= k < |ItemsToMessages(items, f).value|
      && ItemsToMessages(items, f).value[k] == FlushPointMessage(items[j], f)
      && ToolCalls(ItemsToMessages(items, f).value[..k]) == InputCalls(items[..j]))
  {
    var final := Fold(items, f).value;
    var out := Flush(final);
    FoldPrefix(items, j + 1, f);
    assert items[..j + 1][..j] == items[..j];
    assert items[..j + 1][j] == items[j];
    var acc := Fold(items[..j], f).value;
    var acc' := Fold(items[..j + 1], f).value;
    FlushPointStep(acc, items[j], f);
    FoldCallsAndResults(items[..j], f);
    var k := |Flush(acc)|;
    PrefixOfPrefix(out, final.out, acc'.out, Flush(acc), FlushPointMessage(items[j], f));
  }

  lemma PrefixOfPrefix<T>(out: seq<T>, a: seq<T>, b: seq<T>, c: seq<T>, x: T)
    requires |a| <= |out| && out[..|a|] == a
    requires |b| <= |a| && a[..|b|] == b
    requires b == c + [x]
    ensures |c| < |out| && out[..|c|] == c && out[|c|] == x
  {
    assert out[..|b|] == b;
  }

  lemma {:induction false} CallsFoldIntoPending(items: seq<Item>, f: Foreign)
    requires |items| > 0
    requires forall i :: 0 <= i < |items| ==> items[i].FunctionCall?
    ensures Fold(items, f).Ok?
    ensures Fold(items, f).value.out == []
    ensures Fold(items, f).value.pending.Some?
    ensures Fold(items, f).value.pending.value.opts == items[0].pd
    decreases |items|
  {
    var n := |items| - 1;
    if n == 0 {
      assert items[..0] == [];
    } else {
      CallsFoldIntoPending(items[..n], f);
    }
  }

  /** A run made only of function calls becomes one assistant message with all their calls, in order. */
  lemma ConsecutiveCallsShareOneMessage(items: seq<Item>, f: Foreign)
    requires |items| > 0
    requires forall i :: 0 <= i < |items| ==> items[i].FunctionCall?
    ensures ItemsToMessages(items, f).Ok?
    ensures |ItemsToMessages(items, f).value| == 1
    ensures ItemsToMessages(items, f).value[0].AssistantMsg?
    ensures ItemsToMessages(items, f).value[0].opts == items[0].pd
    ensures PartCalls(ItemsToMessages(items, f).value[0].parts) == InputCalls(items)
  {
    CallsFoldIntoPending(items, f);
    var acc := Fold(items, f).value;
    FoldCallsAndResults(items, f);
    AppendOne([], Flush(acc)[0]);
  }

  // ---------------------------------------------------------------------------
  // Runs of calls between flush points
  // ---------------------------------------------------------------------------

  /** Only an assistant message or a tool result flushes the pending tool-call message. */
  predicate IsFlushPoint(item: Item) {
    item.AssistantMessage? || item.FunctionCallResult?
  }

  /** What the pending message holds after one step that is not a flush point. */
  lemma RunStep(acc: Acc, item: Item, run: seq<CallRef>, f: Foreign)
    requires Step(acc, item, f).Ok? && !IsFlushPoint(item)
    requires acc.pending.None? <==> run == []
    requires acc.pending.Some? ==> PartCalls(acc.pending.value.calls) == run
    ensures Step(acc, item, f).value.pending.None? <==> run + ItemCalls(item) == []
    ensures Step(acc, item, f).value.pending.Some? ==>
      PartCalls(Step(acc, item, f).value.pending.value.calls) == run + ItemCalls(item)
  {
    if item.FunctionCall? {
      var part := CallPart(item.callId, item.name, item.arguments, item.pd, f);
      var calls := if acc.pending.Some? then acc.pending.value.calls else [];
      AppendOne(calls, part);
      assert PartCalls(calls + [part]) == PartCalls(calls) + PartCall(part);
    } else {
      assert run + ItemCalls(item) == run;
    }
  }

  /**
   * From a flush point (or the start) on, as long as no other flush point comes, the
   * pending message holds exactly the calls met so far: the system, user, reasoning and
   * unknown items in between do not close it.
   */
  lemma {:induction false} PendingTracksRun(items: seq<Item>, a: nat, k: nat, f: Foreign)
    requires a <= k <= |items|
    requires Fold(items[..k], f).Ok?
    requires a == 0 || IsFlushPoint(items[a - 1])
    requires forall i :: a <= i < k ==> !IsFlushPoint(items[i])
    ensures Fold(items[..k], f).value.pending.None? <==> InputCalls(items[a..k]) == []
    ensures Fold(items[..k], f).value.pending.Some? ==>
      PartCalls(Fold(items[..k], f).value.pending.value.calls) == InputCalls(items[a..k])
    decreases k
  {
    if k == a {
      assert items[a..k] == [];
      if a > 0 {
        assert items[..a][..a - 1] == items[..a - 1];
        assert items[..a][a - 1] == items[a - 1];
      }
    } else {
      FoldLast(items, k, f);
      PendingTracksRun(items, a, k - 1, f);
      PendingStep(items, a, k, f);
    }
  }

  /** One more item of the stretch, not a flush point: the pending calls grow by its calls. */
  lemma PendingStep(items: seq<Item>, a: nat, k: nat, f: Foreign)
    requires a < k <= |items| && Fold(items[..k], f).Ok? && !IsFlushPoint(items[k - 1])
    requires Fold(items[..k - 1], f).Ok?
    requires Fold(items[..k - 1], f).value.pending.None? <==> InputCalls(items[a..k - 1]) == []
    requires Fold(items[..k - 1], f).value.pending.Some? ==>
      PartCalls(Fold(items[..k - 1], f).value.pending.value.calls) == InputCalls(items[a..k - 1])
    ensures Fold(items[..k], f).value.pending.None? <==> InputCalls(items[a..k]) == []
    ensures Fold(items[..k], f).value.pending.Some? ==>
      PartCalls(Fold(items[..k], f).value.pending.value.calls) == InputCalls(items[a..k])
  {
    FoldLast(items, k, f);
    InputCallsLast(items, a, k);
    RunStep(Fold(items[..k - 1], f).value, items[k - 1], InputCalls(items[a..k - 1]), f);
  }

  /** The fold of a prefix is the fold of the prefix one shorter, then one step. */
  lemma FoldLast(items: seq<Item>, k: nat, f: Foreign)
    requires 0 < k <= |items| && Fold(items[..k], f).Ok?
    ensures Fold(items[..k - 1], f).Ok? && Fold(items[..k], f) == Step(Fold(items[..k - 1], f).value, items[k - 1], f)
  {
    assert items[..k][..k - 1] == items[..k - 1];
    assert items[..k][k - 1] == items[k - 1];
  }

  /** The calls of a stretch are the calls of the stretch one shorter, then those of its last item. */
  lemma InputCallsLast(items: seq<Item>, a: nat, k: nat)
    requires a < k <= |items|
    ensures InputCalls(items[a..k]) == InputCalls(items[a..k - 1]) + ItemCalls(items[k - 1])
  {
    assert items[a..k][..k - 1 - a] == items[a..k - 1];
    assert items[a..k][k - 1 - a] == items[k - 1];
  }

  /**
   * The calls of one stretch between flush points, `items[a..b]`, land as ONE assistant
   * message carrying all of them in input order, emitted right before the flush point
   * that ends the stretch, or last when the input ends first.
   */
  lemma RunOfCallsIsOneMessage(items: seq<Item>, a: nat, b: nat, f: Foreign) returns (k: nat)
    requires ItemsToMessages(items, f).Ok?
    requires a <= b <= |items|
    requires a == 0 || IsFlushPoint(items[a - 1])
    requires forall i :: a <= i < b ==> !IsFlushPoint(items[i])
    requires b == |items| || IsFlushPoint(items[b])
    requires InputCalls(items[a..b]) != []
    ensures b < |items| && items[b].FunctionCallResult? ==> ConvertToAiSdkOutput(items[b].result).Ok?
    ensures var out := ItemsToMessages(items, f).value;
      && k < |out| && out[k].AssistantMsg? && PartCalls(out[k].parts) == InputCalls(items[a..b])
      && (b == |items| ==> k == |out| - 1)
      && (b < |items| ==> k + 1 < |out| && out[k + 1] == FlushPointMessage(items[b], f))
  {
    assert ItemsToMessages(items, f).value == Flush(Fold(items, f).value);
    assert b < |items| ==> Supported(items[b], f);
    k := RunInFlush(items, a, b, f);
  }

  lemma RunInFlush(items: seq<Item>, a: nat, b: nat, f: Foreign) returns (k: nat)
    requires Fold(items, f).Ok?
    requires a <= b <= |items|
    requires a == 0 || IsFlushPoint(items[a - 1])
    requires forall i :: a <= i < b ==> !IsFlushPoint(items[i])
    requires b == |items| || IsFlushPoint(items[b])
    requires b < |items| && items[b].FunctionCallResult? ==> ConvertToAiSdkOutput(items[b].result).Ok?
    requires InputCalls(items[a..b]) != []
    ensures var out := Flush(Fold(items, f).value);
      && k < |out| && out[k].AssistantMsg? && PartCalls(out[k].parts) == InputCalls(items[a..b])
      && (b == |items| ==> k == |out| - 1)
      && (b < |items| ==> k + 1 < |out| && out[k + 1] == FlushPointMessage(items[b], f))
  {
    FoldPrefix(items, b, f);
    PendingTracksRun(items, a, b, f);
    var acc := Fold(items[..b], f).value;
    assert acc.pending.Some? && PartCalls(acc.pending.value.calls) == InputCalls(items[a..b]);
    if b == |items| {
      assert items[..b] == items;
      assert Fold(items, f).value == acc;
      k := RunAtEnd(acc);
    } else {
      k := RunAtFlushPoint(items, b, f);
    }
  }

  /** With the input over, the pending message is the last one flushed. */
  lemma RunAtEnd(acc: Acc) returns (k: nat)
    requires acc.pending.Some?
    ensures k == |Flush(acc)| - 1
    ensures Flush(acc)[k] == AssistantMsg(acc.pending.value.calls, acc.pending.value.opts)
  {
    k := |acc.out|;
  }

  /** A flush point emits the pending message, then its own, and later steps keep both. */
  lemma RunAtFlushPoint(items: seq<Item>, b: nat, f: Foreign) returns (k: nat)
    requires b < |items| && IsFlushPoint(items[b])
    requires Fold(items, f).Ok? && Fold(items[..b], f).Ok?
    requires Fold(items[..b], f).value.pending.Some?
    requires items[b].FunctionCallResult? ==> ConvertToAiSdkOutput(items[b].result).Ok?
    ensures var p := Fold(items[..b], f).value.pending.value; var out := Flush(Fold(items, f).value);
      k + 1 < |out| && out[k] == AssistantMsg(p.calls, p.opts) && out[k + 1] == FlushPointMessage(items[b], f)
  {
    var acc := Fold(items[..b], f).value;
    var p := acc.pending.value;
    var out := Flush(Fold(items, f).value);
    FoldPrefix(items, b + 1, f);
    assert items[..b + 1][..b] == items[..b];
    assert items[..b + 1][b] == items[b];
    var acc' := Fold(items[..b + 1], f).value;
    FlushPointStep(acc, items[b], f);
    PrefixOfPrefix(out, Fold(items, f).value.out, acc'.out, Flush(acc), FlushPointMessage(items[b], f));
    k := |acc.out|;
    assert out[k] == Flush(acc)[k];
    assert out[k + 1] == FlushPointMessage(items[b], f);
  }

  /**
   * A message that does not flush is emitted in front of the pending tool-call message,
   * which stays open.
   */
  lemma EmittedOvertakesPending(acc: Acc, item: Item, f: Foreign)
    requires Step(acc, item, f).Ok?
    requires item.SystemMessage? || item.UserMessage? || item.UnknownItem? || item.Reasoning?
    ensures Step(acc, item, f).value.pending == acc.pending
    ensures Flush(Step(acc, item, f).value) == acc.out + [EmittedMessage(item, f)]
      + (if acc.pending.Some? then [AssistantMsg(acc.pending.value.calls, acc.pending.value.opts)] else [])
  {
  }

  /**
   * A user message between a call and its result comes out before the call:
   * `[call, user, result]` becomes `[user, assistant(call), tool(result)]`.
   */
  lemma UserMessageOvertakesCall(call: Item, user: Item, result: Item, f: Foreign)
    requires call.FunctionCall? && user.UserMessage? && result.FunctionCallResult?
    requires ItemsToMessages([call, user, result], f).Ok?
    ensures ConvertUserContent(user.user, f).Ok? && ConvertToAiSdkOutput(result.result).Ok?
    ensures ItemsToMessages([call, user, result], f).value == [
      UserMsg(ConvertUserContent(user.user, f).value, user.pd),
      AssistantMsg([CallPart(call.callId, call.name, call.arguments, call.pd, f)], call.pd),
      ToolMsg([ToolResultPart(result.callId, result.name, ConvertToAiSdkOutput(result.result).value, result.pd)], result.pd)]
  {
    var items := [call, user, result];
    assert Supported(items[1], f) && Supported(items[2], f);
    var part := CallPart(call.callId, call.name, call.arguments, call.pd, f);
    var userMsg := UserMsg(ConvertUserContent(user.user, f).value, user.pd);
    assert [call, user][..1] == [call] && [call][..0] == [];
    assert items[..2] == [call, user] && items[..3] == items;
    assert Fold([call, user], f).Ok?;
    assert Fold([call], f) == Ok(Acc([], Some(Pending([part], call.pd))));
    var acc1 := Acc([], Some(Pending([part], call.pd)));
    assert Fold([call, user], f) == Step(acc1, user, f);
    assert Step(acc1, user, f).Ok?;
    EmittedOvertakesPending(acc1, user, f);
    var acc2 := Step(acc1, user, f).value;
    assert acc2.out == [userMsg];
    assert Fold(items, f) == Step(acc2, result, f);
    FlushPointStep(acc2, result, f);
  }
}

=== FILE: aisdk_model.dfy ===
/**
 * The AI-SDK adapter's `getResponse` / `getStreamedResponse` request shaping and
 * the assembly of a non-streamed `doGenerate` result into a model response.
 */
module AiSdkModel {
  import opened Wrappers
  import opened Json
  import opened Items
  import opened AiSdkMessages
  import opened AiSdkTools

  // ---------------------------------------------------------------------------
  // Requests
  // ---------------------------------------------------------------------------

  /** A request's input: a bare string, or a list of protocol items. */
  datatype RequestInput = TextRequest(text: string) | ItemsRequest(items: seq<Item>)

  /** The sampling settings, passed through untouched (`maxTokens` is sent as `maxOutputTokens`). */
  datatype Sampling = Sampling(
    temperature: Option<Json>, topP: Option<Json>, frequencyPenalty: Option<Json>,
    presencePenalty: Option<Json>, maxTokens: Option<Json>)

  datatype ModelSettings = ModelSettings(toolChoice: Option<string>, sampling: Sampling, providerData: Option<Object>)

  datatype ModelRequest = ModelRequest(
    systemInstructions: Option<string>, input: RequestInput, settings: ModelSettings,
    tools: seq<Tool>, handoffs: seq<Handoff>, outputType: OutputType)

  /** A property of the request object handed to `doGenerate` / `doStream`. */
  datatype SdkField =
    | ToolsField(tools: seq<LanguageModelTool>)
    /** `toolChoice`, `undefined` when there is none. */
    | ToolChoiceField(choice: Option<ToolChoice>)
    | PromptField(prompt: seq<Message>)
    /** A sampling setting, `undefined` when it is not set. */
    | SettingField(setting: Option<Json>)
    | FormatField(format: ResponseFormat)
    /** A `providerData` entry, spread over the computed properties. */
    | Provided(value: Json)

  /** The request object, by property name. */
  type SdkRequest = map<string, SdkField>

  /** The exceptions building a request throws, in the order `getResponse` raises them. */
  datatype RequestError = Conversion(e: ConversionError) | Tools(t: ToolError) | ZodNotSupported

  /** `if (request.systemInstructions)`: present and not the empty string. */
  predicate HasInstructions(instructions: Option<string>) {
    instructions.Some? && instructions.value != ""
  }

  /** The single user message a string input becomes. */
  function UserTextMessage(text: string): Message {
    UserMsg([TextPart(text, map[])], map[])
  }

  /**
   * The prompt: a string input becomes one user text message, an item list goes
   * through `itemsToLanguageV2Messages`; truthy instructions come first as a system message.
   */
  function BuildPrompt(instructions: Option<string>, input: RequestInput, f: Foreign): (r: Result<seq<Message>, ConversionError>)
    ensures input.TextRequest? ==> r.Ok?
    ensures input.ItemsRequest? ==> (r.Ok? <==> ItemsToMessages(input.items, f).Ok?)
    ensures input.ItemsRequest? && r.Err? ==> r.error == ItemsToMessages(input.items, f).error
    ensures r.Ok? && HasInstructions(instructions) ==> |r.value| >= 1 && r.value[0] == SystemMsg(instructions.value, map[])
    ensures r.Ok? && input.TextRequest? ==>
      |r.value| == (if HasInstructions(instructions) then 2 else 1) && r.value[|r.value| - 1] == UserTextMessage(input.text)
    ensures r.Ok? && input.ItemsRequest? ==>
      r.value[(if HasInstructions(instructions) then 1 else 0)..] == ItemsToMessages(input.items, f).value
  {
    var body :- match input
      case TextRequest(text) => Ok([UserTextMessage(text)])
      case ItemsRequest(items) => ItemsToMessages(items, f);
    if HasInstructions(instructions) then Ok([SystemMsg(instructions.value, map[])] + body) else Ok(body)
  }

  /** A system message carries no tool calls, so the prompt's calls are exactly the input's. */
  lemma PromptKeepsToolCalls(instructions: Option<string>, items: seq<Item>, f: Foreign)
    requires BuildPrompt(instructions, ItemsRequest(items), f).Ok?
    ensures ToolCalls(BuildPrompt(instructions, ItemsRequest(items), f).value) == InputCalls(items)
  {
    var body := ItemsToMessages(items, f).value;
    if HasInstructions(instructions) {
      ToolCallsPrepend(SystemMsg(instructions.value, map[]), body);
    }
  }

  lemma {:induction false} ToolCallsPrepend(m: Message, msgs: seq<Message>)
    ensures ToolCalls([m] + msgs) == MessageCalls(m) + ToolCalls(msgs)
    decreases |msgs|
  {
    if |msgs| == 0 {
      assert ([m] + msgs)[..0] == [];
    } else {
      var init := msgs[..|msgs| - 1];
      assert ([m] + msgs)[..|msgs|] == [m] + init;
      ToolCallsPrepend(m, init);
    }
  }

  predicate IsZod(o: OutputType) {
    o.SchemaType? && o.isZod
  }

  /** The properties both requests compute from the prompt, the tools, the sampling settings and the output type. */
  function CommonFields(tools: seq<LanguageModelTool>, prompt: seq<Message>, sampling: Sampling,
                        format: ResponseFormat): map<string, SdkField> {
    map["tools" := ToolsField(tools), "prompt" := PromptField(prompt),
        "temperature" := SettingField(sampling.temperature), "topP" := SettingField(sampling.topP),
        "frequencyPenalty" := SettingField(sampling.frequencyPenalty),
        "presencePenalty" := SettingField(sampling.presencePenalty),
        "maxOutputTokens" := SettingField(sampling.maxTokens), "responseFormat" := FormatField(format)]
  }

  /** The names of the properties both requests compute. */
  const CommonKeys: set<string> :=
    {"tools", "prompt", "temperature", "topP", "frequencyPenalty", "presencePenalty", "maxOutputTokens", "responseFormat"}

  /** `...(providerData ?? {})`: every `providerData` entry as a property of its own. */
  function ProvidedFields(providerData: Option<Object>): (r: map<string, SdkField>)
    ensures r.Keys == providerData.GetOr(map[]).Keys
    ensures forall k :: k in r ==> r[k] == Provided(providerData.GetOr(map[])[k])
  {
    var pd := providerData.GetOr(map[]);
    map k | k in pd :: Provided(pd[k])
  }

  /**
   * `request` holds `computed` under `key`, unless `providerData` has that key: spread last,
   * the `providerData` entry then wins.
   */
  predicate Carries(request: SdkRequest, providerData: Option<Object>, key: string, computed: SdkField) {
    var pd := providerData.GetOr(map[]);
    key in request && request[key] == (if key in pd then Provided(pd[key]) else computed)
  }

  /** The sampling settings, each under its own property unless `providerData` overrides it. */
  predicate CarriesSampling(request: SdkRequest, providerData: Option<Object>, sampling: Sampling) {
    && Carries(request, providerData, "temperature", SettingField(sampling.temperature))
    && Carries(request, providerData, "topP", SettingField(sampling.topP))
    && Carries(request, providerData, "frequencyPenalty", SettingField(sampling.frequencyPenalty))
    && Carries(request, providerData, "presencePenalty", SettingField(sampling.presencePenalty))
    && Carries(request, providerData, "maxOutputTokens", SettingField(sampling.maxTokens))
  }

  /** Every `providerData` entry is sent as it is, whatever the adapter computed under that name. */
  predicate SendsProviderData(request: SdkRequest, providerData: Option<Object>) {
    forall k :: k in providerData.GetOr(map[]) ==> k in request && request[k] == Provided(providerData.GetOr(map[])[k])
  }

  /** The computed properties with `providerData` spread over them. */
  function Assemble(computed: map<string, SdkField>, providerData: Option<Object>): (r: SdkRequest)
    ensures r.Keys == computed.Keys + providerData.GetOr(map[]).Keys
    ensures forall k :: k in computed ==> Carries(r, providerData, k, computed[k])
    ensures SendsProviderData(r, providerData)
  {
    Spread(computed, ProvidedFields(providerData))
  }

  /** The streamed request as written computes no `toolChoice`. */
  lemma CommonFieldsLackToolChoice(tools: seq<LanguageModelTool>, prompt: seq<Message>, sampling: Sampling, format: ResponseFormat)
    ensures "toolChoice" !in CommonFields(tools, prompt, sampling, format)
  {
  }

  /** Each computed property under its own name. */
  lemma CommonFieldsNamed(tools: seq<LanguageModelTool>, prompt: seq<Message>, sampling: Sampling, format: ResponseFormat,
                          choice: Option<SdkField>)
    ensures var c := CommonFields(tools, prompt, sampling, format);
      var m := if choice.Some? then c["toolChoice" := choice.value] else c;
      && m.Keys == CommonKeys + (if choice.Some? then {"toolChoice"} else {})
      && m["tools"] == ToolsField(tools) && m["prompt"] == PromptField(prompt)
      && m["temperature"] == SettingField(sampling.temperature) && m["topP"] == SettingField(sampling.topP)
      && m["frequencyPenalty"] == SettingField(sampling.frequencyPenalty)
      && m["presencePenalty"] == SettingField(sampling.presencePenalty)
      && m["maxOutputTokens"] == SettingField(sampling.maxTokens) && m["responseFormat"] == FormatField(format)
      && (choice.Some? ==> m["toolChoice"] == choice.value)
  {
  }

  /**
   * The request `getResponse` hands to `doGenerate`. Errors are raised in this order: input
   * conversion, then tool conversion, then a Zod output type.
   */
  function BuildGenerateRequest(provider: string, req: ModelRequest, f: Foreign): (r: Result<SdkRequest, RequestError>)
    ensures r.Ok? <==>
      BuildPrompt(req.systemInstructions, req.input, f).Ok?
      && ToolsForRequest(provider, req.tools, req.handoffs).Ok? && !IsZod(req.outputType)
    ensures BuildPrompt(req.systemInstructions, req.input, f).Err? ==>
      r == Err(Conversion(BuildPrompt(req.systemInstructions, req.input, f).error))
    ensures BuildPrompt(req.systemInstructions, req.input, f).Ok? && ToolsForRequest(provider, req.tools, req.handoffs).Err? ==>
      r == Err(Tools(ToolsForRequest(provider, req.tools, req.handoffs).error))
    ensures var pd := req.settings.providerData;
      r.Ok? ==> r.value.Keys == CommonKeys + {"toolChoice"} + pd.GetOr(map[]).Keys
    ensures var pd := req.settings.providerData;
      r.Ok? ==> Carries(r.value, pd, "prompt", PromptField(BuildPrompt(req.systemInstructions, req.input, f).value))
    ensures var pd := req.settings.providerData;
      r.Ok? ==> Carries(r.value, pd, "tools", ToolsField(ToolsForRequest(provider, req.tools, req.handoffs).value))
    ensures var pd := req.settings.providerData;
      r.Ok? ==> Carries(r.value, pd, "toolChoice", ToolChoiceField(ToolChoiceToLanguageV2Format(req.settings.toolChoice)))
    ensures var pd := req.settings.providerData;
      r.Ok? ==> CarriesSampling(r.value, pd, req.settings.sampling)
    ensures var pd := req.settings.providerData;
      r.Ok? ==> Carries(r.value, pd, "responseFormat", FormatField(GetResponseFormat(req.outputType)))
    ensures r.Ok? ==> SendsProviderData(r.value, req.settings.providerData)
  {
    var prompt :- BuildPrompt(req.systemInstructions, req.input, f).MapError(e => Conversion(e));
    var tools :- ToolsForRequest(provider, req.tools, req.handoffs).MapError(e => Tools(e));
    if IsZod(req.outputType) then Err(ZodNotSupported)
    else
      var choice := ToolChoiceField(ToolChoiceToLanguageV2Format(req.settings.toolChoice));
      CommonFieldsNamed(tools, prompt, req.settings.sampling, GetResponseFormat(req.outputType), Some(choice));
      Ok(Assemble(CommonFields(tools, prompt, req.settings.sampling, GetResponseFormat(req.outputType))["toolChoice" := choice],
                  req.settings.providerData))
  }

  /**
   * The request `getStreamedResponse` hands to `doStream`, as the adapter builds it: no Zod
   * check, and no `toolChoice` property unless `providerData` supplies one.
   */
  function BuildStreamRequestAsWritten(provider: string, req: ModelRequest, f: Foreign): (r: Result<SdkRequest, RequestError>)
    ensures r.Ok? <==>
      BuildPrompt(req.systemInstructions, req.input, f).Ok? && ToolsForRequest(provider, req.tools, req.handoffs).Ok?
    ensures r.Ok? ==> ("toolChoice" in r.value <==> "toolChoice" in req.settings.providerData.GetOr(map[]))
    ensures r.Ok? ==> SendsProviderData(r.value, req.settings.providerData)
  {
    var prompt :- BuildPrompt(req.systemInstructions, req.input, f).MapError(e => Conversion(e));
    var tools :- ToolsForRequest(provider, req.tools, req.handoffs).MapError(e => Tools(e));
    CommonFieldsLackToolChoice(tools, prompt, req.settings.sampling, GetResponseFormat(req.outputType));
    Ok(Assemble(CommonFields(tools, prompt, req.settings.sampling, GetResponseFormat(req.outputType)), req.settings.providerData))
  }

  /** The streamed request as evidently intended: the same tool choice the non-streamed request sends. */
  function BuildStreamRequest(provider: string, req: ModelRequest, f: Foreign): (r: Result<SdkRequest, RequestError>)
    ensures r.Ok? <==>
      BuildPrompt(req.systemInstructions, req.input, f).Ok? && ToolsForRequest(provider, req.tools, req.handoffs).Ok?
    ensures r.Ok? ==>
      Carries(r.value, req.settings.providerData, "toolChoice", ToolChoiceField(ToolChoiceToLanguageV2Format(req.settings.toolChoice)))
  {
    var prompt :- BuildPrompt(req.systemInstructions, req.input, f).MapError(e => Conversion(e));
    var tools :- ToolsForRequest(provider, req.tools, req.handoffs).MapError(e => Tools(e));
    var choice := ToolChoiceField(ToolChoiceToLanguageV2Format(req.settings.toolChoice));
    CommonFieldsNamed(tools, prompt, req.settings.sampling, GetResponseFormat(req.outputType), Some(choice));
    Ok(Assemble(CommonFields(tools, prompt, req.settings.sampling, GetResponseFormat(req.outputType))["toolChoice" := choice],
                req.settings.providerData))
  }

  /** Apart from the Zod check, the corrected streamed request is the non-streamed one. */
  lemma StreamRequestMatchesGenerate(provider: string, req: ModelRequest, f: Foreign)
    requires !IsZod(req.outputType)
    ensures BuildStreamRequest(provider, req, f) == BuildGenerateRequest(provider, req, f)
  {
  }

  /** A request with `toolChoice: 'required'` loses it when streamed: the two requests differ. */
  lemma StreamRequestDropsToolChoice(f: Foreign)
    ensures var req := ModelRequest(None, TextRequest("hi"), ModelSettings(Some("required"), Sampling(None, None, None, None, None), None),
                                    [], [], TextType);
      && BuildGenerateRequest("p", req, f).Ok?
      && BuildGenerateRequest("p", req, f).value["toolChoice"] == ToolChoiceField(Some(RequiredChoice))
      && BuildStreamRequestAsWritten("p", req, f).Ok? && "toolChoice" !in BuildStreamRequestAsWritten("p", req, f).value
  {
  }

  /**
   * `providerData` changes only the properties it names: two requests that differ only in
   * their `providerData` agree on every other property.
   */
  lemma ProviderDataTouchesOnlyItsKeys(provider: string, req: ModelRequest, other: Option<Object>, f: Foreign)
    requires BuildGenerateRequest(provider, req, f).Ok?
    ensures var r1 := BuildGenerateRequest(provider, req, f).value;
      var r2 := BuildGenerateRequest(provider, req.(settings := req.settings.(providerData := other)), f).value;
      forall k :: k in r1 && k !in req.settings.providerData.GetOr(map[]) && k !in other.GetOr(map[]) ==> k in r2 && r1[k] == r2[k]
  {
  }

  /** A `providerData` entry named like a computed property replaces it: here the tool choice and the temperature. */
  lemma ProviderDataOverridesComputed(f: Foreign)
    ensures var pd := map["toolChoice" := JString("none"), "temperature" := JNumber(1)];
      var req := ModelRequest(None, TextRequest("hi"),
                              ModelSettings(Some("required"), Sampling(Some(JNumber(0)), None, None, None, None), Some(pd)),
                              [], [], TextType);
      && BuildGenerateRequest("p", req, f).Ok?
      && BuildGenerateRequest("p", req, f).value["toolChoice"] == Provided(JString("none"))
      && BuildGenerateRequest("p", req, f).value["temperature"] == Provided(JNumber(1))
  {
  }

  // ---------------------------------------------------------------------------
  // Assembling a `doGenerate` result
  // ---------------------------------------------------------------------------

  /** A provider's token count: missing, `NaN`, or a number. */
  datatype Count = Absent | NaN | Num(n: int)

  /** `Number.isNaN(x) ? 0 : (x ?? 0)`. */
  function TokenValue(c: Count): (r: int)
    ensures c.Num? ==> r == c.n
    ensures !c.Num? ==> r == 0
  {
    match c
    case Num(n) => n
    case _ => 0
  }

  datatype ModelUsage = ModelUsage(inputTokens: int, outputTokens: int, totalTokens: int)

  /** The response usage: missing and `NaN` counts are zero and the total is their sum. */
  function UsageOf(input: Count, output: Count): (u: ModelUsage)
    ensures u.inputTokens == TokenValue(input) && u.outputTokens == TokenValue(output)
    ensures u.totalTokens == u.inputTokens + u.outputTokens
    ensures !input.Num? && !output.Num? ==> u == ModelUsage(0, 0, 0)
  {
    var i := TokenValue(input);
    var o := TokenValue(output);
    ModelUsage(i, o, i + o)
  }

  /** A tool call's `input`: a string, a JSON value, or missing. */
  datatype ToolInput = InputString(s: string) | InputValue(v: Json) | InputMissing

  /** An entry of `result.content`; `NullContent` is a falsy entry. */
  datatype ContentPart =
    | ToolCallContent(toolCallId: string, toolName: string, input: ToolInput)
    /** A `text` entry; `text` is present only when it is a string. */
    | TextContent(text: Option<string>)
    | OtherContent(kind: string)
    | NullContent

  /** The parts of a `doGenerate` result the adapter reads; `content` may be missing. */
  datatype GenerateResult = GenerateResult(
    content: Option<seq<ContentPart>>, providerMetadata: ProviderData, responseId: Option<string>,
    inputTokens: Count, outputTokens: Count)

  datatype ModelResponse = ModelResponse(responseId: string, usage: ModelUsage, output: seq<Item>)

  /** A tool call's arguments: a string is kept, anything else is stringified, a missing or null input as `{}`. */
  function CallArguments(input: ToolInput, stringify: Json -> string): (r: string)
    ensures input.InputString? ==> r == input.s
    ensures input.InputMissing? || input == InputValue(JNull) ==> r == stringify(JObject(map[]))
    ensures input.InputValue? && input.v != JNull ==> r == stringify(input.v)
  {
    match input
    case InputString(s) => s
    case InputValue(v) => if v == JNull then stringify(JObject(map[])) else stringify(v)
    case InputMissing => stringify(JObject(map[]))
  }

  function CallItem(c: ContentPart, meta: ProviderData, stringify: Json -> string): Item
    requires c.ToolCallContent?
  {
    FunctionCall(c.toolCallId, c.toolName, CallArguments(c.input, stringify), meta)
  }

  /** The `function_call` items for the tool calls in `content`, walked front to back. */
  function CallItems(content: seq<ContentPart>, meta: ProviderData, stringify: Json -> string): (r: seq<Item>)
    ensures |r| == CountCalls(content)
    ensures forall j :: 0 <= j < |r| ==> r[j].FunctionCall? && r[j].pd == meta
  {
    if |content| == 0 then []
    else
      CountCallsPrepend(content[0], content[1..]);
      assert content == [content[0]] + content[1..];
      (if content[0].ToolCallContent? then [CallItem(content[0], meta, stringify)] else [])
      + CallItems(content[1..], meta, stringify)
  }

  /** The number of tool-call entries in `content`, counted from the back. */
  function CountCalls(content: seq<ContentPart>): nat
  {
    if |content| == 0 then 0
    else CountCalls(content[..|content| - 1]) + (if content[|content| - 1].ToolCallContent? then 1 else 0)
  }

  lemma {:induction false} CountCallsPrepend(c: ContentPart, content: seq<ContentPart>)
    ensures CountCalls([c] + content) == (if c.ToolCallContent? then 1 else 0) + CountCalls(content)
    decreases |content|
  {
    if |content| == 0 {
      assert ([c] + content)[..0] == [];
    } else {
      var init := content[..|content| - 1];
      assert ([c] + content)[..|content|] == [c] + init;
      CountCallsPrepend(c, init);
    }
  }

  /**
   * Order is kept: the tool call at `content[i]` is output number "calls before i",
   * so the output lists every call once, in content order.
   */
  lemma {:induction false} CallItemPosition(content: seq<ContentPart>, i: nat, meta: ProviderData, stringify: Json -> string)
    requires i < |content| && content[i].ToolCallContent?
    ensures CountCalls(content[..i]) < |CallItems(content, meta, stringify)|
    ensures CallItems(content, meta, stringify)[CountCalls(content[..i])] == CallItem(content[i], meta, stringify)
    decreases i
  {
    var rest := content[1..];
    var head := if content[0].ToolCallContent? then [CallItem(content[0], meta, stringify)] else [];
    assert CallItems(content, meta, stringify) == head + CallItems(rest, meta, stringify);
    if i == 0 {
      assert content[..0] == [];
    } else {
      CallItemPosition(rest, i - 1, meta, stringify);
      assert content[..i] == [content[0]] + rest[..i - 1];
      CountCallsPrepend(content[0], rest[..i - 1]);
    }
  }

  predicate IsText(c: ContentPart) {
    c.TextContent? && c.text.Some?
  }

  /** `content.find(c => c && c.type === 'text' && typeof c.text === 'string')`. */
  function FirstText(content: seq<ContentPart>): (r: Option<string>)
    ensures r.None? <==> forall k :: 0 <= k < |content| ==> !IsText(content[k])
    ensures r.Some? ==> exists j :: (0 <= j < |content| && IsText(content[j]) && content[j].text.value == r.value
      && forall k :: 0 <= k < j ==> !IsText(content[k]))
  {
    if |content| == 0 then None
    else if IsText(content[0]) then
      assert IsText(content[0]) && content[0].text.value == content[0].text.value;
      Some(content[0].text.value)
    else
      var r := FirstText(content[1..]);
      assert forall k :: 1 <= k < |content| ==> content[k] == content[1..][k - 1];
      if r.Some? then
        var j :| 0 <= j < |content[1..]| && IsText(content[1..][j]) && content[1..][j].text.value == r.value
          && forall k :: 0 <= k < j ==> !IsText(content[1..][k]);
        assert IsText(content[j + 1]) && content[j + 1].text.value == r.value;
        r
      else r
  }

  /**
   * `getResponse`'s output: one `function_call` per tool call, in content order, carrying the
   * provider metadata; only when there is no tool call, the first text entry as an assistant message.
   */
  function AssembleOutput(result: GenerateResult, stringify: Json -> string): (r: seq<Item>)
    ensures var content := result.content.GetOr([]);
      CountCalls(content) > 0 ==> r == CallItems(content, result.providerMetadata, stringify)
    ensures var content := result.content.GetOr([]);
      CountCalls(content) == 0 && FirstText(content).None? ==> r == []
    ensures var content := result.content.GetOr([]);
      CountCalls(content) == 0 && FirstText(content).Some? ==>
        r == [AssistantMessage([OutputText(FirstText(content).value, map[])], result.providerMetadata)]
  {
    var content := result.content.GetOr([]);
    var calls := CallItems(content, result.providerMetadata, stringify);
    if |calls| > 0 then calls
    else match FirstText(content)
      case Some(t) => [AssistantMessage([OutputText(t, map[])], result.providerMetadata)]
      case None => []
  }

  /** A result with both tool calls and text yields only the calls: the text would end the turn. */
  lemma CallsSuppressText(result: GenerateResult, stringify: Json -> string)
    requires CountCalls(result.content.GetOr([])) > 0
    ensures forall j :: 0 <= j < |AssembleOutput(result, stringify)| ==> AssembleOutput(result, stringify)[j].FunctionCall?
    ensures |AssembleOutput(result, stringify)| == CountCalls(result.content.GetOr([]))
  {
  }

  /** `getResponse`'s model response: id defaulting to `FAKE_ID`, usage and output. */
  function GetResponse(result: GenerateResult, stringify: Json -> string): (r: ModelResponse)
    ensures result.responseId.Some? ==> r.responseId == result.responseId.value
    ensures result.responseId.None? ==> r.responseId == "FAKE_ID"
    ensures r.usage == UsageOf(result.inputTokens, result.outputTokens)
    ensures r.output == AssembleOutput(result, stringify)
  {
    ModelResponse(result.responseId.GetOr("FAKE_ID"), UsageOf(result.inputTokens, result.outputTokens),
                  AssembleOutput(result, stringify))
  }
}

=== FILE: aisdk_stream.dfy ===
/**
 * The AI-SDK adapter's `getStreamedResponse` loop: it turns the provider's stream
 * parts into agent stream events and accumulates the final response.
 */
module AiSdkStream {
  import opened Wrappers
  import opened Items
  import opened AiSdkModel

  /** A LanguageModelV2 stream part, as far as the adapter distinguishes them. */
  datatype StreamPart =
    | TextDelta(delta: string)
    /** A `tool-call` part; `input` is missing when the provider sends none. */
    | ToolCallDelta(toolCallId: string, toolName: string, input: Option<string>)
    | ResponseMetadata(id: Option<string>)
    | Finish(inputTokens: Count, outputTokens: Count)
    | ErrorPart(error: string)
    | OtherPart(kind: string)

  datatype StreamEvent =
    | ResponseStarted
    | ModelEvent(part: StreamPart)
    | OutputTextDelta(delta: string)
    | ResponseDone(id: string, usage: ModelUsage, output: seq<Item>)

  /** A `function_call` collected while streaming. */
  datatype StreamCall = StreamCall(callId: string, name: string, arguments: string)

  // ---------------------------------------------------------------------------
  // The tool-call table: a JS object keyed by call id
  // ---------------------------------------------------------------------------

  function IdsOf(calls: seq<StreamCall>): (r: seq<string>)
    ensures |r| == |calls| && forall j :: 0 <= j < |calls| ==> r[j] == calls[j].callId
  {
    seq(|calls|, j requires 0 <= j < |calls| => calls[j].callId)
  }

  /** `functionCalls[id] = call`, on the table kept as a sequence in key order. */
  function Upsert(calls: seq<StreamCall>, c: StreamCall): seq<StreamCall>
  {
    var ids := IdsOf(calls);
    if c.callId in ids then calls[IndexOf(ids, c.callId) := c] else calls + [c]
  }

  /**
   * On a table with distinct keys, an existing key keeps its place and gets the new value,
   * a new key goes last, and the keys stay distinct.
   */
  lemma UpsertFacts(calls: seq<StreamCall>, c: StreamCall)
    requires Distinct(IdsOf(calls))
    ensures var r := Upsert(calls, c);
      Distinct(IdsOf(r))
      && IdsOf(r) == (if c.callId in IdsOf(calls) then IdsOf(calls) else IdsOf(calls) + [c.callId])
      && (forall j :: 0 <= j < |r| && r[j].callId == c.callId ==> r[j] == c)
      && (forall j :: 0 <= j < |r| && r[j].callId != c.callId ==> j < |calls| && r[j] == calls[j])
  {
    var ids := IdsOf(calls);
    var r := Upsert(calls, c);
    if c.callId in ids {
      assert IdsOf(r) == ids;
    } else {
      assert IdsOf(r) == ids + [c.callId];
    }
  }

  /** The position of `id` in `ids`. */
  function IndexOf(ids: seq<string>, id: string): (k: nat)
    requires id in ids
    ensures k < |ids| && ids[k] == id
  {
    if ids[0] == id then 0 else 1 + IndexOf(ids[1..], id)
  }

  /** The call a tool-call part with a non-empty id records. */
  function PartCall(p: StreamPart): Option<StreamCall> {
    if p.ToolCallDelta? && p.toolCallId != "" then Some(StreamCall(p.toolCallId, p.toolName, p.input.GetOr("")))
    else None
  }

  /** The table after the given parts. */
  function CallTable(parts: seq<StreamPart>): seq<StreamCall>
  {
    if |parts| == 0 then []
    else
      var table := CallTable(parts[..|parts| - 1]);
      match PartCall(parts[|parts| - 1])
      case Some(c) => Upsert(table, c)
      case None => table
  }

  /** The call ids in the order they first appear among the parts. */
  function SeenOrder(parts: seq<StreamPart>): seq<string>
  {
    if |parts| == 0 then []
    else
      var seen := SeenOrder(parts[..|parts| - 1]);
      var c := PartCall(parts[|parts| - 1]);
      if c.Some? && c.value.callId !in seen then seen + [c.value.callId] else seen
  }

  /** The call recorded by the last tool-call part with this id, if any. */
  function LatestCall(parts: seq<StreamPart>, id: string): Option<StreamCall>
  {
    if |parts| == 0 then None
    else
      var c := PartCall(parts[|parts| - 1]);
      if c.Some? && c.value.callId == id then c else LatestCall(parts[..|parts| - 1], id)
  }

  predicate Distinct(s: seq<string>) {
    forall j, k :: 0 <= j < k < |s| ==> s[j] != s[k]
  }

  /** The table lists each call id once, in order of first appearance. */
  lemma {:induction false} CallTableOrder(parts: seq<StreamPart>)
    ensures IdsOf(CallTable(parts)) == SeenOrder(parts)
    ensures Distinct(SeenOrder(parts))
    decreases |parts|
  {
    if |parts| > 0 {
      var init := parts[..|parts| - 1];
      CallTableOrder(init);
      var c := PartCall(parts[|parts| - 1]);
      if c.Some? {
        UpsertFacts(CallTable(init), c.value);
      }
    }
  }

  /** Each entry holds the last call streamed under its id, and every streamed id has an entry. */
  lemma {:induction false} CallTableLatest(parts: seq<StreamPart>)
    ensures forall j :: 0 <= j < |CallTable(parts)| ==>
      LatestCall(parts, CallTable(parts)[j].callId) == Some(CallTable(parts)[j])
    ensures forall id :: LatestCall(parts, id).Some? ==> id in IdsOf(CallTable(parts))
    decreases |parts|
  {
    if |parts| > 0 {
      var init := parts[..|parts| - 1];
      CallTableLatest(init);
      CallTableOrder(init);
      var table := CallTable(init);
      var c := PartCall(parts[|parts| - 1]);
      if c.Some? {
        UpsertFacts(table, c.value);
        var r := Upsert(table, c.value);
        assert CallTable(parts) == r;
        forall j | 0 <= j < |r|
          ensures LatestCall(parts, r[j].callId) == Some(r[j])
        {
          if r[j].callId != c.value.callId {
            assert r[j] == table[j];
          }
        }
        forall id | LatestCall(parts, id).Some?
          ensures id in IdsOf(r)
        {
          if id != c.value.callId {
            assert LatestCall(init, id).Some?;
          }
        }
      }
    }
  }

  // ---------------------------------------------------------------------------
  // `Object.values` of the table
  // ---------------------------------------------------------------------------

  predicate IsDigit(c: char) {
    '0' <= c <= '9'
  }

  /** The number a string of decimal digits spells. */
  function DigitsValue(s: string): nat
    requires forall i :: 0 <= i < |s| ==> IsDigit(s[i])
  {
    if |s| == 0 then 0
    else
      assert IsDigit(s[|s| - 1]);
      DigitsValue(s[..|s| - 1]) * 10 + (s[|s| - 1] as int - '0' as int)
  }

  /**
   * An array index in the sense of section 6.1.7 of ECMA-262: the canonical decimal
   * form of an integer from 0 to 2^32 - 2, without leading zeros.
   */
  predicate IsArrayIndex(id: string) {
    && |id| > 0 && (forall i :: 0 <= i < |id| ==> IsDigit(id[i]))
    && (id[0] != '0' || |id| == 1)
    && DigitsValue(id) < 0xFFFF_FFFF
  }

  /** The key a JS object cannot hold as its own: assigning it sets the object's prototype instead. */
  const ProtoKey: string := "__proto__"

  /** The number of an array-index id; 0 for any other id. */
  function IndexValue(c: StreamCall): nat {
    if IsArrayIndex(c.callId) then DigitsValue(c.callId) else 0
  }

  /** The entries under array-index keys, in table order. */
  function IndexCalls(calls: seq<StreamCall>): (r: seq<StreamCall>)
    ensures forall c :: c in r <==> c in calls && IsArrayIndex(c.callId)
  {
    if |calls| == 0 then []
    else
      var c := calls[|calls| - 1];
      IndexCalls(calls[..|calls| - 1]) + (if IsArrayIndex(c.callId) then [c] else [])
  }

  /** The entries under every other key but `__proto__`, in table order. */
  function NamedCalls(calls: seq<StreamCall>): (r: seq<StreamCall>)
    ensures forall c :: c in r <==> c in calls && !IsArrayIndex(c.callId) && c.callId != ProtoKey
  {
    if |calls| == 0 then []
    else
      var c := calls[|calls| - 1];
      NamedCalls(calls[..|calls| - 1]) + (if !IsArrayIndex(c.callId) && c.callId != ProtoKey then [c] else [])
  }

  predicate Ascending(calls: seq<StreamCall>) {
    forall j, k :: 0 <= j < k < |calls| ==> IndexValue(calls[j]) <= IndexValue(calls[k])
  }

  /** `c` inserted into an ascending sequence, before the first entry with a larger number. */
  function Insert(c: StreamCall, sorted: seq<StreamCall>): (r: seq<StreamCall>)
    requires Ascending(sorted)
    ensures forall x :: x in r ==> x in sorted || x == c
    ensures Ascending(r)
    ensures multiset(r) == multiset(sorted) + multiset{c}
  {
    if |sorted| == 0 then [c]
    else if IndexValue(c) <= IndexValue(sorted[0]) then [c] + sorted
    else
      var rest := Insert(c, sorted[1..]);
      assert sorted == [sorted[0]] + sorted[1..];
      InsertedAbove(sorted, c, rest);
      [sorted[0]] + rest
  }

  /** What the recursive insertion returns stays above the first entry it went past. */
  lemma InsertedAbove(sorted: seq<StreamCall>, c: StreamCall, rest: seq<StreamCall>)
    requires Ascending(sorted) && |sorted| > 0 && IndexValue(sorted[0]) < IndexValue(c)
    requires forall x :: x in rest ==> x in sorted[1..] || x == c
    requires Ascending(rest)
    ensures Ascending([sorted[0]] + rest)
  {
    var r := [sorted[0]] + rest;
    forall j, k | 0 <= j < k < |r|
      ensures IndexValue(r[j]) <= IndexValue(r[k])
    {
      if j == 0 {
        assert r[k] == rest[k - 1] && rest[k - 1] in rest;
        if r[k] in sorted[1..] {
          var i :| 0 <= i < |sorted[1..]| && sorted[1..][i] == r[k];
          assert sorted[i + 1] == r[k];
        }
      } else {
        assert r[j] == rest[j - 1] && r[k] == rest[k - 1];
      }
    }
  }

  /** The entries sorted by their numbers. */
  function SortByIndex(calls: seq<StreamCall>): (r: seq<StreamCall>)
    ensures Ascending(r) && multiset(r) == multiset(calls)
  {
    if |calls| == 0 then []
    else
      assert calls == calls[..|calls| - 1] + [calls[|calls| - 1]];
      Insert(calls[|calls| - 1], SortByIndex(calls[..|calls| - 1]))
  }

  /**
   * `Object.values(functionCalls)`: the own properties in the order of section 10.1.11.1 of
   * ECMA-262, array indices first in ascending numeric order, then the other keys in the
   * order they were created; a `__proto__` entry is not an own property at all.
   */
  function ObjectValues(calls: seq<StreamCall>): seq<StreamCall> {
    SortByIndex(IndexCalls(calls)) + NamedCalls(calls)
  }

  /**
   * What `Object.values` lists: every entry but a `__proto__` one, the array-index entries
   * first and in ascending numeric order, then the rest in table order.
   */
  lemma ObjectValuesOrder(calls: seq<StreamCall>)
    ensures var r := ObjectValues(calls);
      && (forall c :: c in r <==> c in calls && c.callId != ProtoKey)
      && |r| == |IndexCalls(calls)| + |NamedCalls(calls)|
      && (forall j :: 0 <= j < |IndexCalls(calls)| ==> IsArrayIndex(r[j].callId))
      && Ascending(r[..|IndexCalls(calls)|])
      && r[|IndexCalls(calls)|..] == NamedCalls(calls)
  {
    var sorted := SortByIndex(IndexCalls(calls));
    var r := ObjectValues(calls);
    assert |sorted| == |IndexCalls(calls)| by {
      assert |multiset(sorted)| == |multiset(IndexCalls(calls))|;
    }
    assert r[..|sorted|] == sorted && r[|sorted|..] == NamedCalls(calls);
    forall j | 0 <= j < |sorted|
      ensures IsArrayIndex(r[j].callId)
    {
      assert sorted[j] in multiset(IndexCalls(calls));
    }
    forall c
      ensures c in r <==> c in calls && c.callId != ProtoKey
    {
      assert c in sorted <==> c in multiset(IndexCalls(calls));
    }
  }

  /** An entry under an array index overtakes an entry under a name that came before it. */
  lemma IndexOvertakesName(named: StreamCall, indexed: StreamCall)
    requires !IsArrayIndex(named.callId) && named.callId != ProtoKey && IsArrayIndex(indexed.callId)
    ensures ObjectValues([named, indexed]) == [indexed, named]
  {
    var cs := [named, indexed];
    assert cs[..1] == [named] && [named][..0] == [];
    assert IndexCalls([named]) == [];
    assert IndexCalls(cs) == IndexCalls([named]) + [indexed];
    assert NamedCalls([named]) == [named];
    assert NamedCalls(cs) == NamedCalls([named]) + [];
    assert SortByIndex([indexed]) == [indexed] by {
      assert [indexed][..0] == [];
    }
  }

  /**
   * Tool calls streamed under ids "b" and then "1" come out as the call under "1" first:
   * the final order is not the order the calls arrived in.
   */
  lemma IndexIdsComeFirst(name: string, args: string)
    ensures ObjectValues([StreamCall("b", name, args), StreamCall("1", name, args)]) ==
      [StreamCall("1", name, args), StreamCall("b", name, args)]
  {
    assert IsArrayIndex("1") && !IsArrayIndex("b");
    IndexOvertakesName(StreamCall("b", name, args), StreamCall("1", name, args));
  }

  /** A call streamed under `__proto__` is not in the output. */
  lemma ProtoCallDropped(c: StreamCall)
    requires c.callId == ProtoKey
    ensures ObjectValues([c]) == []
  {
    assert [c][..0] == [];
    assert !IsArrayIndex(ProtoKey) by { assert !IsDigit(ProtoKey[0]); }
    assert IndexCalls([c]) == [] && NamedCalls([c]) == [];
    assert SortByIndex([]) == [];
  }

  // ---------------------------------------------------------------------------
  // Reference definitions of the stream's outcome
  // ---------------------------------------------------------------------------

  /** What one part yields while the stream runs: its model event, then a text delta for text. */
  function PartEvents(p: StreamPart): seq<StreamEvent> {
    match p
    case TextDelta(d) => [ModelEvent(p), OutputTextDelta(d)]
    case _ => [ModelEvent(p)]
  }

  function PartsEvents(parts: seq<StreamPart>): seq<StreamEvent>
  {
    if |parts| == 0 then [] else PartsEvents(parts[..|parts| - 1]) + PartEvents(parts[|parts| - 1])
  }

  /** `response_started` precedes the first part, and only a non-empty stream has one. */
  function Started(parts: seq<StreamPart>): seq<StreamEvent> {
    if |parts| > 0 then [ResponseStarted] else []
  }

  /** Everything yielded while the given parts are forwarded. */
  function Trace(parts: seq<StreamPart>): seq<StreamEvent> {
    Started(parts) + PartsEvents(parts)
  }

  /** The last non-empty `response-metadata` id. */
  function LastResponseId(parts: seq<StreamPart>): Option<string>
  {
    if |parts| == 0 then None
    else
      var p := parts[|parts| - 1];
      if p.ResponseMetadata? && p.id.Some? && p.id.value != "" then p.id else LastResponseId(parts[..|parts| - 1])
  }

  /** The usage of the last `finish` part; zero when there is none. */
  function LastUsage(parts: seq<StreamPart>): ModelUsage
  {
    if |parts| == 0 then ModelUsage(0, 0, 0)
    else
      var p := parts[|parts| - 1];
      if p.Finish? then UsageOf(p.inputTokens, p.outputTokens) else LastUsage(parts[..|parts| - 1])
  }

  /** The streamed text: present once any text delta arrived, and then all of them joined. */
  function StreamText(parts: seq<StreamPart>): Option<string>
  {
    if |parts| == 0 then None
    else
      var p := parts[|parts| - 1];
      var t := StreamText(parts[..|parts| - 1]);
      if p.TextDelta? then Some(t.GetOr("") + p.delta) else t
  }

  function CallItem(c: StreamCall): Item {
    FunctionCall(c.callId, c.name, c.arguments, map[])
  }

  /** The final output: the text message first (when there is text), then the given calls. */
  function StreamOutput(text: Option<string>, calls: seq<StreamCall>): (r: seq<Item>)
    ensures |r| == |calls| + (if text.Some? then 1 else 0)
    ensures text.Some? ==> r[0] == AssistantMessage([OutputText(text.value, map[])], map[])
    ensures forall j :: 0 <= j < |calls| ==> r[|r| - |calls| + j] == CallItem(calls[j])
  {
    (if text.Some? then [AssistantMessage([OutputText(text.value, map[])], map[])] else [])
    + seq(|calls|, j requires 0 <= j < |calls| => CallItem(calls[j]))
  }

  function FinalEvent(parts: seq<StreamPart>): StreamEvent {
    ResponseDone(LastResponseId(parts).GetOr("FAKE_ID"), LastUsage(parts),
                 StreamOutput(StreamText(parts), ObjectValues(CallTable(parts))))
  }

  // ---------------------------------------------------------------------------
  // The loop
  // ---------------------------------------------------------------------------

  /** The loop's local state: response id, token counts, the call table and the text so far. */
  datatype Acc = Acc(responseId: Option<string>, inputTokens: int, outputTokens: int,
                     calls: seq<StreamCall>, text: Option<string>)

  /** The `switch` of the loop body, for every part but an error. */
  function Absorb(acc: Acc, p: StreamPart): Acc
  {
    match p
    case TextDelta(d) => acc.(text := Some(acc.text.GetOr("") + d))
    case ToolCallDelta(id, name, input) =>
      if id != "" then acc.(calls := Upsert(acc.calls, StreamCall(id, name, input.GetOr("")))) else acc
    case ResponseMetadata(id) => if id.Some? && id.value != "" then acc.(responseId := id) else acc
    case Finish(a, b) => acc.(inputTokens := TokenValue(a), outputTokens := TokenValue(b))
    case _ => acc
  }

  /** The state after the given parts. */
  function AccOf(parts: seq<StreamPart>): Acc
  {
    if |parts| == 0 then Acc(None, 0, 0, [], None)
    else Absorb(AccOf(parts[..|parts| - 1]), parts[|parts| - 1])
  }

  /** The loop state agrees with the reference definitions. */
  lemma {:induction false} AccOfMeaning(parts: seq<StreamPart>)
    ensures AccOf(parts).responseId == LastResponseId(parts)
    ensures var a := AccOf(parts); ModelUsage(a.inputTokens, a.outputTokens, a.inputTokens + a.outputTokens) == LastUsage(parts)
    ensures AccOf(parts).calls == CallTable(parts)
    ensures AccOf(parts).text == StreamText(parts)
    decreases |parts|
  {
    if |parts| > 0 {
      AccOfMeaning(parts[..|parts| - 1]);
    }
  }

  lemma AccStep(parts: seq<StreamPart>, n: nat)
    requires 0 < n <= |parts|
    ensures AccOf(parts[..n]) == Absorb(AccOf(parts[..n - 1]), parts[n - 1])
  {
    assert parts[..n][..n - 1] == parts[..n - 1];
  }

  /** The events so far, once part `n - 1` has been forwarded. */
  lemma EventsStep(parts: seq<StreamPart>, n: nat)
    requires 0 < n <= |parts|
    ensures n == 1 ==> Trace(parts[..n]) == [ResponseStarted] + PartEvents(parts[0])
    ensures n > 1 ==> Trace(parts[..n]) == Trace(parts[..n - 1]) + PartEvents(parts[n - 1])
  {
    assert parts[..n][..n - 1] == parts[..n - 1];
    if n == 1 {
      assert parts[..n - 1] == [];
    }
  }

  /** The final event the loop's state yields. */
  function DoneEvent(acc: Acc): StreamEvent {
    ResponseDone(acc.responseId.GetOr("FAKE_ID"),
                 ModelUsage(acc.inputTokens, acc.outputTokens, acc.inputTokens + acc.outputTokens),
                 StreamOutput(acc.text, ObjectValues(acc.calls)))
  }

  /** The loop's state after all the parts yields the reference final event. */
  lemma DoneEventIsFinal(parts: seq<StreamPart>)
    ensures DoneEvent(AccOf(parts)) == FinalEvent(parts)
  {
    AccOfMeaning(parts);
  }

  /** Yields `response_started` before the first part, then the part's model event and, for text, its delta. */
  method Forward(started: bool, events: seq<StreamEvent>, p: StreamPart) returns (events': seq<StreamEvent>)
    ensures started ==> events' == events + PartEvents(p)
    ensures !started && events == [] ==> events' == [ResponseStarted] + PartEvents(p)
  {
    events' := events;
    if !started {
      events' := events' + [ResponseStarted];
    }
    events' := events' + [ModelEvent(p)];
    if p.TextDelta? {
      events' := events' + [OutputTextDelta(p.delta)];
    }
  }

  /** No part so far is an `error` part. */
  predicate NoError(parts: seq<StreamPart>) {
    |parts| == 0 || (NoError(parts[..|parts| - 1]) && !parts[|parts| - 1].ErrorPart?)
  }

  lemma {:induction false} NoErrorMeaning(parts: seq<StreamPart>)
    ensures NoError(parts) <==> forall k :: 0 <= k < |parts| ==> !parts[k].ErrorPart?
    decreases |parts|
  {
    if |parts| > 0 {
      var init := parts[..|parts| - 1];
      NoErrorMeaning(init);
      assert forall k :: 0 <= k < |init| ==> init[k] == parts[k];
    }
  }

  lemma NoErrorStep(parts: seq<StreamPart>, n: nat)
    requires 0 < n <= |parts|
    ensures NoError(parts[..n]) <==> NoError(parts[..n - 1]) && !parts[n - 1].ErrorPart?
  {
    assert parts[..n][..n - 1] == parts[..n - 1];
  }

  /** An error part anywhere in a prefix is an error part of the whole stream. */
  lemma {:induction false} NoErrorPrefix(parts: seq<StreamPart>, n: nat)
    requires n <= |parts| && !NoError(parts[..n])
    ensures !NoError(parts)
    decreases |parts| - n
  {
    if n < |parts| {
      NoErrorStep(parts, n + 1);
      NoErrorPrefix(parts, n + 1);
    } else {
      assert parts[..n] == parts;
    }
  }

  /**
   * One pass of the loop body over part `i`: forward it, then either stop on an
   * `error` part or absorb it into the state.
   */
  method ForwardPart(ghost parts: seq<StreamPart>, i: nat, p: StreamPart, started: bool,
                     events: seq<StreamEvent>, acc: Acc)
    returns (events': seq<StreamEvent>, acc': Acc, error: Option<string>)
    requires i < |parts| && p == parts[i] && (started <==> i > 0)
    requires NoError(parts[..i]) && events == Trace(parts[..i]) && (i == 0 ==> events == [])
    requires acc == AccOf(parts[..i])
    ensures events' == Trace(parts[..i + 1])
    ensures error.Some? <==> p.ErrorPart?
    ensures error.Some? ==> error.value == p.error && !NoError(parts)
    ensures error.None? ==> NoError(parts[..i + 1]) && acc' == AccOf(parts[..i + 1])
  {
    EventsStep(parts, i + 1);
    AccStep(parts, i + 1);
    NoErrorStep(parts, i + 1);
    events' := Forward(started, events, p);
    acc' := acc;
    error := None;
    if p.ErrorPart? {
      error := Some(p.error);
      NoErrorPrefix(parts, i + 1);
    } else {
      acc' := Absorb(acc, p);
    }
  }

  /**
   * `getStreamedResponse`'s loop. On an `error` part the stream has already yielded that
   * part's model event, then throws its error; otherwise a final `response_done` ends it.
   */
  method StreamResponse(parts: seq<StreamPart>) returns (events: seq<StreamEvent>, error: Option<string>)
    ensures error.Some? <==> !NoError(parts)
    ensures error.Some? ==> exists e :: (0 <= e < |parts| && NoError(parts[..e]) && parts[e].ErrorPart?
      && error.value == parts[e].error && events == Trace(parts[..e + 1]))
    ensures error.None? ==> events == Trace(parts) + [FinalEvent(parts)]
  {
    var started := false;
    var acc := Acc(None, 0, 0, [], None);
    events, error := [], None;
    var i := 0;
    while i < |parts|
      invariant 0 <= i <= |parts|
      invariant started <==> i > 0
      invariant NoError(parts[..i])
      invariant events == Trace(parts[..i])
      invariant i == 0 ==> events == []
      invariant acc == AccOf(parts[..i])
      invariant error.None?
    {
      ghost var before := i;
      events, acc, error := ForwardPart(parts, i, parts[i], started, events, acc);
      started := true;
      if error.Some? {
        assert parts[before].ErrorPart? && NoError(parts[..before]);
        return;
      }
      i := i + 1;
    }
    assert parts[..|parts|] == parts;
    DoneEventIsFinal(parts);
    events := events + [DoneEvent(acc)];
  }

  // ---------------------------------------------------------------------------
  // What a consumer of the events sees
  // ---------------------------------------------------------------------------

  /** The text deltas among the events, joined. */
  function JoinedDeltas(events: seq<StreamEvent>): string
  {
    if |events| == 0 then ""
    else
      var e := events[|events| - 1];
      JoinedDeltas(events[..|events| - 1]) + (if e.OutputTextDelta? then e.delta else "")
  }

  /** The parts carried by the model events, in order. */
  function ModelParts(events: seq<StreamEvent>): seq<StreamPart>
  {
    if |events| == 0 then []
    else
      var e := events[|events| - 1];
      ModelParts(events[..|events| - 1]) + (if e.ModelEvent? then [e.part] else [])
  }

  lemma {:induction false} JoinedDeltasAppend(a: seq<StreamEvent>, b: seq<StreamEvent>)
    ensures JoinedDeltas(a + b) == JoinedDeltas(a) + JoinedDeltas(b)
    decreases |b|
  {
    if |b| == 0 {
      assert a + b == a;
    } else {
      assert (a + b)[..|a + b| - 1] == a + b[..|b| - 1];
      JoinedDeltasAppend(a, b[..|b| - 1]);
    }
  }

  lemma {:induction false} ModelPartsAppend(a: seq<StreamEvent>, b: seq<StreamEvent>)
    ensures ModelParts(a + b) == ModelParts(a) + ModelParts(b)
    decreases |b|
  {
    if |b| == 0 {
      assert a + b == a;
    } else {
      assert (a + b)[..|a + b| - 1] == a + b[..|b| - 1];
      ModelPartsAppend(a, b[..|b| - 1]);
    }
  }

  /** Joining the streamed text deltas gives the final message's text. */
  lemma {:induction false} DeltasMakeText(parts: seq<StreamPart>)
    ensures JoinedDeltas(PartsEvents(parts)) == StreamText(parts).GetOr("")
    decreases |parts|
  {
    if |parts| > 0 {
      var init := parts[..|parts| - 1];
      var p := parts[|parts| - 1];
      DeltasMakeText(init);
      JoinedDeltasAppend(PartsEvents(init), PartEvents(p));
      assert [ModelEvent(p)][..0] == [];
      assert JoinedDeltas([ModelEvent(p)]) == "";
      if p.TextDelta? {
        assert PartEvents(p)[..1] == [ModelEvent(p)];
        assert JoinedDeltas(PartEvents(p)) == p.delta;
      }
    }
  }

  /** Every part is forwarded as a model event exactly once, in order. */
  lemma {:induction false} ForwardsEveryPart(parts: seq<StreamPart>)
    ensures ModelParts(PartsEvents(parts)) == parts
    decreases |parts|
  {
    if |parts| > 0 {
      var init := parts[..|parts| - 1];
      var p := parts[|parts| - 1];
      ForwardsEveryPart(init);
      ModelPartsAppend(PartsEvents(init), PartEvents(p));
      assert [ModelEvent(p)][..0] == [];
      assert ModelParts([ModelEvent(p)]) == [p];
      if p.TextDelta? {
        assert PartEvents(p)[..1] == [ModelEvent(p)];
        assert ModelParts(PartEvents(p)) == [p];
      }
      assert init + [p] == parts;
    }
  }

  /** The text message is there exactly when some text delta arrived. */
  lemma {:induction false} StreamTextPresent(parts: seq<StreamPart>)
    ensures StreamText(parts).Some? <==> exists i :: 0 <= i < |parts| && parts[i].TextDelta?
    decreases |parts|
  {
    if |parts| > 0 {
      var init := parts[..|parts| - 1];
      StreamTextPresent(init);
      if StreamText(init).Some? {
        var i :| 0 <= i < |init| && init[i].TextDelta?;
        assert parts[i].TextDelta?;
      }
    }
  }
}

=== FILE: aisdk_tools.dfy ===
/**
 * The AI-SDK adapter's small total mappings: tool choice, response format,
 * tool and handoff definitions.
 */
module AiSdkTools {
  import opened Wrappers
  import opened Json

  // ---------------------------------------------------------------------------
  // Tool choice
  // ---------------------------------------------------------------------------

  datatype ToolChoice = AutoChoice | RequiredChoice | NoneChoice | SpecificTool(toolName: string)

  /** The setting string a tool choice is written as. */
  function ChoiceName(c: ToolChoice): string {
    match c
    case AutoChoice => "auto"
    case RequiredChoice => "required"
    case NoneChoice => "none"
    case SpecificTool(name) => name
  }

  predicate IsKeyword(s: string) {
    s == "auto" || s == "required" || s == "none"
  }

  /**
   * `toolChoiceToLanguageV2Format`: no setting (or the empty string) gives none,
   * the three keywords map to themselves and any other string names one tool.
   */
  function ToolChoiceToLanguageV2Format(setting: Option<string>): (r: Option<ToolChoice>)
    ensures r.None? <==> setting.None? || setting == Some("")
    ensures r.Some? ==> ChoiceName(r.value) == setting.value
    ensures r.Some? ==> (r.value.SpecificTool? <==> !IsKeyword(setting.value))
  {
    match setting
    case None => None
    case Some(s) =>
      if s == "" then None
      else if s == "auto" then Some(AutoChoice)
      else if s == "required" then Some(RequiredChoice)
      else if s == "none" then Some(NoneChoice)
      else Some(SpecificTool(s))
  }

  /** Every tool choice is reached from the string it is written as. */
  lemma ToolChoiceRoundTrip(c: ToolChoice)
    requires c.SpecificTool? ==> c.toolName != "" && !IsKeyword(c.toolName)
    ensures ToolChoiceToLanguageV2Format(Some(ChoiceName(c))) == Some(c)
  {
  }

  // ---------------------------------------------------------------------------
  // Response format
  // ---------------------------------------------------------------------------

  /** An agent's output type: plain text, or a named JSON schema (possibly a Zod object). */
  datatype OutputType = TextType | SchemaType(name: string, schema: Json, isZod: bool)

  datatype ResponseFormat = TextFormat | JsonFormat(name: string, schema: Json)

  /** `getResponseFormat`: text stays text; any other output type becomes a JSON format with its name and schema. */
  function GetResponseFormat(o: OutputType): (r: ResponseFormat)
    ensures r.TextFormat? <==> o.TextType?
    ensures r.JsonFormat? ==> r.name == o.name && r.schema == o.schema
  {
    match o
    case TextType => TextFormat
    case SchemaType(name, schema, _) => JsonFormat(name, schema)
  }

  /** The output type a response format describes; whether the schema was a Zod object is not kept, so it is given. */
  function OutputTypeOf(r: ResponseFormat, isZod: bool): OutputType {
    match r
    case TextFormat => TextType
    case JsonFormat(name, schema) => SchemaType(name, schema, isZod)
  }

  /** The response format keeps everything of the output type except whether its schema was a Zod object. */
  lemma ResponseFormatRoundTrip(o: OutputType, r: ResponseFormat, isZod: bool)
    ensures o.SchemaType? ==> OutputTypeOf(GetResponseFormat(o), o.isZod) == o
    ensures o.TextType? ==> OutputTypeOf(GetResponseFormat(o), isZod) == o
    ensures GetResponseFormat(OutputTypeOf(r, isZod)) == r
  {
  }

  // ---------------------------------------------------------------------------
  // Tools
  // ---------------------------------------------------------------------------

  datatype Tool =
    | FunctionTool(name: string, description: string, parameters: Json)
    /** A hosted tool; `providerData` may be absent. */
    | HostedTool(name: string, providerData: Option<Object>)
    | ComputerTool(name: string, environment: string, width: int, height: int)
    /** A tool whose `type` tag the adapter does not know. */
    | OtherTool(name: string, kind: string)

  /** A handoff as a model sees it: a function tool named after it. */
  datatype Handoff = Handoff(toolName: string, toolDescription: string, inputJsonSchema: Json)

  datatype LanguageModelTool =
    | FunctionDef(name: string, description: string, inputSchema: Json)
    | ProviderDefined(id: string, name: string, args: Json)

  /**
   * The exception a tool of no known type raises. Its message interpolates the tool
   * object itself, so it reads the same whichever tool it was.
   */
  datatype ToolError = UnsupportedToolType

  /** A hosted tool's `providerData.args`, when it is present and not null. */
  function HostedArgs(providerData: Option<Object>): (r: Option<Json>)
    ensures r.Some? <==> providerData.Some? && "args" in providerData.value && providerData.value["args"] != JNull
    ensures r.Some? ==> r.value == providerData.value["args"]
  {
    if providerData.Some? && "args" in providerData.value && providerData.value["args"] != JNull
    then Some(providerData.value["args"]) else None
  }

  /** `toolToLanguageV2Tool`. Provider tools get the id `<provider>.<name>`. */
  function ToolToLanguageV2Tool(provider: string, t: Tool): (r: Result<LanguageModelTool, ToolError>)
    ensures r.Err? <==> t.OtherTool?
    ensures r.Ok? ==> r.value.name == t.name
    ensures r.Ok? ==> (r.value.FunctionDef? <==> t.FunctionTool?)
    ensures t.FunctionTool? ==> r == Ok(FunctionDef(t.name, t.description, t.parameters))
    ensures r.Ok? && r.value.ProviderDefined? ==>
      |r.value.id| == |provider| + 1 + |t.name|
      && r.value.id[..|provider|] == provider && r.value.id[|provider|] == '.'
      && r.value.id[|provider| + 1..] == t.name
    ensures t.HostedTool? && HostedArgs(t.providerData).Some? ==>
      r.value.args == HostedArgs(t.providerData).value
    ensures t.HostedTool? && HostedArgs(t.providerData).None? ==> r.value.args == JObject(map[])
    ensures t.ComputerTool? ==> r.value.args == JObject(map[
      "environment" := JString(t.environment),
      "display_width" := JNumber(t.width),
      "display_height" := JNumber(t.height)])
  {
    match t
    case FunctionTool(name, description, parameters) =>
      Ok(FunctionDef(name, description, parameters))
    case HostedTool(name, providerData) =>
      var args := match providerData
        case Some(pd) => if "args" in pd && pd["args"] != JNull then pd["args"] else JObject(map[])
        case None => JObject(map[]);
      Ok(ProviderDefined(provider + "." + name, name, args))
    case ComputerTool(name, environment, width, height) =>
      Ok(ProviderDefined(provider + "." + name, name, JObject(map[
        "environment" := JString(environment),
        "display_width" := JNumber(width),
        "display_height" := JNumber(height)])))
    case OtherTool(_, _) =>
      Err(UnsupportedToolType)
  }

  /** `handoffToLanguageV2Tool`: a handoff is a plain function tool. */
  function HandoffToLanguageV2Tool(h: Handoff): (r: LanguageModelTool)
    ensures r.FunctionDef? && r.name == h.toolName
    ensures r.description == h.toolDescription && r.inputSchema == h.inputJsonSchema
  {
    FunctionDef(h.toolName, h.toolDescription, h.inputJsonSchema)
  }

  /** The request's tool list: the agent's tools in order, then its handoffs in order. */
  function ToolsForRequest(provider: string, tools: seq<Tool>, handoffs: seq<Handoff>): (r: Result<seq<LanguageModelTool>, ToolError>)
    ensures r.Ok? <==> forall i :: 0 <= i < |tools| ==> !tools[i].OtherTool?
    ensures r.Ok? ==> |r.value| == |tools| + |handoffs|
    ensures r.Ok? ==> forall i :: 0 <= i < |tools| ==> Ok(r.value[i]) == ToolToLanguageV2Tool(provider, tools[i])
    ensures r.Ok? ==> forall i :: 0 <= i < |handoffs| ==> r.value[|tools| + i] == HandoffToLanguageV2Tool(handoffs[i])
    decreases |tools|
  {
    if |tools| == 0 then
      Ok(seq(|handoffs|, i requires 0 <= i < |handoffs| => HandoffToLanguageV2Tool(handoffs[i])))
    else
      var head :- ToolToLanguageV2Tool(provider, tools[0]);
      var tail :- ToolsForRequest(provider, tools[1..], handoffs);
      assert forall i :: 1 <= i < |tools| ==> tools[i] == tools[1..][i - 1];
      Ok([head] + tail)
  }

  /** The names a list of request tools carries, in order. */
  function DefinitionNames(ts: seq<LanguageModelTool>): seq<string>
  {
    if |ts| == 0 then [] else [ts[0].name] + DefinitionNames(ts[1..])
  }

  function ToolNames(tools: seq<Tool>): seq<string>
  {
    if |tools| == 0 then [] else [tools[0].name] + ToolNames(tools[1..])
  }

  function HandoffNames(handoffs: seq<Handoff>): seq<string>
  {
    if |handoffs| == 0 then [] else [handoffs[0].toolName] + HandoffNames(handoffs[1..])
  }

  /** The model is offered the agent's tool names, then its handoffs' names, and nothing else. */
  lemma {:induction false} ToolsForRequestNames(provider: string, tools: seq<Tool>, handoffs: seq<Handoff>)
    requires ToolsForRequest(provider, tools, handoffs).Ok?
    ensures DefinitionNames(ToolsForRequest(provider, tools, handoffs).value) == ToolNames(tools) + HandoffNames(handoffs)
    decreases |tools|
  {
    var r := ToolsForRequest(provider, tools, handoffs).value;
    if |tools| == 0 {
      HandoffDefinitionNames(r, handoffs);
    } else {
      ToolsForRequestNames(provider, tools[1..], handoffs);
      assert r[1..] == ToolsForRequest(provider, tools[1..], handoffs).value;
    }
  }

  lemma {:induction false} HandoffDefinitionNames(ts: seq<LanguageModelTool>, handoffs: seq<Handoff>)
    requires |ts| == |handoffs|
    requires forall i :: 0 <= i < |handoffs| ==> ts[i] == HandoffToLanguageV2Tool(handoffs[i])
    ensures DefinitionNames(ts) == HandoffNames(handoffs)
    decreases |ts|
  {
    if |ts| > 0 {
      HandoffDefinitionNames(ts[1..], handoffs[1..]);
    }
  }

  /** A failing tool list stops at its first tool of no known type, with the one error such a tool raises. */
  lemma {:induction false} ToolsForRequestFirstError(provider: string, tools: seq<Tool>, handoffs: seq<Handoff>)
    requires ToolsForRequest(provider, tools, handoffs).Err?
    ensures exists i :: (0 <= i < |tools| && tools[i].OtherTool?
      && ToolsForRequest(provider, tools, handoffs).error == UnsupportedToolType
      && forall j :: 0 <= j < i ==> !tools[j].OtherTool?)
    decreases |tools|
  {
    if !tools[0].OtherTool? {
      ToolsForRequestFirstError(provider, tools[1..], handoffs);
      var i :| 0 <= i < |tools[1..]| && tools[1..][i].OtherTool?
        && ToolsForRequest(provider, tools[1..], handoffs).error == UnsupportedToolType
        && forall j :: 0 <= j < i ==> !tools[1..][j].OtherTool?;
      assert forall j :: 1 <= j < i + 1 ==> tools[j] == tools[1..][j - 1];
      assert tools[i + 1] == tools[1..][i];
    } else {
      assert tools[0].OtherTool?;
    }
  }

  /** A function tool's definition gives the tool back. */
  function FunctionToolOf(d: LanguageModelTool): Tool
    requires d.FunctionDef?
  {
    FunctionTool(d.name, d.description, d.inputSchema)
  }

  /** Function tools, and provider tools up to the `<provider>.` prefix of their id, come back from their definitions. */
  lemma ToolDefinitionRoundTrip(provider: string, t: Tool)
    requires !t.OtherTool?
    ensures ToolToLanguageV2Tool(provider, t).Ok?
    ensures t.FunctionTool? ==> FunctionToolOf(ToolToLanguageV2Tool(provider, t).value) == t
    ensures !t.FunctionTool? ==> ToolToLanguageV2Tool(provider, t).value.id == provider + "." + t.name
  {
  }
}

=== FILE: events.dfy ===
/**
 * The events a streamed run emits besides the model's own stream: one run-item event
 * per generated item, named after the item's kind, the agent switch on a hand-off, and
 * the `agent_end` lifecycle hook.
 */
module RunEvents {
  import opened TurnInput

  /** What a streamed run emits besides the model's own events; `AgentEnd` is the `agent_end` hook. */
  datatype RunEvent =
    | RunItemEvent(name: string, item: RunItem)
    | AgentUpdated(agent: string)
    | AgentEnd(agent: string, output: string)

  /** The `run_item_stream_event` name of each kind of item. */
  function EventName(kind: RunItemKind): string {
    match kind
    case MessageOutput => "message_output_created"
    case ToolCallItem => "tool_called"
    case ToolCallOutput => "tool_output"
    case HandoffCallItem => "handoff_requested"
    case HandoffOutputItem => "handoff_occurred"
    case ReasoningItem => "reasoning_item_created"
    case ToolApproval => "tool_approval_requested"
    case OtherRunItem => ""
  }

  /** The run-item events for newly generated items, in generation order. */
  function ItemEvents(items: seq<RunItem>): seq<RunEvent>
  {
    if |items| == 0 then []
    else
      var last := items[|items| - 1];
      ItemEvents(items[..|items| - 1]) + (if last.kind.OtherRunItem? then [] else [RunItemEvent(EventName(last.kind), last)])
  }

  /** The run-item events among a run's events. */
  function RunItemEvents(events: seq<RunEvent>): seq<RunEvent>
  {
    if |events| == 0 then []
    else
      var last := events[|events| - 1];
      RunItemEvents(events[..|events| - 1]) + (if last.RunItemEvent? then [last] else [])
  }

  /** The number of `agent_end` events. */
  function AgentEnds(events: seq<RunEvent>): nat
  {
    if |events| == 0 then 0
    else AgentEnds(events[..|events| - 1]) + (if events[|events| - 1].AgentEnd? then 1 else 0)
  }

  lemma {:induction false} ItemEventsAppend(a: seq<RunItem>, b: seq<RunItem>)
    ensures ItemEvents(a + b) == ItemEvents(a) + ItemEvents(b)
    decreases |b|
  {
    if |b| == 0 {
      assert a + b == a;
    } else {
      assert (a + b)[..|a + b| - 1] == a + b[..|b| - 1];
      ItemEventsAppend(a, b[..|b| - 1]);
    }
  }

  lemma {:induction false} RunItemEventsAppend(a: seq<RunEvent>, b: seq<RunEvent>)
    ensures RunItemEvents(a + b) == RunItemEvents(a) + RunItemEvents(b)
    decreases |b|
  {
    if |b| == 0 {
      assert a + b == a;
    } else {
      assert (a + b)[..|a + b| - 1] == a + b[..|b| - 1];
      RunItemEventsAppend(a, b[..|b| - 1]);
    }
  }

  lemma {:induction false} AgentEndsAppend(a: seq<RunEvent>, b: seq<RunEvent>)
    ensures AgentEnds(a + b) == AgentEnds(a) + AgentEnds(b)
    decreases |b|
  {
    if |b| == 0 {
      assert a + b == a;
    } else {
      assert (a + b)[..|a + b| - 1] == a + b[..|b| - 1];
      AgentEndsAppend(a, b[..|b| - 1]);
    }
  }

  /** The events for generated items are all run-item events, and none is an `agent_end`. */
  lemma {:induction false} ItemEventsAreRunItemEvents(items: seq<RunItem>)
    ensures RunItemEvents(ItemEvents(items)) == ItemEvents(items)
    ensures AgentEnds(ItemEvents(items)) == 0
    decreases |items|
  {
    if |items| > 0 {
      var init := items[..|items| - 1];
      var last := items[|items| - 1];
      ItemEventsAreRunItemEvents(init);
      var tail := if last.kind.OtherRunItem? then [] else [RunItemEvent(EventName(last.kind), last)];
      assert ItemEvents(items) == ItemEvents(init) + tail;
      RunItemEventsAppend(ItemEvents(init), tail);
      AgentEndsAppend(ItemEvents(init), tail);
      assert tail == [] || tail[..0] == [];
    }
  }

  /** One event per generated item the runner reports, named after its kind. */
  lemma {:induction false} ItemEventsNamed(items: seq<RunItem>)
    requires forall i :: 0 <= i < |items| ==> !items[i].kind.OtherRunItem?
    ensures |ItemEvents(items)| == |items|
    ensures forall i :: 0 <= i < |items| ==> ItemEvents(items)[i] == RunItemEvent(EventName(items[i].kind), items[i])
    decreases |items|
  {
    if |items| > 0 {
      ItemEventsNamed(items[..|items| - 1]);
    }
  }

  /**
   * Events of consecutive stretches of history: if each stretch's events are its items'
   * events, so are the joined events of the joined stretch.
   */
  lemma EventsChain(a: seq<RunItem>, b: seq<RunItem>, c: seq<RunItem>, e1: seq<RunEvent>, e2: seq<RunEvent>)
    requires |a| <= |b| <= |c| && b[..|a|] == a && c[..|b|] == b
    requires RunItemEvents(e1) == ItemEvents(b[|a|..]) && RunItemEvents(e2) == ItemEvents(c[|b|..])
    ensures RunItemEvents(e1 + e2) == ItemEvents(c[|a|..])
    ensures AgentEnds(e1 + e2) == AgentEnds(e1) + AgentEnds(e2)
  {
    assert c[|a|..] == b[|a|..] + c[|b|..] by {
      assert c[..|b|][|a|..] == b[|a|..];
    }
    ItemEventsAppend(b[|a|..], c[|b|..]);
    RunItemEventsAppend(e1, e2);
    AgentEndsAppend(e1, e2);
  }

  /** Items' events followed by one event of another kind: the run-item events are the items'. */
  lemma ItemEventsThen(items: seq<RunItem>, e: RunEvent)
    requires !e.RunItemEvent?
    ensures RunItemEvents(ItemEvents(items) + [e]) == ItemEvents(items)
    ensures AgentEnds(ItemEvents(items) + [e]) == (if e.AgentEnd? then 1 else 0)
  {
    ItemEventsAreRunItemEvents(items);
    RunItemEventsAppend(ItemEvents(items), [e]);
    AgentEndsAppend(ItemEvents(items), [e]);
    assert [e][..0] == [];
  }
}

=== FILE: items.dfy ===
/**
 * The agent protocol items: what the runner keeps in its history and what a model
 * backend is handed as input. Every variant the AI-SDK adapter dispatches on is here,
 * including the ones it refuses, so that refusing them can be stated.
 */
module Items {
  import opened Wrappers
  import opened Json

  /** `providerData`; an absent bag is the empty object (`providerData ?? {}`). */
  type ProviderData = Object

  /** The `file` field of an `input_file` part: a string, or an object such as a file id. */
  datatype FileRef = FileString(s: string) | FileObject(fields: Object)

  /** One part of a user message given as a list. */
  datatype InputContent =
    | InputText(text: string, pd: ProviderData)
    | InputImage(image: string, pd: ProviderData)
    | InputFile(file: FileRef, pd: ProviderData)
    | OtherInputContent(kind: string)

  /** A user message's content: a plain string or a list of parts. */
  datatype UserContent = UserString(text: string) | UserParts(parts: seq<InputContent>)

  /** One part of an assistant message; only `output_text` parts carry text forward. */
  datatype OutputContent =
    | OutputText(text: string, pd: ProviderData)
    | OtherOutputContent(kind: string)

  /**
   * A tool result's `output` field as the adapter inspects it: its `type` tag and
   * the three fields it reads, each present only when it is a string.
   */
  datatype ToolOutput = ToolOutput(kind: string, text: Option<string>, data: Option<string>, mediaType: Option<string>)

  /** The plain text result a function tool produces. */
  function TextOutput(s: string): ToolOutput {
    ToolOutput("text", Some(s), None, None)
  }

  /** A reasoning item's content entry; `text` is present only when it is a string. */
  datatype ReasoningText = ReasoningText(text: Option<string>)

  datatype Item =
    | SystemMessage(content: string, pd: ProviderData)
    | UserMessage(user: UserContent, pd: ProviderData)
    | AssistantMessage(output: seq<OutputContent>, pd: ProviderData)
    /** A `message` item whose role is none of system, user, assistant. */
    | OtherRoleMessage(role: string)
    | FunctionCall(callId: string, name: string, arguments: string, pd: ProviderData)
    | FunctionCallResult(callId: string, name: string, result: ToolOutput, pd: ProviderData)
    | HostedToolCall(id: string, name: string, pd: ProviderData)
    | ComputerCall(callId: string)
    | ComputerCallResult(callId: string)
    | Reasoning(reasoning: seq<ReasoningText>, pd: ProviderData)
    | UnknownItem(pd: ProviderData)
    /** Any `type` tag the adapter does not know. */
    | OtherItem(kind: string)

  /** A single-part assistant message with the given text, as a fake or real model returns it. */
  function AssistantText(text: string): Item {
    AssistantMessage([OutputText(text, map[])], map[])
  }

  /** The name under which hosted MCP approval requests arrive. */
  const McpApprovalRequest: string := "mcp_approval_request"
}

=== FILE: json.dfy ===
/** JSON values as they travel through the SDK: schemas, tool arguments and provider data. */
module Json {

  /** Numbers are integers here; fractional values are not needed by anything the model states. */
  datatype Json =
    | JNull
    | JBool(b: bool)
    | JNumber(n: int)
    | JString(s: string)
    | JArray(elems: seq<Json>)
    | JObject(fields: map<string, Json>)

  /** A JSON object, the shape of every `providerData` and `providerOptions` bag. */
  type Object = map<string, Json>

  /** `{ ...a, ...b }`: every key of both, the right-hand side winning on a shared key. */
  function Spread<V>(a: map<string, V>, b: map<string, V>): (r: map<string, V>)
    ensures r.Keys == a.Keys + b.Keys
    ensures forall k :: k in b ==> r[k] == b[k]
    ensures forall k :: k in a && k !in b ==> r[k] == a[k]
  {
    a + b
  }
}

=== FILE: responses.dfy ===
/**
 * The Responses-API model's request shaping: how a model request becomes the parameters
 * of `responses.create`, how the response's usage and output come back as a model
 * response, and how the upstream stream events are translated into the runner's.
 *
 * Parameters are a JavaScript object: a key can be present with the value `undefined`,
 * which is not the same as the key being absent (`'instructions' in args`).
 */
module ResponsesModel {
  import opened Wrappers
  import opened Json
  import opened Items

  /** A JavaScript property value: `undefined`, or a JSON value. */
  datatype Value = Undefined | Defined(json: Json)

  /** An object's own properties, by key. */
  type Params = map<string, Value>

  // ---------------------------------------------------------------------------
  // Instructions
  // ---------------------------------------------------------------------------

  /** The characters `String.prototype.trim` removes: ECMAScript white space and line terminators. */
  predicate IsJsSpace(c: char) {
    || c == '\t' || c == '\n' || c == '\U{000B}' || c == '\U{000C}' || c == '\r' || c == ' '
    || c == '\U{00A0}' || c == '\U{1680}' || ('\U{2000}' <= c <= '\U{200A}')
    || c == '\U{2028}' || c == '\U{2029}' || c == '\U{202F}' || c == '\U{205F}' || c == '\U{3000}'
    || c == '\U{FEFF}'
  }

  /** Nothing but white space (the empty string included). */
  predicate IsBlank(s: string) {
    forall i :: 0 <= i < |s| ==> IsJsSpace(s[i])
  }

  /** `s` with its leading white space removed. */
  function TrimStart(s: string): (r: string)
    ensures |r| <= |s| && r == s[|s| - |r|..]
    ensures |r| > 0 ==> !IsJsSpace(r[0])
  {
    if |s| > 0 && IsJsSpace(s[0]) then TrimStart(s[1..]) else s
  }

  /** `s` with its trailing white space removed. */
  function TrimEnd(s: string): (r: string)
    ensures |r| <= |s| && r == s[..|r|]
    ensures |r| > 0 ==> !IsJsSpace(r[|r| - 1])
  {
    if |s| > 0 && IsJsSpace(s[|s| - 1]) then TrimEnd(s[..|s| - 1]) else s
  }

  /** `s.trim()`. */
  function Trim(s: string): string {
    TrimEnd(TrimStart(s))
  }

  lemma {:induction false} TrimStartEmpty(s: string)
    ensures TrimStart(s) == "" <==> IsBlank(s)
    decreases |s|
  {
    if |s| > 0 && IsJsSpace(s[0]) {
      TrimStartEmpty(s[1..]);
      assert IsBlank(s) <==> IsBlank(s[1..]) by {
        assert forall i :: 1 <= i < |s| ==> s[i] == s[1..][i - 1];
      }
    }
  }

  lemma {:induction false} TrimEndEmpty(s: string)
    ensures TrimEnd(s) == "" <==> IsBlank(s)
    decreases |s|
  {
    if |s| > 0 && IsJsSpace(s[|s| - 1]) {
      TrimEndEmpty(s[..|s| - 1]);
      assert IsBlank(s) <==> IsBlank(s[..|s| - 1]) by {
        assert forall i :: 0 <= i < |s| - 1 ==> s[i] == s[..|s| - 1][i];
      }
    }
  }

  /** A string trims to nothing exactly when it is all white space. */
  lemma TrimEmptyIffBlank(s: string)
    ensures Trim(s) == "" <==> IsBlank(s)
  {
    TrimStartEmpty(s);
    var t := TrimStart(s);
    TrimEndEmpty(t);
  }

  /**
   * The `instructions` parameter: `undefined` for missing, empty or white-space-only
   * instructions, and otherwise the instructions verbatim, surrounding spaces included.
   */
  function NormalizeInstructions(instructions: Option<string>): (v: Value)
    ensures v == Undefined <==> instructions.None? || IsBlank(instructions.value)
    ensures v.Defined? ==> v.json == JString(instructions.value)
  {
    match instructions
    case None => Undefined
    case Some(s) =>
      TrimEmptyIffBlank(s);
      if Trim(s) == "" then Undefined else Defined(JString(s))
  }

  /** Normalizing kept instructions again keeps them: normalization is idempotent. */
  lemma NormalizeIdempotent(instructions: Option<string>)
    requires NormalizeInstructions(instructions).Defined?
    ensures NormalizeInstructions(Some(NormalizeInstructions(instructions).json.s)) == NormalizeInstructions(instructions)
  {
  }

  // ---------------------------------------------------------------------------
  // The `responses.create` parameters
  // ---------------------------------------------------------------------------

  /** A stored prompt: its id, an optional version and optional variables. */
  datatype Prompt = Prompt(promptId: string, version: Option<string>, variables: Option<Object>)

  /** A request's input: a bare string, or a list of protocol items. */
  datatype RequestInput = TextInput(text: string) | ItemsInput(items: seq<Item>)

  /** The settings this model reads: top-level `reasoning` and `text`, and `providerData`. */
  datatype Settings = Settings(reasoning: Option<Object>, text: Option<Object>, providerData: Object)

  datatype ModelRequest = ModelRequest(
    systemInstructions: Option<string>, prompt: Option<Prompt>, input: RequestInput, settings: Settings)

  /** What `responses.create` is called with: the input items and every other parameter. */
  datatype CreateParams = CreateParams(input: seq<Item>, params: Params)

  /** A string input is one user message; an item list is sent as it is. */
  function InputItems(input: RequestInput): (r: seq<Item>)
    ensures input.TextInput? ==> r == [UserMessage(UserString(input.text), map[])]
    ensures input.ItemsInput? ==> r == input.items
  {
    match input
    case TextInput(text) => [UserMessage(UserString(text), map[])]
    case ItemsInput(items) => items
  }

  /** The `prompt` parameter: the prompt id under `id`, with the version and variables when given. */
  function PromptParam(p: Prompt): (j: Json)
    ensures j.JObject? && "id" in j.fields && j.fields["id"] == JString(p.promptId)
    ensures "version" in j.fields <==> p.version.Some?
    ensures "variables" in j.fields <==> p.variables.Some?
    ensures j.fields.Keys <= {"id", "version", "variables"}
  {
    var withVersion := if p.version.Some? then map["version" := JString(p.version.value)] else map[];
    var withVariables := if p.variables.Some? then map["variables" := JObject(p.variables.value)] else map[];
    JObject(map["id" := JString(p.promptId)] + withVersion + withVariables)
  }

  /** A `providerData` entry that is an object, such as its `reasoning` or `text`. */
  function ProvidedObject(providerData: Object, key: string): Option<Object> {
    if key in providerData && providerData[key].JObject? then Some(providerData[key].fields) else None
  }

  /**
   * A top-level setting merged with its `providerData` namesake, the latter winning on a
   * shared key; `undefined` when neither is given.
   */
  function MergeSetting(top: Option<Object>, provided: Option<Object>): (v: Value)
    ensures v == Undefined <==> top.None? && provided.None?
    ensures v.Defined? ==> v.json.JObject?
    ensures v.Defined? ==> v.json.fields.Keys == top.GetOr(map[]).Keys + provided.GetOr(map[]).Keys
    ensures v.Defined? && provided.Some? ==> forall k :: k in provided.value ==> v.json.fields[k] == provided.value[k]
    ensures v.Defined? && top.Some? ==>
      forall k :: k in top.value && k !in provided.GetOr(map[]) ==> v.json.fields[k] == top.value[k]
  {
    if top.None? && provided.None? then Undefined
    else Defined(JObject(Spread(top.GetOr(map[]), provided.GetOr(map[]))))
  }

  /** The `providerData` keys lifted to top-level parameters: all but `reasoning` and `text`. */
  function LiftedKeys(providerData: Object): (r: Params)
    ensures r.Keys == providerData.Keys - {"reasoning", "text"}
    ensures forall k :: k in r ==> r[k] == Defined(providerData[k])
  {
    map k | k in providerData && k != "reasoning" && k != "text" :: Defined(providerData[k])
  }

  /** The parameters this model computes before the lifted `providerData` keys are spread over them. */
  function BaseParams(model: string, req: ModelRequest): (r: Params)
    ensures "instructions" in r && "reasoning" in r && "text" in r
    ensures "model" in r <==> req.prompt.None?
    ensures "prompt" in r <==> req.prompt.Some?
  {
    var s := req.settings;
    var withModel: Params := if req.prompt.None? then map["model" := Defined(JString(model))] else map[];
    var withPrompt: Params := if req.prompt.Some? then map["prompt" := Defined(PromptParam(req.prompt.value))] else map[];
    withModel + withPrompt + map[
      "instructions" := NormalizeInstructions(req.systemInstructions),
      "reasoning" := MergeSetting(s.reasoning, ProvidedObject(s.providerData, "reasoning")),
      "text" := MergeSetting(s.text, ProvidedObject(s.providerData, "text"))]
  }

  /**
   * The `responses.create` parameters for a request to `model`: the model unless a prompt
   * is given, the normalized instructions, the prompt, the merged `reasoning` and `text`,
   * and every other `providerData` key lifted to the top level, spread last.
   */
  function BuildParams(model: string, req: ModelRequest): (r: CreateParams)
    ensures r.input == InputItems(req.input)
    ensures var pd := req.settings.providerData;
      r.params.Keys == BaseParams(model, req).Keys + (pd.Keys - {"reasoning", "text"})
    ensures var pd := req.settings.providerData;
      forall k :: k in pd && k != "reasoning" && k != "text" ==> r.params[k] == Defined(pd[k])
    ensures "instructions" !in req.settings.providerData ==>
      r.params["instructions"] == NormalizeInstructions(req.systemInstructions)
    ensures "model" !in req.settings.providerData ==> ("model" in r.params <==> req.prompt.None?)
    ensures "model" !in req.settings.providerData && req.prompt.None? ==> r.params["model"] == Defined(JString(model))
    ensures "prompt" !in req.settings.providerData && req.prompt.Some? ==>
      r.params["prompt"] == Defined(PromptParam(req.prompt.value))
    ensures r.params["reasoning"] ==
      MergeSetting(req.settings.reasoning, ProvidedObject(req.settings.providerData, "reasoning"))
    ensures r.params["text"] == MergeSetting(req.settings.text, ProvidedObject(req.settings.providerData, "text"))
  {
    CreateParams(InputItems(req.input), Spread(BaseParams(model, req), LiftedKeys(req.settings.providerData)))
  }

  // ---------------------------------------------------------------------------
  // The merge laws
  // ---------------------------------------------------------------------------

  /**
   * The merge leaves the provided object as it was: restricted to its own keys, the merged
   * object is exactly the provided one.
   */
  lemma SpreadKeepsRight(a: Object, b: Object)
    ensures (map k | k in Spread(a, b) && k in b :: Spread(a, b)[k]) == b
  {
  }

  /** Spreading the same object twice changes nothing more. */
  lemma SpreadIdempotent(a: Object, b: Object)
    ensures Spread(Spread(a, b), b) == Spread(a, b)
  {
  }

  /** Spreading an empty object changes nothing, on either side. */
  lemma SpreadEmpty(a: Object)
    ensures Spread(a, map[]) == a && Spread(map[], a) == a
  {
  }

  /** A setting given only at the top level, or only in `providerData`, is sent as it is. */
  lemma MergeOneSide(o: Object)
    ensures MergeSetting(Some(o), None) == Defined(JObject(o))
    ensures MergeSetting(None, Some(o)) == Defined(JObject(o))
  {
    SpreadEmpty(o);
  }

  // ---------------------------------------------------------------------------
  // Usage and output
  // ---------------------------------------------------------------------------

  /** The upstream `usage`; a count is missing when the backend leaves it out. */
  datatype UpstreamUsage = UpstreamUsage(inputTokens: Option<int>, outputTokens: Option<int>, totalTokens: Option<int>)

  /** The runner's usage record: requests made and tokens spent. */
  datatype Usage = Usage(requests: nat, inputTokens: int, outputTokens: int, totalTokens: int)

  /** One upstream `message` output: its id, status and `output_text` parts. */
  datatype UpstreamMessage = UpstreamMessage(id: string, status: string, texts: seq<string>)

  datatype UpstreamResponse = UpstreamResponse(id: string, usage: Option<UpstreamUsage>, output: seq<UpstreamMessage>)

  datatype ModelResponse = ModelResponse(usage: Usage, output: seq<Item>, responseId: string)

  /** The usage of one response: one request, and its token counts with missing ones as zero. */
  function UsageOf(u: Option<UpstreamUsage>): (r: Usage)
    ensures r.requests == 1
    ensures u.Some? ==>
      r.inputTokens == u.value.inputTokens.GetOr(0) && r.outputTokens == u.value.outputTokens.GetOr(0)
      && r.totalTokens == u.value.totalTokens.GetOr(0)
    ensures u.None? ==> r == Usage(1, 0, 0, 0)
  {
    match u
    case None => Usage(1, 0, 0, 0)
    case Some(v) => Usage(1, v.inputTokens.GetOr(0), v.outputTokens.GetOr(0), v.totalTokens.GetOr(0))
  }

  /** Usage records added up, as a run adds up the usage of its responses. */
  function AddUsage(a: Usage, b: Usage): Usage {
    Usage(a.requests + b.requests, a.inputTokens + b.inputTokens, a.outputTokens + b.outputTokens,
          a.totalTokens + b.totalTokens)
  }

  /** The usage of several responses, added up from the first. */
  function TotalUsage(responses: seq<UpstreamResponse>): Usage {
    if |responses| == 0 then Usage(0, 0, 0, 0)
    else AddUsage(TotalUsage(responses[..|responses| - 1]), UsageOf(responses[|responses| - 1].usage))
  }

  /** Every response counts as exactly one request, so a run's usage counts its responses. */
  lemma {:induction false} TotalUsageCountsRequests(responses: seq<UpstreamResponse>)
    ensures TotalUsage(responses).requests == |responses|
    decreases |responses|
  {
    if |responses| > 0 {
      TotalUsageCountsRequests(responses[..|responses| - 1]);
    }
  }

  /** An upstream message as an assistant message item, with empty `providerData`. */
  function MessageItem(m: UpstreamMessage): (r: Item)
    ensures r.AssistantMessage? && r.pd == map[] && |r.output| == |m.texts|
    ensures forall i :: 0 <= i < |m.texts| ==> r.output[i] == OutputText(m.texts[i], map[])
  {
    AssistantMessage(seq(|m.texts|, i requires 0 <= i < |m.texts| => OutputText(m.texts[i], map[])), map[])
  }

  /** The texts of an assistant message's `output_text` parts. */
  function PartTexts(parts: seq<OutputContent>): seq<string> {
    if |parts| == 0 then []
    else PartTexts(parts[..|parts| - 1]) + (if parts[|parts| - 1].OutputText? then [parts[|parts| - 1].text] else [])
  }

  lemma {:induction false} PartTextsOfTexts(parts: seq<OutputContent>)
    requires forall i :: 0 <= i < |parts| ==> parts[i].OutputText?
    ensures |PartTexts(parts)| == |parts|
    ensures forall i :: 0 <= i < |parts| ==> PartTexts(parts)[i] == parts[i].text
    decreases |parts|
  {
    if |parts| > 0 {
      PartTextsOfTexts(parts[..|parts| - 1]);
    }
  }

  /** The message item carries the upstream message's texts, all of them, in order. */
  lemma MessageItemKeepsTexts(m: UpstreamMessage)
    ensures PartTexts(MessageItem(m).output) == m.texts
  {
    PartTextsOfTexts(MessageItem(m).output);
  }

  /** `getResponse`'s model response: the usage, the output messages, and the upstream id. */
  function ResponseOf(resp: UpstreamResponse): (r: ModelResponse)
    ensures r.responseId == resp.id && r.usage.requests == 1
    ensures |r.output| == |resp.output|
    ensures forall i :: 0 <= i < |resp.output| ==> r.output[i] == MessageItem(resp.output[i])
  {
    ModelResponse(UsageOf(resp.usage), seq(|resp.output|, i requires 0 <= i < |resp.output| => MessageItem(resp.output[i])),
                  resp.id)
  }

  // ---------------------------------------------------------------------------
  // Stream events
  // ---------------------------------------------------------------------------

  /** What the model yields to the runner for the upstream events. */
  datatype StreamEvent =
    | ResponseStarted(providerData: Object)
    | OutputTextDelta(delta: Value, providerData: Object)
    /** Every upstream event, passed on unchanged. */
    | ModelEvent(event: Object)

  const CreatedType: string := "response.created"
  const TextDeltaType: string := "response.output_text.delta"

  predicate HasType(e: Object, t: string) {
    "type" in e && e["type"] == JString(t)
  }

  /** An event's `delta`, or `undefined`. */
  function DeltaOf(e: Object): Value {
    if "delta" in e then Defined(e["delta"]) else Undefined
  }

  /** The event without its `delta`: `const { delta, ...rest } = event`. */
  function WithoutDelta(e: Object): (r: Object)
    ensures r.Keys == e.Keys - {"delta"}
    ensures forall k :: k in r ==> r[k] == e[k]
  {
    map k | k in e && k != "delta" :: e[k]
  }

  /**
   * One upstream event: `response.created` first yields `response_started` carrying the
   * event, a text delta first yields `output_text_delta` with the delta and the rest of
   * the event; then every event is passed on as a `model` event.
   */
  function TranslateEvent(e: Object): (r: seq<StreamEvent>)
    ensures 1 <= |r| <= 2 && r[|r| - 1] == ModelEvent(e)
    ensures forall i :: 0 <= i < |r| - 1 ==> !r[i].ModelEvent?
    ensures |r| == 2 <==> HasType(e, CreatedType) || HasType(e, TextDeltaType)
  {
    if HasType(e, CreatedType) then [ResponseStarted(e), ModelEvent(e)]
    else if HasType(e, TextDeltaType) then [OutputTextDelta(DeltaOf(e), WithoutDelta(e)), ModelEvent(e)]
    else [ModelEvent(e)]
  }

  /** The events yielded for an upstream stream, event by event. */
  function TranslateStream(events: seq<Object>): seq<StreamEvent> {
    if |events| == 0 then []
    else TranslateStream(events[..|events| - 1]) + TranslateEvent(events[|events| - 1])
  }

  /** The upstream events a translated stream passes on in its `model` events. */
  function ModelEvents(out: seq<StreamEvent>): seq<Object> {
    if |out| == 0 then []
    else ModelEvents(out[..|out| - 1]) + (if out[|out| - 1].ModelEvent? then [out[|out| - 1].event] else [])
  }

  lemma {:induction false} ModelEventsAppend(a: seq<StreamEvent>, b: seq<StreamEvent>)
    ensures ModelEvents(a + b) == ModelEvents(a) + ModelEvents(b)
    decreases |b|
  {
    if |b| == 0 {
      assert a + b == a;
    } else {
      assert (a + b)[..|a + b| - 1] == a + b[..|b| - 1];
      ModelEventsAppend(a, b[..|b| - 1]);
    }
  }

  lemma ModelEventsOfOne(e: Object)
    ensures ModelEvents(TranslateEvent(e)) == [e]
  {
    var r := TranslateEvent(e);
    if |r| == 2 {
      var first := r[..1];
      assert first[..0] == [] && !first[0].ModelEvent?;
      assert ModelEvents(first) == [];
    } else {
      assert r[..0] == [];
    }
  }

  /** Every upstream event is passed on exactly once, unchanged and in order. */
  lemma {:induction false} ModelEventsRoundTrip(events: seq<Object>)
    ensures ModelEvents(TranslateStream(events)) == events
    decreases |events|
  {
    if |events| > 0 {
      var init := events[..|events| - 1];
      assert TranslateStream(events) == TranslateStream(init) + TranslateEvent(events[|events| - 1]);
      ModelEventsRoundTrip(init);
      ModelEventsAppend(TranslateStream(init), TranslateEvent(events[|events| - 1]));
      ModelEventsOfOne(events[|events| - 1]);
    }
  }

  /** A text delta's event is its `providerData` with the delta put back. */
  lemma DeltaReassembles(e: Object)
    requires HasType(e, TextDeltaType) && "delta" in e
    ensures TranslateEvent(e)[0].OutputTextDelta?
    ensures var d := TranslateEvent(e)[0];
      d.delta.Defined? && Spread(d.providerData, map["delta" := d.delta.json]) == e
  {
    var d := TranslateEvent(e)[0];
    assert Spread(d.providerData, map["delta" := e["delta"]]) == e;
  }

  // ---------------------------------------------------------------------------
  // The shapes the model's callers rely on
  // ---------------------------------------------------------------------------

  function NoSettings(): Settings {
    Settings(None, None, map[])
  }

  /** A string input is sent as one user message, with the model and the instructions as given. */
  lemma StringInputRequest()
    ensures var r := BuildParams("gpt-test", ModelRequest(Some("inst"), None, TextInput("hello"), NoSettings()));
      && r.input == [UserMessage(UserString("hello"), map[])]
      && r.params["model"] == Defined(JString("gpt-test"))
      && r.params["instructions"] == Defined(JString("inst"))
  {
    assert !IsBlank("inst") by { assert !IsJsSpace("inst"[0]); }
  }

  /** With a stored prompt the `model` key is left out and the prompt id is sent as `id`. */
  lemma PromptOmitsModel()
    ensures var r := BuildParams("gpt-default", ModelRequest(None, Some(Prompt("pmpt_123", None, None)), TextInput("hello"), NoSettings()));
      && "model" !in r.params
      && r.params["prompt"] == Defined(JObject(map["id" := JString("pmpt_123")]))
  {
  }

  /** Empty and white-space-only instructions are sent as an `instructions` key holding `undefined`. */
  lemma BlankInstructionsAreUndefined(instructions: string)
    requires instructions == "" || instructions == "   "
    ensures var r := BuildParams("gpt-test", ModelRequest(Some(instructions), None, TextInput("hello"), NoSettings()));
      "instructions" in r.params && r.params["instructions"] == Undefined
  {
  }

  /** Other instructions are sent verbatim, surrounding spaces included. */
  lemma OtherInstructionsAreVerbatim(instructions: string)
    requires instructions == " a " || instructions == "foo"
    ensures var r := BuildParams("gpt-test", ModelRequest(Some(instructions), None, TextInput("hello"), NoSettings()));
      r.params["instructions"] == Defined(JString(instructions))
  {
    assert !IsJsSpace(instructions[1]);
  }

  /** The top-level reasoning settings of the merge example. */
  function TopReasoning(): Object {
    map["effort" := JString("medium"), "summary" := JString("concise")]
  }

  /** The `providerData` reasoning settings of the merge example. */
  function ProvidedReasoning(): Object {
    map["summary" := JString("override"), "note" := JString("provider")]
  }

  function ExampleProviderData(): Object {
    map["reasoning" := JObject(ProvidedReasoning()), "text" := JObject(map["tone" := JString("playful")]),
        "customFlag" := JBool(true)]
  }

  function ExampleSettings(): Settings {
    Settings(Some(TopReasoning()), Some(map["verbosity" := JString("low")]), ExampleProviderData())
  }

  /** The provided `summary` wins over the top-level one; the other keys of both are kept. */
  lemma ReasoningMergeExample()
    ensures Spread(TopReasoning(), ProvidedReasoning()) ==
      map["effort" := JString("medium"), "summary" := JString("override"), "note" := JString("provider")]
  {
  }

  /** Settings with no key in common are merged into one object with the keys of both. */
  lemma TextMergeExample()
    ensures Spread(map["verbosity" := JString("low")], map["tone" := JString("playful")]) ==
      map["verbosity" := JString("low"), "tone" := JString("playful")]
  {
  }

  /** The `providerData` entries the merge example reads. */
  lemma ExampleProvidedEntries()
    ensures ProvidedObject(ExampleProviderData(), "reasoning") == Some(ProvidedReasoning())
    ensures ProvidedObject(ExampleProviderData(), "text") == Some(map["tone" := JString("playful")])
    ensures "customFlag" in ExampleProviderData() && ExampleProviderData()["customFlag"] == JBool(true)
  {
  }

  /**
   * Top-level `reasoning` and `text` merged with their `providerData` namesakes, which win
   * on `summary`; the other `providerData` key is lifted to the top level.
   */
  lemma SettingsMergeWithProviderData(model: string, input: RequestInput)
    ensures var r := BuildParams(model, ModelRequest(None, None, input, ExampleSettings()));
      && r.params["reasoning"] == Defined(JObject(map["effort" := JString("medium"), "summary" := JString("override"),
                                                      "note" := JString("provider")]))
      && r.params["text"] == Defined(JObject(map["verbosity" := JString("low"), "tone" := JString("playful")]))
      && r.params["customFlag"] == Defined(JBool(true))
  {
    ExampleProvidedEntries();
    ReasoningMergeExample();
    TextMergeExample();
  }

  /** A response's usage counts one request and its tokens; its message comes back with empty `providerData`. */
  lemma ResponseUsageAndOutput()
    ensures var r := ResponseOf(UpstreamResponse("res1", Some(UpstreamUsage(Some(3), Some(4), Some(7))),
                                                 [UpstreamMessage("test_id", "completed", ["hi"])]));
      && r.usage == Usage(1, 3, 4, 7)
      && r.output == [AssistantText("hi")]
      && r.responseId == "res1"
  {
    var m := UpstreamMessage("test_id", "completed", ["hi"]);
    assert MessageItem(m).output == [OutputText("hi", map[])];
  }

  /**
   * A created event and a text delta: `response_started` carrying the first event, then
   * its `model` event; `output_text_delta` with the delta and only the event's `type`, then
   * its `model` event.
   */
  lemma StreamCreatedThenDelta(response: Json)
    ensures var created := map["type" := JString(CreatedType), "response" := response];
      var delta := map["type" := JString(TextDeltaType), "delta" := JString("delta")];
      TranslateStream([created, delta]) ==
        [ResponseStarted(created), ModelEvent(created),
         OutputTextDelta(Defined(JString("delta")), map["type" := JString(TextDeltaType)]), ModelEvent(delta)]
  {
    var created := map["type" := JString(CreatedType), "response" := response];
    var delta := map["type" := JString(TextDeltaType), "delta" := JString("delta")];
    var events := [created, delta];
    CreatedTranslated(response);
    DeltaTranslated();
    assert events[..1] == [created] && [created][..0] == [];
    assert TranslateStream([created]) == TranslateEvent(created);
    assert TranslateStream(events) == TranslateStream([created]) + TranslateEvent(delta);
  }

  /** A `response.created` event: `response_started`, then the event itself. */
  lemma CreatedTranslated(response: Json)
    ensures var created := map["type" := JString(CreatedType), "response" := response];
      TranslateEvent(created) == [ResponseStarted(created), ModelEvent(created)]
  {
    var created := map["type" := JString(CreatedType), "response" := response];
    assert HasType(created, CreatedType);
  }

  /** A text delta event: the delta and the rest of the event, then the event itself. */
  lemma DeltaTranslated()
    ensures var delta := map["type" := JString(TextDeltaType), "delta" := JString("delta")];
      TranslateEvent(delta) == [OutputTextDelta(Defined(JString("delta")), map["type" := JString(TextDeltaType)]), ModelEvent(delta)]
  {
    var delta := map["type" := JString(TextDeltaType), "delta" := JString("delta")];
    assert !HasType(delta, CreatedType) && HasType(delta, TextDeltaType);
    assert WithoutDelta(delta) == map["type" := JString(TextDeltaType)];
  }
}

=== FILE: run_loop.dfy ===
/**
 * The runner's turn loop: one model request per turn until the run completes, fails or
 * is interrupted for approval, and `run` on a saved state, which resumes an interrupted
 * turn first and returns a finished one as it is.
 *
 * The model backend is a script of responses consumed one per turn; a backend error is
 * a script entry of its own. A streamed and a non-streamed run go through the same
 * transitions, so they send the same requests; the streamed one also emits the events.
 */
module RunLoop {
  import opened Wrappers
  import opened Items
  import opened TurnInput
  import opened RunEvents
  import opened Runner
  import opened Turns

  /** The scripted model's error when it has no response left, as the runner tests' fake model raises it. */
  const NoResponse: string := "No response found"

  /** A finished call to the runner: its final state, the requests it made and the events it emitted. */
  datatype Outcome = Outcome(state: RunState, requests: seq<ModelRequest>, events: seq<RunEvent>)

  /** The script entries that answer with `responses`, in order. */
  function Oks(responses: seq<ModelResponse>): (r: seq<Result<ModelResponse, string>>)
    ensures |r| == |responses|
  {
    if responses == [] then [] else [Ok(responses[0])] + Oks(responses[1..])
  }

  /**
   * `after` is `before` followed by the first responses of `script`, in order: the
   * recorded responses are the ones the backend gave, one per answered request.
   */
  predicate RecordsScript(before: seq<ModelResponse>, after: seq<ModelResponse>,
                          script: seq<Result<ModelResponse, string>>) {
    && |before| <= |after|
    && after[..|before|] == before
    && |after| - |before| <= |script|
    && script[..|after| - |before|] == Oks(after[|before|..])
  }

  /** Recording the first response of the script, then the rest of it from the rest of the script. */
  lemma RecordsScriptStep(before: seq<ModelResponse>, response: ModelResponse, after: seq<ModelResponse>,
                          script: seq<Result<ModelResponse, string>>)
    requires |script| > 0 && script[0] == Ok(response)
    requires RecordsScript(before + [response], after, script[1..])
    ensures RecordsScript(before, after, script)
  {
    var n := |before|;
    var k := |after| - n;
    assert after[..n] == after[..n + 1][..n];
    assert after[n] == after[..n + 1][n];
    assert after[n..][1..] == after[n + 1..];
    assert script[..k] == [script[0]] + script[1..][..k - 1];
  }

  /**
   * Turns until the run stops running: the turn counter goes up before the model is
   * called, and past `maxTurns` the run fails without calling it.
   *
   * One request per turn, one recorded response per answered request; the run-item
   * events are those of the items added to the history, in order; a completed run ends
   * with its one `agent_end`; and a well-formed history stays well formed.
   */
  function Loop(config: RunConfig, s: RunState, script: seq<Result<ModelResponse, string>>,
                invoke: (string, string) -> string): (o: Outcome)
    requires Valid(s) && s.status.Running?
    ensures Valid(o.state) && o.state.input == s.input && o.state.maxTurns == s.maxTurns
    ensures !o.state.status.Running?
    ensures Emits(s.generated, o.state, o.events)
    ensures o.state.turn == s.turn + |o.requests|
    ensures s.turn < s.maxTurns ==> o.state.turn <= s.maxTurns && |o.requests| > 0
    ensures s.turn >= s.maxTurns ==> o.requests == [] && o.state.status == Failed(MaxTurnsExceeded(s.maxTurns))
    ensures |o.state.modelResponses| == |s.modelResponses| + |o.requests|
      - (if o.state.status.Failed? && o.state.status.error.ModelFailed? then 1 else 0)
    ensures Coherent(s) && s.pending == [] ==> Coherent(o.state)
    decreases s.maxTurns - s.turn, 1
  {
    if s.turn >= s.maxTurns then
      assert s.generated[..|s.generated|] == s.generated;
      assert s.generated[|s.generated|..] == [];
      Outcome(s.(status := Failed(MaxTurnsExceeded(s.maxTurns))), [], [])
    else NextTurn(config, s, script, invoke)
  }

  /**
   * A turn under the limit: the counter goes up and the request is sent; a missing or
   * failed response fails the run, and an accepted one is taken and the loop goes on
   * from the state it leaves, unless that state has stopped running.
   */
  function NextTurn(config: RunConfig, s: RunState, script: seq<Result<ModelResponse, string>>,
                    invoke: (string, string) -> string): (o: Outcome)
    requires Valid(s) && s.status.Running? && s.turn < s.maxTurns
    ensures Valid(o.state) && o.state.input == s.input && o.state.maxTurns == s.maxTurns
    ensures !o.state.status.Running?
    ensures Emits(s.generated, o.state, o.events)
    ensures o.state.turn == s.turn + |o.requests| && o.state.turn <= s.maxTurns && |o.requests| > 0
    ensures |o.state.modelResponses| == |s.modelResponses| + |o.requests|
      - (if o.state.status.Failed? && o.state.status.error.ModelFailed? then 1 else 0)
    ensures Coherent(s) && s.pending == [] ==> Coherent(o.state)
    decreases s.maxTurns - s.turn, 0
  {
    var request := BuildRequest(config, s);
    var next := s.(turn := s.turn + 1);
    assert s.generated[..|s.generated|] == s.generated;
    assert s.generated[|s.generated|..] == [];
    if |script| == 0 then Outcome(next.(status := Failed(ModelFailed(NoResponse))), [request], [])
    else if script[0].Err? then Outcome(next.(status := Failed(ModelFailed(script[0].error))), [request], [])
    else
      var r := TakeTurn(next, script[0].value, invoke);
      TakeTurnKeepsCoherent(next, script[0].value, invoke);
      if r.0.status.Running? then
        var o := Loop(config, r.0, script[1..], invoke);
        EmitsChain(s.generated, r.0, o.state, r.1, o.events);
        TakeTurnSettles(next, script[0].value, invoke);
        Outcome(o.state, [request] + o.requests, r.1 + o.events)
      else Outcome(r.0, [request], r.1)
  }

  /** The loop from `s` on `script` ends in `o`. */
  predicate LoopEndsIn(config: RunConfig, s: RunState, script: seq<Result<ModelResponse, string>>,
                       invoke: (string, string) -> string, o: Outcome)
    requires Valid(s) && s.status.Running?
  {
    Loop(config, s, script, invoke) == o
  }

  /** A turn that leaves the run running: its request, then the loop `o` from the state it leaves. */
  lemma NextTurnContinues(config: RunConfig, s: RunState, script: seq<Result<ModelResponse, string>>,
                          invoke: (string, string) -> string, o: Outcome)
    requires Valid(s) && s.status.Running? && s.turn < s.maxTurns && |script| > 0 && script[0].Ok?
    requires TakeTurn(s.(turn := s.turn + 1), script[0].value, invoke).0.status.Running?
    requires LoopEndsIn(config, TakeTurn(s.(turn := s.turn + 1), script[0].value, invoke).0, script[1..], invoke, o)
    ensures NextTurn(config, s, script, invoke) ==
      Outcome(o.state, [BuildRequest(config, s)] + o.requests, TakeTurn(s.(turn := s.turn + 1), script[0].value, invoke).1 + o.events)
  {
  }

  /** A turn that stops the run in `r`: its one request, and the state and events of the turn. */
  lemma NextTurnStops(config: RunConfig, s: RunState, script: seq<Result<ModelResponse, string>>,
                      invoke: (string, string) -> string, r: (RunState, seq<RunEvent>))
    requires Valid(s) && s.status.Running? && s.turn < s.maxTurns && |script| > 0 && script[0].Ok?
    requires TakeTurn(s.(turn := s.turn + 1), script[0].value, invoke) == r && !r.0.status.Running?
    ensures NextTurn(config, s, script, invoke) == Outcome(r.0, [BuildRequest(config, s)], r.1)
  {
  }

  /** One turn under the limit from `s` on `script`, and the loop after it, end in `o`. */
  predicate NextTurnEndsIn(config: RunConfig, s: RunState, script: seq<Result<ModelResponse, string>>,
                           invoke: (string, string) -> string, o: Outcome)
    requires Valid(s) && s.status.Running? && s.turn < s.maxTurns
  {
    NextTurn(config, s, script, invoke) == o
  }

  /** The responses a loop ending in `o` records are the ones the script gave, in order, one per answered request. */
  lemma {:induction false} LoopRecordsScript(config: RunConfig, s: RunState, script: seq<Result<ModelResponse, string>>,
                                             invoke: (string, string) -> string, o: Outcome)
    requires Valid(s) && s.status.Running? && LoopEndsIn(config, s, script, invoke, o)
    ensures RecordsScript(s.modelResponses, o.state.modelResponses, script)
    decreases s.maxTurns - s.turn, 1
  {
    if s.turn >= s.maxTurns {
      assert o.state.modelResponses == s.modelResponses;
      assert s.modelResponses[..|s.modelResponses|] == s.modelResponses;
    } else {
      assert NextTurnEndsIn(config, s, script, invoke, o);
      NextTurnRecordsScript(config, s, script, invoke, o);
    }
  }

  /** The same for one turn under the limit and the loop that follows it. */
  lemma {:induction false} NextTurnRecordsScript(config: RunConfig, s: RunState, script: seq<Result<ModelResponse, string>>,
                                                 invoke: (string, string) -> string, o: Outcome)
    requires Valid(s) && s.status.Running? && s.turn < s.maxTurns && NextTurnEndsIn(config, s, script, invoke, o)
    ensures RecordsScript(s.modelResponses, o.state.modelResponses, script)
    decreases s.maxTurns - s.turn, 0
  {
    if |script| == 0 || script[0].Err? {
      assert o.state.modelResponses == s.modelResponses;
      assert s.modelResponses[..|s.modelResponses|] == s.modelResponses;
    } else {
      var r := TakeTurn(s.(turn := s.turn + 1), script[0].value, invoke);
      if r.0.status.Running? {
        var rest := Loop(config, r.0, script[1..], invoke);
        NextTurnContinues(config, s, script, invoke, rest);
        LoopRecordsScript(config, r.0, script[1..], invoke, rest);
        RecordsScriptStep(s.modelResponses, script[0].value, o.state.modelResponses, script);
      } else {
        NextTurnStops(config, s, script, invoke, r);
        assert o.state.modelResponses[..|s.modelResponses|] == s.modelResponses;
        assert script[..1] == [Ok(script[0].value)];
        assert o.state.modelResponses[|s.modelResponses|..] == [script[0].value];
      }
    }
  }

  /**
   * Under `previousResponseId`, every request after the first names the response the
   * request before it got, when the backend gave that response an id, and otherwise the
   * same response as the request before it.
   */
  predicate ChainsResponseIds(requests: seq<ModelRequest>, script: seq<Result<ModelResponse, string>>) {
    forall k :: 0 <= k < |requests| - 1 ==> ChainedAt(requests, script, k)
  }

  /** Request `k + 1` was sent after `script[k]` answered request `k`, and names the response it chains on. */
  predicate ChainedAt(requests: seq<ModelRequest>, script: seq<Result<ModelResponse, string>>, k: nat)
    requires k + 1 < |requests|
  {
    && k < |script| && script[k].Ok?
    && requests[k + 1].previousResponseId ==
       (if script[k].value.responseId.Some? then script[k].value.responseId else requests[k].previousResponseId)
  }

  /** A request answered by `script[0]`, then requests that chain on the rest of the script. */
  lemma ChainsStep(request: ModelRequest, rest: seq<ModelRequest>, script: seq<Result<ModelResponse, string>>)
    requires |script| > 0 && script[0].Ok? && ChainsResponseIds(rest, script[1..])
    requires |rest| > 0 ==>
      rest[0].previousResponseId ==
        (if script[0].value.responseId.Some? then script[0].value.responseId else request.previousResponseId)
    ensures ChainsResponseIds([request] + rest, script)
  {
    var all := [request] + rest;
    forall k | 0 <= k < |all| - 1
      ensures ChainedAt(all, script, k)
    {
      if k > 0 {
        assert ChainedAt(rest, script[1..], k - 1);
        assert all[k + 1] == rest[k] && all[k] == rest[k - 1] && script[k] == script[1..][k - 1];
      }
    }
  }

  /** The requests of a loop under `previousResponseId` start from the state's own request and chain on the script. */
  lemma {:induction false} LoopChainsResponseIds(config: RunConfig, s: RunState, script: seq<Result<ModelResponse, string>>,
                                                 invoke: (string, string) -> string, o: Outcome)
    requires Valid(s) && s.status.Running? && config.memory.PreviousResponse? && LoopEndsIn(config, s, script, invoke, o)
    ensures |o.requests| > 0 ==> o.requests[0] == BuildRequest(config, s)
    ensures ChainsResponseIds(o.requests, script)
    decreases s.maxTurns - s.turn, 1
  {
    if s.turn >= s.maxTurns {
      assert o.requests == [];
    } else {
      assert NextTurnEndsIn(config, s, script, invoke, o);
      NextTurnChainsResponseIds(config, s, script, invoke, o);
    }
  }

  /** The same for one turn under the limit and the loop that follows it. */
  lemma {:induction false} NextTurnChainsResponseIds(config: RunConfig, s: RunState, script: seq<Result<ModelResponse, string>>,
                                                     invoke: (string, string) -> string, o: Outcome)
    requires Valid(s) && s.status.Running? && s.turn < s.maxTurns && config.memory.PreviousResponse?
    requires NextTurnEndsIn(config, s, script, invoke, o)
    ensures |o.requests| > 0 && o.requests[0] == BuildRequest(config, s)
    ensures ChainsResponseIds(o.requests, script)
    decreases s.maxTurns - s.turn, 0
  {
    if |script| == 0 || script[0].Err? {
      assert o.requests == [BuildRequest(config, s)];
    } else {
      var next := s.(turn := s.turn + 1);
      var r := TakeTurn(next, script[0].value, invoke);
      TurnChainsResponseId(config, next, script[0].value, invoke);
      assert BuildRequest(config, next).previousResponseId == BuildRequest(config, s).previousResponseId;
      if r.0.status.Running? {
        var rest := Loop(config, r.0, script[1..], invoke);
        NextTurnContinues(config, s, script, invoke, rest);
        LoopChainsResponseIds(config, r.0, script[1..], invoke, rest);
        ChainsStep(BuildRequest(config, s), rest.requests, script);
      } else {
        NextTurnStops(config, s, script, invoke, r);
        assert o.requests == [BuildRequest(config, s)];
      }
    }
  }

  /**
   * `run(agent, input | state)`: an interrupted state is resumed first; a completed or
   * failed one is returned as it is, without calling the model or emitting anything.
   */
  function Run(config: RunConfig, s: RunState, script: seq<Result<ModelResponse, string>>,
               invoke: (string, string) -> string): (o: Outcome)
    requires Valid(s)
    ensures Valid(o.state) && o.state.input == s.input
    ensures |s.generated| <= |o.state.generated| && o.state.generated[..|s.generated|] == s.generated
    ensures s.status.Completed? || s.status.Failed? ==> o == Outcome(s, [], [])
    ensures s.status.Running? || s.status.Interrupted? ==> Emits(s.generated, o.state, o.events)
    ensures Coherent(s) && Settled(s) ==> Coherent(o.state)
  {
    match s.status
    case Interrupted =>
      var r := Resume(s, invoke);
      ResumeKeepsCoherent(s, invoke);
      if r.0.status.Running? then
        var o := Loop(config, r.0, script, invoke);
        EmitsChain(s.generated, r.0, o.state, r.1, o.events);
        Outcome(o.state, o.requests, r.1 + o.events)
      else Outcome(r.0, [], r.1)
    case Running => Loop(config, s, script, invoke)
    case _ =>
      assert s.generated[..|s.generated|] == s.generated;
      Outcome(s, [], [])
  }

  /**
   * `run` under `previousResponseId` chains its requests on the script; the first one,
   * also after resuming an interrupted turn, names the response the saved state's next
   * request would name: the one its last turn got.
   */
  lemma RunChainsResponseIds(config: RunConfig, s: RunState, script: seq<Result<ModelResponse, string>>,
                             invoke: (string, string) -> string)
    requires Valid(s) && config.memory.PreviousResponse?
    ensures var o := Run(config, s, script, invoke);
      && (|o.requests| > 0 ==> o.requests[0].previousResponseId == BuildRequest(config, s).previousResponseId)
      && ChainsResponseIds(o.requests, script)
  {
    var o := Run(config, s, script, invoke);
    match s.status
    case Interrupted =>
      var r := Resume(s, invoke);
      ResumeKeepsResponseId(config, s, invoke);
      if r.0.status.Running? {
        LoopChainsResponseIds(config, r.0, script, invoke, Loop(config, r.0, script, invoke));
      }
    case Running =>
      LoopChainsResponseIds(config, s, script, invoke, o);
    case _ =>
  }
}

=== FILE: runner.dfy ===
/**
 * The runner's view of an agent and of one model response: the agent's function tools
 * and hand-offs, `processModelResponse` turning output items into run items and the
 * work they ask for, and the decision, for each tool call, to run it, refuse it or hold
 * it for approval. A tool's execution is a function handed in by the caller.
 */
module Runner {
  import opened Wrappers
  import opened Items
  import opened TurnInput

  // ---------------------------------------------------------------------------
  // Agents and tools
  // ---------------------------------------------------------------------------

  /** `toolUseBehavior`: run the model again on tool results, or end the run with the first one. */
  datatype ToolUseBehavior = RunLlmAgain | StopOnFirstTool

  /** A function tool: its name and whether a call must be approved before it runs. */
  datatype FunctionTool = FunctionTool(name: string, needsApproval: bool)

  datatype Agent = Agent(name: string, model: ModelRef, tools: seq<FunctionTool>,
                         handoffs: seq<Handoff>, toolUse: ToolUseBehavior)

  /** A hand-off: the tool name the model calls to transfer control, and the agent it goes to. */
  datatype Handoff = Handoff(toolName: string, target: Agent)

  /** The tool of that name; a later tool of the same name shadows an earlier one, as in a `Map`. */
  function FindTool(tools: seq<FunctionTool>, name: string): (r: Option<FunctionTool>)
    ensures r.Some? ==> r.value in tools && r.value.name == name
    ensures r.None? ==> forall i :: 0 <= i < |tools| ==> tools[i].name != name
  {
    if |tools| == 0 then None
    else if tools[|tools| - 1].name == name then Some(tools[|tools| - 1])
    else FindTool(tools[..|tools| - 1], name)
  }

  /** The hand-off of that tool name, the later one winning as for tools. */
  function FindHandoff(handoffs: seq<Handoff>, name: string): (r: Option<Handoff>)
    ensures r.Some? ==> r.value in handoffs && r.value.toolName == name
    ensures r.None? ==> forall i :: 0 <= i < |handoffs| ==> handoffs[i].toolName != name
  {
    if |handoffs| == 0 then None
    else if handoffs[|handoffs| - 1].toolName == name then Some(handoffs[|handoffs| - 1])
    else FindHandoff(handoffs[..|handoffs| - 1], name)
  }

  // ---------------------------------------------------------------------------
  // Processing a model response
  // ---------------------------------------------------------------------------

  /** A `function_call` item addressed to a function tool of the agent. */
  datatype ToolRun = ToolRun(callId: string, name: string, arguments: string, pd: ProviderData, tool: FunctionTool) {
    function Raw(): Item {
      FunctionCall(callId, name, arguments, pd)
    }
  }

  /** A `function_call` item addressed to one of the agent's hand-offs. */
  datatype HandoffRun = HandoffRun(callId: string, handoff: Handoff)

  datatype RunError =
    | MaxTurnsExceeded(maxTurns: nat)
    /** The model backend's own error, passed on unchanged. */
    | ModelFailed(message: string)
    /** A `function_call` naming neither a tool nor a hand-off of the agent. */
    | ToolNotFound(name: string)

  /** What a response asks for: its items as run items, the tool calls, the hand-offs, the MCP approvals. */
  datatype Processed = Processed(items: seq<RunItem>, runs: seq<ToolRun>, handoffs: seq<HandoffRun>, hostedApprovals: nat)

  function Join(a: Processed, b: Processed): Processed {
    Processed(a.items + b.items, a.runs + b.runs, a.handoffs + b.handoffs, a.hostedApprovals + b.hostedApprovals)
  }

  /** A function call the agent can act on: every other item is always accepted. */
  predicate Known(agent: Agent, item: Item) {
    item.FunctionCall? ==> FindHandoff(agent.handoffs, item.name).Some? || FindTool(agent.tools, item.name).Some?
  }

  /**
   * One output item. A hand-off name is looked up before the tools. A hosted MCP approval
   * request is a tool call and also an approval request of its own.
   */
  function ProcessItem(agent: Agent, item: Item): (r: Result<Processed, RunError>)
    ensures r.Ok? <==> Known(agent, item)
  {
    match item
    case AssistantMessage(_, _) => Ok(Processed([RunItem(MessageOutput, item)], [], [], 0))
    case FunctionCall(callId, name, arguments, pd) =>
      var h := FindHandoff(agent.handoffs, name);
      var t := FindTool(agent.tools, name);
      if h.Some? then Ok(Processed([RunItem(HandoffCallItem, item)], [], [HandoffRun(callId, h.value)], 0))
      else if t.Some? then Ok(Processed([RunItem(ToolCallItem, item)], [ToolRun(callId, name, arguments, pd, t.value)], [], 0))
      else Err(ToolNotFound(name))
    case HostedToolCall(_, name, _) =>
      if name == McpApprovalRequest then Ok(Processed([RunItem(ToolCallItem, item), RunItem(ToolApproval, item)], [], [], 1))
      else Ok(Processed([RunItem(ToolCallItem, item)], [], [], 0))
    case Reasoning(_, _) => Ok(Processed([RunItem(ReasoningItem, item)], [], [], 0))
    case _ => Ok(Processed([RunItem(OtherRunItem, item)], [], [], 0))
  }

  /** `processModelResponse`: every output item in order; the first unknown function call fails it. */
  function ProcessResponse(agent: Agent, output: seq<Item>): Result<Processed, RunError>
  {
    if |output| == 0 then Ok(Processed([], [], [], 0))
    else
      var init :- ProcessResponse(agent, output[..|output| - 1]);
      var last :- ProcessItem(agent, output[|output| - 1]);
      Ok(Join(init, last))
  }

  /**
   * A response is accepted exactly when every function call in it is known; the error
   * names the first unknown one.
   */
  lemma {:induction false} ProcessResponseAccepts(agent: Agent, output: seq<Item>)
    ensures ProcessResponse(agent, output).Ok? <==> forall i :: 0 <= i < |output| ==> Known(agent, output[i])
    ensures ProcessResponse(agent, output).Err? ==> exists e :: (0 <= e < |output| && !Known(agent, output[e])
      && (forall i :: 0 <= i < e ==> Known(agent, output[i]))
      && ProcessResponse(agent, output).error == ToolNotFound(output[e].name))
    decreases |output|
  {
    if |output| > 0 {
      var init := output[..|output| - 1];
      ProcessResponseAccepts(agent, init);
      assert forall i :: 0 <= i < |init| ==> init[i] == output[i];
    }
  }

  /**
   * The processed items show exactly `output`, every tool call run is recorded as a call,
   * and none of them is a tool output: outputs only come from running the calls.
   */
  predicate Records(p: Processed, output: seq<Item>) {
    && Raws(p.items) == output
    && (forall r :: r in p.runs ==> RunItem(ToolCallItem, r.Raw()) in p.items)
    && (forall i :: 0 <= i < |p.items| ==> !p.items[i].kind.ToolCallOutput?)
  }

  /** One item is recorded as itself, and a tool call it asks for is recorded as a call. */
  lemma ProcessItemRecords(agent: Agent, item: Item)
    requires ProcessItem(agent, item).Ok?
    ensures Records(ProcessItem(agent, item).value, [item])
  {
    var b := ProcessItem(agent, item).value;
    if |b.items| == 2 {
      assert b.items[..1] == [b.items[0]];
      assert Raws(b.items[..1]) == [item];
    }
  }

  /** An accepted response is its accepted prefix joined with its accepted last item. */
  lemma ProcessResponseStep(agent: Agent, output: seq<Item>)
    requires |output| > 0 && ProcessResponse(agent, output).Ok?
    ensures ProcessResponse(agent, output[..|output| - 1]).Ok? && ProcessItem(agent, output[|output| - 1]).Ok?
    ensures ProcessResponse(agent, output).value ==
      Join(ProcessResponse(agent, output[..|output| - 1]).value, ProcessItem(agent, output[|output| - 1]).value)
  {
  }

  /** Recording is preserved by joining a recorded prefix with a recorded item. */
  lemma RecordsJoin(a: Processed, b: Processed, init: seq<Item>, last: Item)
    requires Records(a, init) && Records(b, [last])
    ensures Records(Join(a, b), init + [last])
  {
    RawsAppend(a.items, b.items);
  }

  /**
   * The history records the response exactly: the shown raw items of the processed
   * items are the output, item for item, and every tool call run is recorded as a call.
   */
  lemma {:induction false} ProcessResponseRecordsOutput(agent: Agent, output: seq<Item>)
    requires ProcessResponse(agent, output).Ok?
    ensures Records(ProcessResponse(agent, output).value, output)
    decreases |output|
  {
    if |output| > 0 {
      var init := output[..|output| - 1];
      var last := output[|output| - 1];
      assert init + [last] == output;
      ProcessResponseStep(agent, output);
      var a := ProcessResponse(agent, init).value;
      var b := ProcessItem(agent, last).value;
      ProcessResponseRecordsOutput(agent, init);
      ProcessItemRecords(agent, last);
      RecordsJoin(a, b, init, last);
      assert ProcessResponse(agent, output).value == Join(a, b);
    }
  }

  // ---------------------------------------------------------------------------
  // Running tools
  // ---------------------------------------------------------------------------

  /** The output a rejected call gets instead of running. */
  const NotApprovedMessage: string := "Tool execution was not approved."

  datatype Decision = Approved | Rejected

  /** A call's fate: held for approval, or done with the given output text. */
  datatype CallOutcome = Held | Done(text: string)

  /** The call is to run now: its tool needs no approval, or the call was approved. */
  predicate Executes(run: ToolRun, decisions: map<string, Decision>) {
    !run.tool.needsApproval || (run.callId in decisions && decisions[run.callId] == Approved)
  }

  /**
   * A call that needs approval is held until decided; a rejected one gets the refusal
   * text without running; everything else runs.
   */
  function Decide(run: ToolRun, decisions: map<string, Decision>, invoke: (string, string) -> string): (o: CallOutcome)
    ensures o.Held? <==> run.tool.needsApproval && run.callId !in decisions
    ensures o.Done? && run.tool.needsApproval && decisions[run.callId] == Rejected ==> o.text == NotApprovedMessage
    ensures Executes(run, decisions) ==> o == Done(invoke(run.tool.name, run.arguments))
  {
    if !run.tool.needsApproval then Done(invoke(run.tool.name, run.arguments))
    else if run.callId !in decisions then Held
    else if decisions[run.callId] == Rejected then Done(NotApprovedMessage)
    else Done(invoke(run.tool.name, run.arguments))
  }

  /** The generated item for a call: its approval request, or its output. */
  function OutcomeItem(run: ToolRun, o: CallOutcome): RunItem {
    match o
    case Held => RunItem(ToolApproval, run.Raw())
    case Done(text) => RunItem(ToolCallOutput, FunctionCallResult(run.callId, run.tool.name, TextOutput(text), map[]))
  }

  /** Every call's fate, in call order. */
  function Outcomes(runs: seq<ToolRun>, decisions: map<string, Decision>, invoke: (string, string) -> string): (r: seq<CallOutcome>)
    ensures |r| == |runs|
    ensures forall i :: 0 <= i < |runs| ==> r[i] == Decide(runs[i], decisions, invoke)
  {
    seq(|runs|, i requires 0 <= i < |runs| => Decide(runs[i], decisions, invoke))
  }

  /** Every call's item, in the order the calls came (not the order they finish). */
  function Results(runs: seq<ToolRun>, decisions: map<string, Decision>, invoke: (string, string) -> string): (r: seq<RunItem>)
    ensures |r| == |runs|
    ensures forall i :: 0 <= i < |runs| ==> r[i] == OutcomeItem(runs[i], Decide(runs[i], decisions, invoke))
  {
    seq(|runs|, i requires 0 <= i < |runs| => OutcomeItem(runs[i], Decide(runs[i], decisions, invoke)))
  }

  /**
   * What each call leaves in the history: its approval request exactly while it waits
   * for a decision, and otherwise an output answering it, which is the tool's own text
   * when the call runs and the refusal when it was rejected.
   */
  lemma ResultsAnswerCalls(runs: seq<ToolRun>, decisions: map<string, Decision>, invoke: (string, string) -> string,
                           r: seq<RunItem>)
    requires r == Results(runs, decisions, invoke)
    ensures forall i :: 0 <= i < |runs| ==>
      (r[i].kind.ToolApproval? <==> runs[i].tool.needsApproval && runs[i].callId !in decisions)
    ensures forall i :: 0 <= i < |runs| && r[i].kind.ToolApproval? ==> r[i].raw == runs[i].Raw()
    ensures forall i :: 0 <= i < |runs| && !r[i].kind.ToolApproval? ==>
      && r[i].kind.ToolCallOutput? && r[i].raw.FunctionCallResult?
      && r[i].raw.callId == runs[i].callId && r[i].raw.name == runs[i].tool.name
    ensures forall i :: 0 <= i < |runs| && Executes(runs[i], decisions) ==>
      r[i].raw.result == TextOutput(invoke(runs[i].tool.name, runs[i].arguments))
    ensures forall i :: 0 <= i < |runs| && runs[i].tool.needsApproval && runs[i].callId in decisions
                        && decisions[runs[i].callId] == Rejected ==>
      r[i].raw.result == TextOutput(NotApprovedMessage)
  {
  }

  /** The calls still awaiting a decision, in order. */
  function HeldRuns(runs: seq<ToolRun>, decisions: map<string, Decision>): seq<ToolRun>
  {
    if |runs| == 0 then []
    else
      var last := runs[|runs| - 1];
      HeldRuns(runs[..|runs| - 1], decisions) + (if last.tool.needsApproval && last.callId !in decisions then [last] else [])
  }

  /** Exactly the calls that need approval and have none recorded are held. */
  lemma {:induction false} HeldRunsExactly(runs: seq<ToolRun>, decisions: map<string, Decision>)
    ensures forall x :: x in HeldRuns(runs, decisions) <==> x in runs && x.tool.needsApproval && x.callId !in decisions
    decreases |runs|
  {
    if |runs| > 0 {
      var last := runs[|runs| - 1];
      HeldRunsExactly(runs[..|runs| - 1], decisions);
      assert runs == runs[..|runs| - 1] + [last];
    }
  }

  /** The text of a response's last assistant message, when its last part is text. */
  function LastMessageText(output: seq<Item>): Option<string>
  {
    if |output| == 0 then None
    else
      var last := output[|output| - 1];
      if last.AssistantMessage? then
        if |last.output| > 0 && last.output[|last.output| - 1].OutputText? then Some(last.output[|last.output| - 1].text)
        else None
      else LastMessageText(output[..|output| - 1])
  }
}

=== FILE: runner_scenarios.dfy ===
/**
 * The runner tests' scenarios, replayed on the model: a scripted model, a `test` tool
 * whose result is whatever `invoke` returns, and the requests and events a run produces.
 * Each scenario is taken turn by turn, the shape of one turn stated once below.
 */
module RunnerScenarios {
  import opened Wrappers
  import opened Items
  import opened TurnInput
  import opened RunEvents
  import opened Runner
  import opened Turns
  import opened RunLoop

  /** The runner's default turn limit. */
  const DefaultMaxTurns: nat := 10

  /** A call to the `test` tool with the given `test` argument. */
  function Call(callId: string, arg: string): Item {
    FunctionCall(callId, "test", Args(arg), map[])
  }

  function Args(arg: string): string {
    "{\"test\":\"" + arg + "\"}"
  }

  /** The result item of a call to the `test` tool. */
  function ResultOf(callId: string, text: string): Item {
    FunctionCallResult(callId, "test", TextOutput(text), map[])
  }

  function TestAgent(name: string, tool: FunctionTool): Agent {
    Agent(name, ModelInstance(0), [tool], [], RunLlmAgain)
  }

  /** Processing a response one more item long. */
  lemma ProcessAppend(agent: Agent, init: seq<Item>, last: Item, a: Processed, b: Processed)
    requires ProcessResponse(agent, init) == Ok(a) && ProcessItem(agent, last) == Ok(b)
    ensures ProcessResponse(agent, init + [last]) == Ok(Join(a, b))
  {
    assert (init + [last])[..|init|] == init;
  }

  // ---------------------------------------------------------------------------
  // The shape of one turn
  // ---------------------------------------------------------------------------

  /** The state a turn concludes from once the response is recorded and its items are in the history. */
  function Recorded(s: RunState, response: ModelResponse, items: seq<RunItem>): RunState {
    var g := s.generated + items;
    s.(modelResponses := s.modelResponses + [response],
       lastResponseId := if response.responseId.Some? then response.responseId else s.lastResponseId,
       generated := g, tracker := Tracker(true, |g|))
  }

  /** An accepted response is recorded, then the turn concludes with its calls. */
  lemma TakeTurnAccepted(s: RunState, response: ModelResponse, p: Processed, invoke: (string, string) -> string)
    requires Valid(s) && ProcessResponse(s.agent, response.output) == Ok(p)
    ensures TakeTurn(s, response, invoke) ==
      var r := Conclude(Recorded(s, response, p.items), p.runs, p.handoffs, p.hostedApprovals,
                        LastMessageText(response.output), invoke);
      (r.0, ItemEvents(p.items) + r.1)
  {
  }

  /**
   * One decided call: its output joins the history, then the run goes on, or under
   * `stop_on_first_tool` ends with that output.
   */
  lemma ConcludeRunsCall(s: RunState, run: ToolRun, message: Option<string>, invoke: (string, string) -> string)
    requires Valid(s) && !(run.tool.needsApproval && run.callId !in s.decisions)
    ensures var o := Decide(run, s.decisions, invoke);
      Conclude(s, [run], [], 0, message, invoke).0 ==
        s.(generated := s.generated + [OutcomeItem(run, o)], pending := [], pendingHandoffs := [],
           status := if s.agent.toolUse == StopOnFirstTool then Completed(o.text) else Running)
  {
    var o := Decide(run, s.decisions, invoke);
    var outcomes := Outcomes([run], s.decisions, invoke);
    assert outcomes == [o];
    assert !HasHeld(outcomes);
    assert Results([run], s.decisions, invoke) == [OutcomeItem(run, o)];
    assert [run][..0] == [];
    assert HeldRuns([run], s.decisions) == [];
  }

  /** One call awaiting approval: its approval request joins the history and the run is interrupted. */
  lemma ConcludeHoldsCall(s: RunState, run: ToolRun, hostedApprovals: nat, message: Option<string>,
                          invoke: (string, string) -> string)
    requires Valid(s) && run.tool.needsApproval && run.callId !in s.decisions
    ensures Conclude(s, [run], [], hostedApprovals, message, invoke).0 ==
      s.(generated := s.generated + [RunItem(ToolApproval, run.Raw())], pending := [run], pendingHandoffs := [],
         status := Interrupted)
  {
    var outcomes := Outcomes([run], s.decisions, invoke);
    assert outcomes == [Held];
    assert outcomes[0].Held?;
    assert HasHeld(outcomes);
    assert Results([run], s.decisions, invoke) == [RunItem(ToolApproval, run.Raw())];
    assert [run][..0] == [];
    assert HeldRuns([run], s.decisions) == [run];
  }

  /** The response of one message and one call. */
  function MessageAndCall(text: string, callId: string, arg: string, id: string): ModelResponse {
    ModelResponse([AssistantText(text), Call(callId, arg)], Some(id))
  }

  /** The state after a turn whose message and call were answered by running the call. */
  function AfterCall(s: RunState, text: string, callId: string, arg: string, id: string,
                     invoke: (string, string) -> string): RunState {
    var g := s.generated + [RunItem(MessageOutput, AssistantText(text)), RunItem(ToolCallItem, Call(callId, arg)),
                            RunItem(ToolCallOutput, ResultOf(callId, invoke("test", Args(arg))))];
    s.(generated := g, tracker := Tracker(true, |s.generated| + 2), lastResponseId := Some(id),
       modelResponses := s.modelResponses + [MessageAndCall(text, callId, arg, id)],
       pending := [], pendingHandoffs := [], status := Running)
  }

  /** The processed form of a message and a call to the agent's one tool. */
  lemma ProcessMessageAndCall(agent: Agent, text: string, callId: string, arg: string, id: string)
    requires agent.tools == [FunctionTool("test", false)] && agent.handoffs == []
    ensures ProcessResponse(agent, MessageAndCall(text, callId, arg, id).output) ==
      Ok(Processed([RunItem(MessageOutput, AssistantText(text)), RunItem(ToolCallItem, Call(callId, arg))],
                   [ToolRun(callId, "test", Args(arg), map[], FunctionTool("test", false))], [], 0))
  {
    var run := ToolRun(callId, "test", Args(arg), map[], FunctionTool("test", false));
    var m := Processed([RunItem(MessageOutput, AssistantText(text))], [], [], 0);
    var c := Processed([RunItem(ToolCallItem, Call(callId, arg))], [run], [], 0);
    assert ProcessItem(agent, AssistantText(text)) == Ok(m);
    assert ProcessItem(agent, Call(callId, arg)) == Ok(c);
    ProcessAppend(agent, [], AssistantText(text), Processed([], [], [], 0), m);
    ProcessAppend(agent, [AssistantText(text)], Call(callId, arg), Join(Processed([], [], [], 0), m), c);
    assert [AssistantText(text)] + [Call(callId, arg)] == MessageAndCall(text, callId, arg, id).output;
    assert Join(Join(Processed([], [], [], 0), m), c) ==
      Processed([RunItem(MessageOutput, AssistantText(text)), RunItem(ToolCallItem, Call(callId, arg))], [run], [], 0);
  }

  /** A response of one message and one call to a tool that needs no approval: the call runs and the run goes on. */
  lemma MessageAndCallTurn(s: RunState, text: string, callId: string, arg: string, id: string,
                           invoke: (string, string) -> string)
    requires Valid(s) && s.agent.tools == [FunctionTool("test", false)] && s.agent.handoffs == []
    requires s.agent.toolUse == RunLlmAgain
    ensures TakeTurn(s, MessageAndCall(text, callId, arg, id), invoke).0 == AfterCall(s, text, callId, arg, id, invoke)
  {
    var response := MessageAndCall(text, callId, arg, id);
    var run := ToolRun(callId, "test", Args(arg), map[], FunctionTool("test", false));
    var items := [RunItem(MessageOutput, AssistantText(text)), RunItem(ToolCallItem, Call(callId, arg))];
    ProcessMessageAndCall(s.agent, text, callId, arg, id);
    TakeTurnAccepted(s, response, Processed(items, [run], [], 0), invoke);
    ConcludeRunsCall(Recorded(s, response, items), run, LastMessageText(response.output), invoke);
    assert Decide(run, s.decisions, invoke) == Done(invoke("test", Args(arg)));
  }

  /** The state after a turn whose one message ended the run. */
  function AfterFinal(s: RunState, text: string, id: Option<string>): RunState {
    var g := s.generated + [RunItem(MessageOutput, AssistantText(text))];
    s.(generated := g, tracker := Tracker(true, |g|),
       lastResponseId := if id.Some? then id else s.lastResponseId,
       modelResponses := s.modelResponses + [ModelResponse([AssistantText(text)], id)],
       pending := [], pendingHandoffs := [], status := Completed(text))
  }

  /** The processed form of one message. */
  lemma ProcessFinal(agent: Agent, text: string)
    ensures ProcessResponse(agent, [AssistantText(text)]) == Ok(Processed([RunItem(MessageOutput, AssistantText(text))], [], [], 0))
  {
    var m := Processed([RunItem(MessageOutput, AssistantText(text))], [], [], 0);
    assert ProcessItem(agent, AssistantText(text)) == Ok(m);
    ProcessAppend(agent, [], AssistantText(text), Processed([], [], [], 0), m);
    assert [] + [AssistantText(text)] == [AssistantText(text)];
    assert Join(Processed([], [], [], 0), m) == m;
  }

  /** No calls and no hand-offs, with a message: the message's text completes the run. */
  lemma ConcludeFinal(s: RunState, text: string, invoke: (string, string) -> string)
    requires Valid(s)
    ensures Conclude(s, [], [], 0, Some(text), invoke).0 == s.(pending := [], pendingHandoffs := [], status := Completed(text))
  {
    assert Outcomes([], s.decisions, invoke) == [];
    assert !HasHeld([]);
    assert Results([], s.decisions, invoke) == [];
    assert HeldRuns([], s.decisions) == [];
    assert s.generated + [] == s.generated;
  }

  /** A response of one message and nothing else ends the run with the message's text. */
  lemma FinalMessageTurn(s: RunState, text: string, id: Option<string>, invoke: (string, string) -> string)
    requires Valid(s)
    ensures var r := TakeTurn(s, ModelResponse([AssistantText(text)], id), invoke);
      && r.0 == AfterFinal(s, text, id)
      && RunItemEvents(r.1) == [RunItemEvent("message_output_created", RunItem(MessageOutput, AssistantText(text)))]
  {
    var response := ModelResponse([AssistantText(text)], id);
    var m := Processed([RunItem(MessageOutput, AssistantText(text))], [], [], 0);
    ProcessFinal(s.agent, text);
    assert LastMessageText(response.output) == Some(text);
    TakeTurnAccepted(s, response, m, invoke);
    ConcludeFinal(Recorded(s, response, m.items), text, invoke);
    var r := TakeTurn(s, response, invoke);
    assert r.0.generated[|s.generated|..] == m.items;
  }

  /** The response of one call. */
  function CallOnly(callId: string, arg: string, id: string): ModelResponse {
    ModelResponse([Call(callId, arg)], Some(id))
  }

  /** The run of a call to the `test` tool that needs approval. */
  function ApprovalRun(callId: string, arg: string): ToolRun {
    ToolRun(callId, "test", Args(arg), map[], FunctionTool("test", true))
  }

  /** The state after a turn whose one call awaits approval. */
  function AfterHeld(s: RunState, callId: string, arg: string, id: string): RunState {
    s.(generated := s.generated + [RunItem(ToolCallItem, Call(callId, arg)), RunItem(ToolApproval, Call(callId, arg))],
       tracker := Tracker(true, |s.generated| + 1), lastResponseId := Some(id),
       modelResponses := s.modelResponses + [CallOnly(callId, arg, id)],
       pending := [ApprovalRun(callId, arg)], pendingHandoffs := [], status := Interrupted)
  }

  /** A response of one call to a tool that needs approval, not yet given: the run is interrupted. */
  lemma HeldCallTurn(s: RunState, callId: string, arg: string, id: string, invoke: (string, string) -> string)
    requires Valid(s) && s.agent.tools == [FunctionTool("test", true)] && s.agent.handoffs == []
    requires callId !in s.decisions
    ensures TakeTurn(s, CallOnly(callId, arg, id), invoke).0 == AfterHeld(s, callId, arg, id)
  {
    var c := Processed([RunItem(ToolCallItem, Call(callId, arg))], [ApprovalRun(callId, arg)], [], 0);
    ProcessCallOnly(s.agent, callId, arg, id);
    assert LastMessageText(CallOnly(callId, arg, id).output) == None;
    TakeTurnAccepted(s, CallOnly(callId, arg, id), c, invoke);
    ConcludeHoldsCall(Recorded(s, CallOnly(callId, arg, id), c.items), ApprovalRun(callId, arg), 0, None, invoke);
    HeldRecorded(s, callId, arg, id);
  }

  /** The recorded call with its approval request after it, held, is the state after a held call. */
  lemma HeldRecorded(s: RunState, callId: string, arg: string, id: string)
    ensures var r := Recorded(s, CallOnly(callId, arg, id), [RunItem(ToolCallItem, Call(callId, arg))]);
      r.(generated := r.generated + [RunItem(ToolApproval, ApprovalRun(callId, arg).Raw())], pending := [ApprovalRun(callId, arg)],
         pendingHandoffs := [], status := Interrupted) == AfterHeld(s, callId, arg, id)
  {
    assert s.generated + [RunItem(ToolCallItem, Call(callId, arg))] + [RunItem(ToolApproval, Call(callId, arg))] ==
      s.generated + [RunItem(ToolCallItem, Call(callId, arg)), RunItem(ToolApproval, Call(callId, arg))];
  }

  /** The processed form of one call to the agent's one tool, which needs approval. */
  lemma ProcessCallOnly(agent: Agent, callId: string, arg: string, id: string)
    requires agent.tools == [FunctionTool("test", true)] && agent.handoffs == []
    ensures ProcessResponse(agent, CallOnly(callId, arg, id).output) ==
      Ok(Processed([RunItem(ToolCallItem, Call(callId, arg))], [ApprovalRun(callId, arg)], [], 0))
  {
    var c := Processed([RunItem(ToolCallItem, Call(callId, arg))], [ApprovalRun(callId, arg)], [], 0);
    assert ProcessItem(agent, Call(callId, arg)) == Ok(c);
    ProcessAppend(agent, [], Call(callId, arg), Processed([], [], [], 0), c);
    assert [] + [Call(callId, arg)] == CallOnly(callId, arg, id).output;
    assert Join(Processed([], [], [], 0), c) == c;
  }

  /** A hosted MCP approval request. */
  const McpRequest: Item := HostedToolCall("approval-id", McpApprovalRequest, map[])

  /** The response of an MCP approval request and one call. */
  function McpAndCall(callId: string, arg: string, id: string): ModelResponse {
    ModelResponse([McpRequest, Call(callId, arg)], Some(id))
  }

  /** The state after a turn of an MCP approval request and one call awaiting approval. */
  function AfterMcpAndHeld(s: RunState, callId: string, arg: string, id: string): RunState {
    s.(generated := s.generated + [RunItem(ToolCallItem, McpRequest), RunItem(ToolApproval, McpRequest),
                                   RunItem(ToolCallItem, Call(callId, arg)), RunItem(ToolApproval, Call(callId, arg))],
       tracker := Tracker(true, |s.generated| + 3), lastResponseId := Some(id),
       modelResponses := s.modelResponses + [McpAndCall(callId, arg, id)],
       pending := [ApprovalRun(callId, arg)], pendingHandoffs := [], status := Interrupted)
  }

  /** The processed form of an MCP approval request and a call to the agent's one tool. */
  lemma ProcessMcpAndCall(agent: Agent, callId: string, arg: string, id: string)
    requires agent.tools == [FunctionTool("test", true)] && agent.handoffs == []
    ensures ProcessResponse(agent, McpAndCall(callId, arg, id).output) ==
      Ok(Processed([RunItem(ToolCallItem, McpRequest), RunItem(ToolApproval, McpRequest), RunItem(ToolCallItem, Call(callId, arg))],
                   [ApprovalRun(callId, arg)], [], 1))
  {
    var m := Processed([RunItem(ToolCallItem, McpRequest), RunItem(ToolApproval, McpRequest)], [], [], 1);
    var c := Processed([RunItem(ToolCallItem, Call(callId, arg))], [ApprovalRun(callId, arg)], [], 0);
    assert ProcessItem(agent, McpRequest) == Ok(m);
    assert ProcessItem(agent, Call(callId, arg)) == Ok(c);
    ProcessAppend(agent, [], McpRequest, Processed([], [], [], 0), m);
    ProcessAppend(agent, [McpRequest], Call(callId, arg), Join(Processed([], [], [], 0), m), c);
    assert [McpRequest] + [Call(callId, arg)] == McpAndCall(callId, arg, id).output;
    assert m.items + c.items ==
      [RunItem(ToolCallItem, McpRequest), RunItem(ToolApproval, McpRequest), RunItem(ToolCallItem, Call(callId, arg))];
    assert Join(Join(Processed([], [], [], 0), m), c) == Processed(m.items + c.items, [ApprovalRun(callId, arg)], [], 1);
  }

  /** An MCP approval request next to a call that needs approval: both are asked about and the run is interrupted. */
  lemma McpAndHeldCallTurn(s: RunState, callId: string, arg: string, id: string, invoke: (string, string) -> string)
    requires Valid(s) && s.agent.tools == [FunctionTool("test", true)] && s.agent.handoffs == []
    requires callId !in s.decisions
    ensures TakeTurn(s, McpAndCall(callId, arg, id), invoke).0 == AfterMcpAndHeld(s, callId, arg, id)
  {
    var items := [RunItem(ToolCallItem, McpRequest), RunItem(ToolApproval, McpRequest), RunItem(ToolCallItem, Call(callId, arg))];
    ProcessMcpAndCall(s.agent, callId, arg, id);
    TakeTurnAccepted(s, McpAndCall(callId, arg, id), Processed(items, [ApprovalRun(callId, arg)], [], 1), invoke);
    ConcludeHoldsCall(Recorded(s, McpAndCall(callId, arg, id), items), ApprovalRun(callId, arg), 1, None, invoke);
  }

  /** The response of one call to a hand-off. */
  function HandoffCall(callId: string, h: Handoff): ModelResponse {
    ModelResponse([FunctionCall(callId, h.toolName, "{}", map[])], None)
  }

  /** A response of one hand-off call: the hand-off is answered and the target agent takes over. */
  lemma HandoffTurn(s: RunState, callId: string, h: Handoff, invoke: (string, string) -> string)
    requires Valid(s) && s.agent.handoffs == [h]
    ensures var r := TakeTurn(s, HandoffCall(callId, h), invoke);
      && r.0.agent == h.target && r.0.status == Running
      && r.0.generated == s.generated + [RunItem(HandoffCallItem, FunctionCall(callId, h.toolName, "{}", map[])),
                                         HandoffOutput(HandoffRun(callId, h))]
      && AgentUpdated(h.target.name) in r.1
  {
    var call := FunctionCall(callId, h.toolName, "{}", map[]);
    var hr := HandoffRun(callId, h);
    var c := Processed([RunItem(HandoffCallItem, call)], [], [hr], 0);
    ProcessHandoff(s.agent, callId, h);
    TakeTurnAccepted(s, HandoffCall(callId, h), c, invoke);
    ConcludeHandsOff(Recorded(s, HandoffCall(callId, h), c.items), hr, LastMessageText([call]), invoke);
    assert AgentUpdated(h.target.name) in ItemEvents([HandoffOutput(hr)]) + [AgentUpdated(h.target.name)];
  }

  /** The processed form of one call to the agent's one hand-off. */
  lemma ProcessHandoff(agent: Agent, callId: string, h: Handoff)
    requires agent.handoffs == [h]
    ensures ProcessResponse(agent, HandoffCall(callId, h).output) ==
      Ok(Processed([RunItem(HandoffCallItem, FunctionCall(callId, h.toolName, "{}", map[]))], [], [HandoffRun(callId, h)], 0))
  {
    var call := FunctionCall(callId, h.toolName, "{}", map[]);
    var c := Processed([RunItem(HandoffCallItem, call)], [], [HandoffRun(callId, h)], 0);
    assert ProcessItem(agent, call) == Ok(c);
    ProcessAppend(agent, [], call, Processed([], [], [], 0), c);
    assert [] + [call] == HandoffCall(callId, h).output;
    assert Join(Processed([], [], [], 0), c) == c;
  }

  /** One hand-off and no calls: the hand-off is answered and the target agent takes over. */
  lemma ConcludeHandsOff(s: RunState, hr: HandoffRun, message: Option<string>, invoke: (string, string) -> string)
    requires Valid(s)
    ensures Conclude(s, [], [hr], 0, message, invoke) ==
      (s.(generated := s.generated + [HandoffOutput(hr)], agent := hr.handoff.target,
          pending := [], pendingHandoffs := [], status := Running),
       ItemEvents([] + [HandoffOutput(hr)]) + [AgentUpdated(hr.handoff.target.name)])
  {
    assert Outcomes([], s.decisions, invoke) == [];
    assert !HasHeld([]);
    assert Results([], s.decisions, invoke) == [];
    assert HeldRuns([], s.decisions) == [];
    assert s.generated + [] == s.generated;
  }

  // ---------------------------------------------------------------------------
  // One turn of the loop
  // ---------------------------------------------------------------------------

  /** A turn that leaves the run running in `next`: its request, then the rest of the loop. */
  lemma LoopContinues(config: RunConfig, s: RunState, response: ModelResponse, rest: seq<Result<ModelResponse, string>>,
                      next: RunState, invoke: (string, string) -> string)
    requires Valid(s) && s.status.Running? && s.turn < s.maxTurns
    requires TakeTurn(s.(turn := s.turn + 1), response, invoke).0 == next && next.status.Running?
    ensures Loop(config, s, [Ok(response)] + rest, invoke).state == Loop(config, next, rest, invoke).state
    ensures Loop(config, s, [Ok(response)] + rest, invoke).requests == [BuildRequest(config, s)] + Loop(config, next, rest, invoke).requests
    ensures Loop(config, s, [Ok(response)] + rest, invoke).events ==
      TakeTurn(s.(turn := s.turn + 1), response, invoke).1 + Loop(config, next, rest, invoke).events
  {
    var script: seq<Result<ModelResponse, string>> := [Ok(response)] + rest;
    assert script[0] == Ok(response) && script[1..] == rest;
    assert Loop(config, s, script, invoke) == NextTurn(config, s, script, invoke);
    NextTurnContinues(config, s, script, invoke, Loop(config, next, rest, invoke));
  }

  /** A turn that stops the run in `last`: its one request. */
  lemma LoopStops(config: RunConfig, s: RunState, response: ModelResponse, last: RunState,
                  invoke: (string, string) -> string)
    requires Valid(s) && s.status.Running? && s.turn < s.maxTurns
    requires TakeTurn(s.(turn := s.turn + 1), response, invoke).0 == last && !last.status.Running?
    ensures Loop(config, s, [Ok(response)], invoke).state == last
    ensures Loop(config, s, [Ok(response)], invoke).requests == [BuildRequest(config, s)]
    ensures Loop(config, s, [Ok(response)], invoke).events == TakeTurn(s.(turn := s.turn + 1), response, invoke).1
  {
    var script: seq<Result<ModelResponse, string>> := [Ok(response)];
    assert |script| == 1 && script[0].Ok? && script[0].value == response;
    var r := TakeTurn(s.(turn := s.turn + 1), response, invoke);
    assert Loop(config, s, script, invoke) == NextTurn(config, s, script, invoke);
    NextTurnStops(config, s, script, invoke, r);
  }

  /** A running state is run by the loop itself. */
  lemma RunOfRunning(config: RunConfig, s: RunState, script: seq<Result<ModelResponse, string>>,
                     invoke: (string, string) -> string)
    requires Valid(s) && s.status.Running?
    ensures Run(config, s, script, invoke) == Loop(config, s, script, invoke)
  {
  }

  /** An interrupted state whose resume leaves the run running goes on with the loop. */
  lemma RunResumes(config: RunConfig, s: RunState, script: seq<Result<ModelResponse, string>>, next: RunState,
                   invoke: (string, string) -> string)
    requires Valid(s) && s.status.Interrupted? && Resume(s, invoke).0 == next && next.status.Running?
    ensures Run(config, s, script, invoke).state == Loop(config, next, script, invoke).state
    ensures Run(config, s, script, invoke).requests == Loop(config, next, script, invoke).requests
  {
  }

  /** A server-managed turn after a turn that added one item past the watermark sends that item. */
  lemma SendsLast(input: RunInput, generated: seq<RunItem>, t: Tracker)
    requires t.inputSent && |generated| > 0 && t.sent == |generated| - 1
    requires !generated[t.sent].kind.ToolApproval?
    ensures ServerInput(input, generated, t) == [generated[t.sent].raw]
  {
    var last := [generated[t.sent]];
    assert generated[t.sent..] == last;
    RawsOne(generated[t.sent]);
  }

  /** What a model is shown of one generated item. */
  lemma RawsOne(x: RunItem)
    ensures Raws([x]) == if x.kind.ToolApproval? then [] else [x.raw]
  {
    assert [x][..0] == [];
  }

  /** What a model is shown of a few generated items, item by item. */
  lemma RawsSplit(x: RunItem, rest: seq<RunItem>)
    ensures Raws([x] + rest) == Raws([x]) + Raws(rest)
  {
    RawsAppend([x], rest);
  }

  // ---------------------------------------------------------------------------
  // Whole runs of the shapes the tests use
  // ---------------------------------------------------------------------------

  /** A final message as the last response: one request, and the run completes. */
  lemma LoopFinal(config: RunConfig, s: RunState, final: string, finalId: Option<string>, invoke: (string, string) -> string)
    requires Valid(s) && s.status.Running? && s.turn < s.maxTurns
    ensures var o := Loop(config, s, [Ok(ModelResponse([AssistantText(final)], finalId))], invoke);
      && o.state == AfterFinal(s.(turn := s.turn + 1), final, finalId)
      && o.requests == [BuildRequest(config, s)]
  {
    FinalMessageTurn(s.(turn := s.turn + 1), final, finalId, invoke);
    LoopStops(config, s, ModelResponse([AssistantText(final)], finalId), AfterFinal(s.(turn := s.turn + 1), final, finalId), invoke);
  }

  /** A message with a call, then a final message: two requests, and the run completes. */
  lemma CallThenFinal(config: RunConfig, s: RunState, text: string, callId: string, arg: string, id: string,
                      final: string, finalId: Option<string>, invoke: (string, string) -> string)
    requires Valid(s) && s.status.Running? && s.turn + 1 < s.maxTurns
    requires s.agent.tools == [FunctionTool("test", false)] && s.agent.handoffs == [] && s.agent.toolUse == RunLlmAgain
    ensures var s1 := AfterCall(s.(turn := s.turn + 1), text, callId, arg, id, invoke);
      var o := Loop(config, s, [Ok(MessageAndCall(text, callId, arg, id))] + [Ok(ModelResponse([AssistantText(final)], finalId))], invoke);
      && o.state == AfterFinal(s1.(turn := s1.turn + 1), final, finalId)
      && o.requests == [BuildRequest(config, s), BuildRequest(config, s1)]
  {
    var s1 := AfterCall(s.(turn := s.turn + 1), text, callId, arg, id, invoke);
    MessageAndCallTurn(s.(turn := s.turn + 1), text, callId, arg, id, invoke);
    LoopContinues(config, s, MessageAndCall(text, callId, arg, id), [Ok(ModelResponse([AssistantText(final)], finalId))], s1, invoke);
    LoopFinal(config, s1, final, finalId, invoke);
  }

  /** Two turns of a message with a call, then a final message: three requests, and the run completes. */
  lemma TwoCallsThenFinal(config: RunConfig, s: RunState, text1: string, callId1: string, arg1: string, id1: string,
                          text2: string, callId2: string, arg2: string, id2: string,
                          final: string, finalId: Option<string>, invoke: (string, string) -> string)
    requires Valid(s) && s.status.Running? && s.turn + 2 < s.maxTurns
    requires s.agent.tools == [FunctionTool("test", false)] && s.agent.handoffs == [] && s.agent.toolUse == RunLlmAgain
    ensures var s1 := AfterCall(s.(turn := s.turn + 1), text1, callId1, arg1, id1, invoke);
      var s2 := AfterCall(s1.(turn := s1.turn + 1), text2, callId2, arg2, id2, invoke);
      var o := Loop(config, s, [Ok(MessageAndCall(text1, callId1, arg1, id1))] +
                               ([Ok(MessageAndCall(text2, callId2, arg2, id2))] + [Ok(ModelResponse([AssistantText(final)], finalId))]), invoke);
      && o.state == AfterFinal(s2.(turn := s2.turn + 1), final, finalId)
      && o.requests == [BuildRequest(config, s), BuildRequest(config, s1), BuildRequest(config, s2)]
  {
    var s1 := AfterCall(s.(turn := s.turn + 1), text1, callId1, arg1, id1, invoke);
    var rest := [Ok(MessageAndCall(text2, callId2, arg2, id2))] + [Ok(ModelResponse([AssistantText(final)], finalId))];
    MessageAndCallTurn(s.(turn := s.turn + 1), text1, callId1, arg1, id1, invoke);
    LoopContinues(config, s, MessageAndCall(text1, callId1, arg1, id1), rest, s1, invoke);
    CallThenFinal(config, s1, text2, callId2, arg2, id2, final, finalId, invoke);
  }

  /** A first run whose one call needs approval: one request, and the run is interrupted. */
  lemma RunHoldsCall(config: RunConfig, s: RunState, callId: string, arg: string, id: string,
                     invoke: (string, string) -> string)
    requires Valid(s) && s.status.Running? && s.turn < s.maxTurns
    requires s.agent.tools == [FunctionTool("test", true)] && s.agent.handoffs == [] && callId !in s.decisions
    ensures var o := Run(config, s, [Ok(CallOnly(callId, arg, id))], invoke);
      && o.state == AfterHeld(s.(turn := s.turn + 1), callId, arg, id)
      && o.requests == [BuildRequest(config, s)]
  {
    HeldCallTurn(s.(turn := s.turn + 1), callId, arg, id, invoke);
    LoopStops(config, s, CallOnly(callId, arg, id), AfterHeld(s.(turn := s.turn + 1), callId, arg, id), invoke);
    RunOfRunning(config, s, [Ok(CallOnly(callId, arg, id))], invoke);
  }

  /** The state once an approved call's output joined the history on resume. */
  function Resumed(s: RunState, callId: string, arg: string, invoke: (string, string) -> string): RunState {
    s.(generated := s.generated + [RunItem(ToolCallOutput, ResultOf(callId, invoke("test", Args(arg))))],
       pending := [], pendingHandoffs := [], status := Running)
  }

  /**
   * Resuming a run whose one held call was approved: the call runs, then a final message
   * completes the run; one request, made after the output joined the history.
   */
  lemma ResumeApprovedThenFinal(config: RunConfig, s: RunState, callId: string, arg: string,
                                final: string, finalId: Option<string>, invoke: (string, string) -> string)
    requires Valid(s) && s.status.Interrupted? && s.turn < s.maxTurns && s.agent.toolUse == RunLlmAgain
    requires s.pending == [ApprovalRun(callId, arg)] && s.pendingHandoffs == []
    requires callId in s.decisions && s.decisions[callId] == Approved
    ensures var o := Run(config, s, [Ok(ModelResponse([AssistantText(final)], finalId))], invoke);
      && o.state.status == Completed(final)
      && o.requests == [BuildRequest(config, Resumed(s, callId, arg, invoke))]
  {
    var r := Resumed(s, callId, arg, invoke);
    var done := ModelResponse([AssistantText(final)], finalId);
    ConcludeRunsCall(s, ApprovalRun(callId, arg), None, invoke);
    assert Resume(s, invoke).0 == r;
    RunResumes(config, s, [Ok(done)], r, invoke);
    LoopFinal(config, r, final, finalId, invoke);
  }

  // ---------------------------------------------------------------------------
  // Scenarios
  // ---------------------------------------------------------------------------

  /**
   * With a `conversationId`, the first turn sends the user message and each later turn
   * only the previous turn's tool result; every request names the conversation.
   */
  function ConversationConfig(): RunConfig {
    RunConfig(Conversation("conv-test-123"), None)
  }

  function ConversationStart(): RunState {
    Start(InputString("user_message"), TestAgent("Test", FunctionTool("test", false)), DefaultMaxTurns)
  }

  function ConversationFirst(invoke: (string, string) -> string): RunState {
    AfterCall(ConversationStart().(turn := 1), "a_message", "call-1", "foo", "resp-1", invoke)
  }

  function ConversationSecond(invoke: (string, string) -> string): RunState {
    AfterCall(ConversationFirst(invoke).(turn := 2), "b_message", "call-2", "bar", "resp-2", invoke)
  }

  /** The scripted responses: a message and a call, another message and call, then the final message. */
  function ConversationScript(): seq<Result<ModelResponse, string>> {
    [Ok(MessageAndCall("a_message", "call-1", "foo", "resp-1"))] + ConversationRest()
  }

  function ConversationRest(): seq<Result<ModelResponse, string>> {
    [Ok(MessageAndCall("b_message", "call-2", "bar", "resp-2"))] + [Ok(ModelResponse([AssistantText("done")], Some("resp-3")))]
  }

  lemma ConversationTurns(invoke: (string, string) -> string)
    ensures var o := Loop(ConversationConfig(), ConversationStart(), ConversationScript(), invoke);
      && o.state.status == Completed("done")
      && o.requests == [BuildRequest(ConversationConfig(), ConversationStart()),
                        BuildRequest(ConversationConfig(), ConversationFirst(invoke)),
                        BuildRequest(ConversationConfig(), ConversationSecond(invoke))]
  {
    TwoCallsThenFinal(ConversationConfig(), ConversationStart(), "a_message", "call-1", "foo", "resp-1",
                      "b_message", "call-2", "bar", "resp-2", "done", Some("resp-3"), invoke);
  }

  lemma ConversationInputs(invoke: (string, string) -> string)
    ensures BuildRequest(ConversationConfig(), ConversationStart()).input == [UserInput("user_message")]
    ensures BuildRequest(ConversationConfig(), ConversationFirst(invoke)).input == [ResultOf("call-1", invoke("test", Args("foo")))]
    ensures BuildRequest(ConversationConfig(), ConversationSecond(invoke)).input == [ResultOf("call-2", invoke("test", Args("bar")))]
    ensures BuildRequest(ConversationConfig(), ConversationStart()).conversationId == Some("conv-test-123")
    ensures BuildRequest(ConversationConfig(), ConversationFirst(invoke)).conversationId == Some("conv-test-123")
    ensures BuildRequest(ConversationConfig(), ConversationSecond(invoke)).conversationId == Some("conv-test-123")
  {
    var s1 := ConversationFirst(invoke);
    var s2 := ConversationSecond(invoke);
    SendsLast(InputString("user_message"), s1.generated, s1.tracker);
    SendsLast(InputString("user_message"), s2.generated, s2.tracker);
    assert Raws([]) == [];
  }

  lemma ConversationSendsOnlyNewItems(invoke: (string, string) -> string)
    ensures var o := Run(ConversationConfig(), ConversationStart(), ConversationScript(), invoke);
      && o.state.status == Completed("done")
      && |o.requests| == 3
      && o.requests[0].input == [UserInput("user_message")]
      && o.requests[1].input == [ResultOf("call-1", invoke("test", Args("foo")))]
      && o.requests[2].input == [ResultOf("call-2", invoke("test", Args("bar")))]
      && o.requests[0].conversationId == o.requests[1].conversationId == o.requests[2].conversationId == Some("conv-test-123")
  {
    var o := Loop(ConversationConfig(), ConversationStart(), ConversationScript(), invoke);
    RunOfRunning(ConversationConfig(), ConversationStart(), ConversationScript(), invoke);
    ConversationTurns(invoke);
    ConversationInputs(invoke);
  }

  /** The two-turn runs: a message with a call, then the final message `done`. */
  function TwoTurnStart(): RunState {
    Start(InputString("user_message"), TestAgent("Test", FunctionTool("test", false)), DefaultMaxTurns)
  }

  function TwoTurnScript(): seq<Result<ModelResponse, string>> {
    [Ok(MessageAndCall("a_message", "call-1", "foo", "resp-789"))] + [Ok(ModelResponse([AssistantText("done")], Some("resp-900")))]
  }

  lemma FullHistorySecondInput(invoke: (string, string) -> string)
    ensures BuildRequest(RunConfig(FullHistory, None), AfterCall(TwoTurnStart().(turn := 1), "a_message", "call-1", "foo", "resp-789", invoke)).input
      == [UserInput("user_message"), AssistantText("a_message"), Call("call-1", "foo"), ResultOf("call-1", invoke("test", Args("foo")))]
  {
    var g := AfterCall(TwoTurnStart().(turn := 1), "a_message", "call-1", "foo", "resp-789", invoke).generated;
    RawsSplit(g[0], g[1..]);
    assert g[1..] == [g[1]] + [g[2]];
    RawsSplit(g[1], [g[2]]);
    RawsOne(g[0]);
    RawsOne(g[1]);
    RawsOne(g[2]);
    assert g == [g[0]] + g[1..];
  }

  /** Without server-managed state the second turn resends everything: the input, the message, the call and its result. */
  lemma FullHistoryResendsEverything(invoke: (string, string) -> string)
    ensures var o := Run(RunConfig(FullHistory, None), TwoTurnStart(), TwoTurnScript(), invoke);
      && o.state.status == Completed("done")
      && |o.requests| == 2
      && o.requests[1].input == [UserInput("user_message"), AssistantText("a_message"), Call("call-1", "foo"),
                                 ResultOf("call-1", invoke("test", Args("foo")))]
  {
    RunOfRunning(RunConfig(FullHistory, None), TwoTurnStart(), TwoTurnScript(), invoke);
    CallThenFinal(RunConfig(FullHistory, None), TwoTurnStart(), "a_message", "call-1", "foo", "resp-789", "done", Some("resp-900"), invoke);
    FullHistorySecondInput(invoke);
  }

  /**
   * With a `previousResponseId`, the first request continues from the given response and
   * the second from the first turn's response, sending only the call's result.
   */
  lemma PreviousResponseAcrossTurns(invoke: (string, string) -> string)
    ensures var o := Run(RunConfig(PreviousResponse(Some("initial-response-123")), None), TwoTurnStart(), TwoTurnScript(), invoke);
      && o.state.status == Completed("done")
      && |o.requests| == 2
      && o.requests[0].previousResponseId == Some("initial-response-123")
      && o.requests[1].previousResponseId == Some("resp-789")
      && o.requests[1].input == [ResultOf("call-1", invoke("test", Args("foo")))]
  {
    var config := RunConfig(PreviousResponse(Some("initial-response-123")), None);
    var s1 := AfterCall(TwoTurnStart().(turn := 1), "a_message", "call-1", "foo", "resp-789", invoke);
    RunOfRunning(config, TwoTurnStart(), TwoTurnScript(), invoke);
    CallThenFinal(config, TwoTurnStart(), "a_message", "call-1", "foo", "resp-789", "done", Some("resp-900"), invoke);
    SendsLast(InputString("user_message"), s1.generated, s1.tracker);
  }

  /**
   * A streamed run emits one run-item event per generated item, in generation order: for
   * a message with a call and then a final message, the message, the tool call, the tool
   * output, then the final message.
   */
  lemma EventsFollowGeneration(config: RunConfig, s: RunState, text: string, callId: string, arg: string, id: string,
                               final: string, finalId: Option<string>, invoke: (string, string) -> string)
    requires Valid(s) && s.status.Running? && s.generated == [] && s.turn + 1 < s.maxTurns
    requires s.agent.tools == [FunctionTool("test", false)] && s.agent.handoffs == [] && s.agent.toolUse == RunLlmAgain
    ensures var e := RunItemEvents(Run(config, s, [Ok(MessageAndCall(text, callId, arg, id))] +
                                                  [Ok(ModelResponse([AssistantText(final)], finalId))], invoke).events);
      && |e| == 4
      && e[0] == RunItemEvent("message_output_created", RunItem(MessageOutput, AssistantText(text)))
      && e[1] == RunItemEvent("tool_called", RunItem(ToolCallItem, Call(callId, arg)))
      && e[2] == RunItemEvent("tool_output", RunItem(ToolCallOutput, ResultOf(callId, invoke("test", Args(arg)))))
      && e[3] == RunItemEvent("message_output_created", RunItem(MessageOutput, AssistantText(final)))
  {
    var script := [Ok(MessageAndCall(text, callId, arg, id))] + [Ok(ModelResponse([AssistantText(final)], finalId))];
    RunOfRunning(config, s, script, invoke);
    CallThenFinal(config, s, text, callId, arg, id, final, finalId, invoke);
    var s1 := AfterCall(s.(turn := s.turn + 1), text, callId, arg, id, invoke);
    var g := [RunItem(MessageOutput, AssistantText(text)), RunItem(ToolCallItem, Call(callId, arg)),
              RunItem(ToolCallOutput, ResultOf(callId, invoke("test", Args(arg)))), RunItem(MessageOutput, AssistantText(final))];
    assert AfterFinal(s1.(turn := s1.turn + 1), final, finalId).generated == g;
    assert g[0..] == g;
    MessageCallOutputMessageEvents(g[0], g[1], g[2], g[3]);
    assert g == [g[0], g[1], g[2], g[3]];
  }

  /** The run-item event of one generated item. */
  lemma ItemEventsOne(x: RunItem)
    ensures ItemEvents([x]) == if x.kind.OtherRunItem? then [] else [RunItemEvent(EventName(x.kind), x)]
  {
    assert [x][..0] == [];
  }

  /** The run-item events of a message, a call, its output and a message, named after their kinds. */
  lemma MessageCallOutputMessageEvents(a: RunItem, b: RunItem, c: RunItem, d: RunItem)
    requires a.kind == MessageOutput && b.kind == ToolCallItem && c.kind == ToolCallOutput && d.kind == MessageOutput
    ensures ItemEvents([a, b, c, d]) == [RunItemEvent("message_output_created", a), RunItemEvent("tool_called", b),
                                         RunItemEvent("tool_output", c), RunItemEvent("message_output_created", d)]
  {
    ItemEventsOne(a);
    ItemEventsOne(b);
    ItemEventsOne(c);
    ItemEventsOne(d);
    ItemEventsAppend([a], [b]);
    ItemEventsAppend([a, b], [c]);
    ItemEventsAppend([a, b, c], [d]);
    assert [a] + [b] == [a, b] && [a, b] + [c] == [a, b, c] && [a, b, c] + [d] == [a, b, c, d];
  }

  /** A hand-off switches agents: the new agent answers, and the switch is announced with its name. */
  lemma HandoffSwitchesAgents(config: RunConfig, s: RunState, callId: string, h: Handoff,
                              final: string, finalId: Option<string>, invoke: (string, string) -> string)
    requires Valid(s) && s.status.Running? && s.turn + 1 < s.maxTurns && s.agent.handoffs == [h]
    ensures var o := Run(config, s, [Ok(HandoffCall(callId, h))] + [Ok(ModelResponse([AssistantText(final)], finalId))], invoke);
      && o.state.status == Completed(final)
      && o.state.agent == h.target
      && AgentUpdated(h.target.name) in o.events
  {
    var done := ModelResponse([AssistantText(final)], finalId);
    RunOfRunning(config, s, [Ok(HandoffCall(callId, h))] + [Ok(done)], invoke);
    HandoffTurn(s.(turn := s.turn + 1), callId, h, invoke);
    var r := TakeTurn(s.(turn := s.turn + 1), HandoffCall(callId, h), invoke);
    LoopContinues(config, s, HandoffCall(callId, h), [Ok(done)], r.0, invoke);
    LoopFinal(config, r.0, final, finalId, invoke);
  }

  /** With the turn limit at zero the run fails before any request. */
  lemma MaxTurnsZeroFails(invoke: (string, string) -> string)
    ensures var s := Start(InputString("x"), TestAgent("Max", FunctionTool("test", false)), 0);
      var o := Run(RunConfig(FullHistory, None), s, [Ok(ModelResponse([AssistantText("nope")], None))], invoke);
      && o.state.status == Failed(MaxTurnsExceeded(0))
      && o.requests == []
  {
    var s := Start(InputString("x"), TestAgent("Max", FunctionTool("test", false)), 0);
    RunOfRunning(RunConfig(FullHistory, None), s, [Ok(ModelResponse([AssistantText("nope")], None))], invoke);
  }

  /** A model that has nothing to answer fails the run with its own error, after the one request. */
  lemma ModelErrorPropagates(invoke: (string, string) -> string)
    ensures var s := Start(InputString("fail"), TestAgent("Fail", FunctionTool("test", false)), DefaultMaxTurns);
      var o := Run(RunConfig(FullHistory, None), s, [], invoke);
      && o.state.status == Failed(ModelFailed("No response found"))
      && |o.requests| == 1
  {
    var s := Start(InputString("fail"), TestAgent("Fail", FunctionTool("test", false)), DefaultMaxTurns);
    RunOfRunning(RunConfig(FullHistory, None), s, [], invoke);
  }

  /**
   * Resuming a `stop_on_first_tool` run whose held call was rejected ends the run with the
   * refusal text, without running the tool and without calling the model.
   */
  lemma RejectedCallEndsWithRefusal(invoke: (string, string) -> string)
    ensures var run := ToolRun("c1", "toolZ", "{}", map[], FunctionTool("toolZ", true));
      var agent := Agent("RejectTest", ModelName(DefaultModelPlaceholder), [], [], StopOnFirstTool);
      var s := RunState(InputString(""), agent, 0, 1, [RunItem(ToolApproval, run.Raw())], Fresh, None, [],
                        [run], [], map[], Interrupted);
      var o := Run(RunConfig(FullHistory, None), Reject(s, "c1"), [], invoke);
      && o.state.status == Completed("Tool execution was not approved.")
      && o.requests == []
      && o.state.generated == [RunItem(ToolApproval, run.Raw()),
                               RunItem(ToolCallOutput, FunctionCallResult("c1", "toolZ", TextOutput("Tool execution was not approved."), map[]))]
  {
    var run := ToolRun("c1", "toolZ", "{}", map[], FunctionTool("toolZ", true));
    var agent := Agent("RejectTest", ModelName(DefaultModelPlaceholder), [], [], StopOnFirstTool);
    var s := RunState(InputString(""), agent, 0, 1, [RunItem(ToolApproval, run.Raw())], Fresh, None, [],
                      [run], [], map[], Interrupted);
    var r := Reject(s, "c1");
    ConcludeRunsCall(r, run, None, invoke);
    assert Decide(run, r.decisions, invoke) == Done(NotApprovedMessage);
  }

  // ---------------------------------------------------------------------------
  // Approval and resume under server-managed state
  // ---------------------------------------------------------------------------

  /** The state a caller resumes: the interrupted one with `extra` items appended and the held call approved. */
  function ApprovedWith(held: RunState, extra: seq<RunItem>, callId: string): RunState {
    Approve(held.(generated := held.generated + extra), callId)
  }

  /** A first run of an MCP approval request and a held call: one request, and the run is interrupted. */
  lemma RunHoldsMcpAndCall(config: RunConfig, s: RunState, callId: string, arg: string, id: string,
                           invoke: (string, string) -> string)
    requires Valid(s) && s.status.Running? && s.turn < s.maxTurns
    requires s.agent.tools == [FunctionTool("test", true)] && s.agent.handoffs == [] && callId !in s.decisions
    ensures var o := Run(config, s, [Ok(McpAndCall(callId, arg, id))], invoke);
      && o.state == AfterMcpAndHeld(s.(turn := s.turn + 1), callId, arg, id)
      && o.requests == [BuildRequest(config, s)]
  {
    McpAndHeldCallTurn(s.(turn := s.turn + 1), callId, arg, id, invoke);
    LoopStops(config, s, McpAndCall(callId, arg, id), AfterMcpAndHeld(s.(turn := s.turn + 1), callId, arg, id), invoke);
    RunOfRunning(config, s, [Ok(McpAndCall(callId, arg, id))], invoke);
  }

  /**
   * A run interrupted on one held call, then resumed with the call approved (and `extra`
   * items appended by the caller) and answered by a final message: one request each time,
   * and the second run completes.
   */
  lemma HoldThenResume(config: RunConfig, s: RunState, callId: string, arg: string, id: string, extra: seq<RunItem>,
                       final: string, finalId: Option<string>, invoke: (string, string) -> string)
    requires Valid(s) && s.status.Running? && s.turn + 1 < s.maxTurns
    requires s.agent.tools == [FunctionTool("test", true)] && s.agent.handoffs == [] && s.agent.toolUse == RunLlmAgain
    requires callId !in s.decisions
    ensures var first := Run(config, s, [Ok(CallOnly(callId, arg, id))], invoke);
      var resumed := ApprovedWith(first.state, extra, callId);
      var second := Run(config, resumed, [Ok(ModelResponse([AssistantText(final)], finalId))], invoke);
      && first.state == AfterHeld(s.(turn := s.turn + 1), callId, arg, id)
      && first.requests == [BuildRequest(config, s)]
      && second.state.status == Completed(final)
      && second.requests == [BuildRequest(config, Resumed(resumed, callId, arg, invoke))]
  {
    RunHoldsCall(config, s, callId, arg, id, invoke);
    var held := AfterHeld(s.(turn := s.turn + 1), callId, arg, id);
    ResumeApprovedThenFinal(config, ApprovedWith(held, extra, callId), callId, arg, final, finalId, invoke);
  }

  /** As `HoldThenResume`, for a response that also carried an MCP approval request, left undecided. */
  lemma HoldMcpThenResume(config: RunConfig, s: RunState, callId: string, arg: string, id: string,
                          final: string, finalId: Option<string>, invoke: (string, string) -> string)
    requires Valid(s) && s.status.Running? && s.turn + 1 < s.maxTurns
    requires s.agent.tools == [FunctionTool("test", true)] && s.agent.handoffs == [] && s.agent.toolUse == RunLlmAgain
    requires callId !in s.decisions
    ensures var first := Run(config, s, [Ok(McpAndCall(callId, arg, id))], invoke);
      var resumed := Approve(first.state, callId);
      var second := Run(config, resumed, [Ok(ModelResponse([AssistantText(final)], finalId))], invoke);
      && first.state == AfterMcpAndHeld(s.(turn := s.turn + 1), callId, arg, id)
      && first.requests == [BuildRequest(config, s)]
      && second.state.status == Completed(final)
      && second.requests == [BuildRequest(config, Resumed(resumed, callId, arg, invoke))]
  {
    RunHoldsMcpAndCall(config, s, callId, arg, id, invoke);
    var held := AfterMcpAndHeld(s.(turn := s.turn + 1), callId, arg, id);
    ResumeApprovedThenFinal(config, Approve(held, callId), callId, arg, final, finalId, invoke);
  }

  /**
   * Under server-managed state, the request after resuming a held call sends what the
   * caller appended and the call's result, and the final message then completes the run.
   */
  lemma HoldThenResumeSends(config: RunConfig, s: RunState, callId: string, arg: string, id: string, extra: seq<RunItem>,
                            final: string, finalId: Option<string>, invoke: (string, string) -> string)
    requires Valid(s) && s.status.Running? && s.turn + 1 < s.maxTurns && !config.memory.FullHistory?
    requires s.agent.tools == [FunctionTool("test", true)] && s.agent.handoffs == [] && s.agent.toolUse == RunLlmAgain
    requires callId !in s.decisions
    ensures var first := Run(config, s, [Ok(CallOnly(callId, arg, id))], invoke);
      var second := Run(config, ApprovedWith(first.state, extra, callId), [Ok(ModelResponse([AssistantText(final)], finalId))], invoke);
      && second.state.status == Completed(final)
      && |second.requests| == 1
      && second.requests[0].input == Raws(extra) + [ResultOf(callId, invoke("test", Args(arg)))]
  {
    HoldThenResume(config, s, callId, arg, id, extra, final, finalId, invoke);
    ResumeSendsResult(config, AfterHeld(s.(turn := s.turn + 1), callId, arg, id), extra, callId, arg, invoke);
  }

  /**
   * After an approved resume a server-managed request sends what the caller appended since
   * the interruption, then the call's result: never the call, nor an approval request.
   */
  lemma ResumeSendsResult(config: RunConfig, held: RunState, extra: seq<RunItem>, callId: string, arg: string,
                          invoke: (string, string) -> string)
    requires !config.memory.FullHistory?
    requires held.tracker.inputSent && held.tracker.sent + 1 == |held.generated|
    requires held.generated[held.tracker.sent].kind.ToolApproval?
    ensures BuildRequest(config, Resumed(ApprovedWith(held, extra, callId), callId, arg, invoke)).input ==
      Raws(extra) + [ResultOf(callId, invoke("test", Args(arg)))]
  {
    var result := RunItem(ToolCallOutput, ResultOf(callId, invoke("test", Args(arg))));
    var approval := held.generated[held.tracker.sent];
    var g := Resumed(ApprovedWith(held, extra, callId), callId, arg, invoke).generated;
    assert g == held.generated + extra + [result];
    assert g[held.tracker.sent..] == [approval] + (extra + [result]);
    RawsSplit(approval, extra + [result]);
    RawsOne(approval);
    RawsAppend(extra, [result]);
    RawsOne(result);
  }

  /** The first request of a fresh run sends the input alone. */
  lemma FirstRequestSendsInput(config: RunConfig, s: RunState)
    requires Valid(s) && s.generated == [] && s.tracker == Fresh
    ensures BuildRequest(config, s).input == InputItems(s.input)
  {
    assert s.generated[0..] == [];
    assert Raws([]) == [];
  }

  function ApprovalAgent(name: string): Agent {
    TestAgent(name, FunctionTool("test", true))
  }

  /**
   * With a `conversationId`, a run interrupted for approval and resumed after approving
   * sends the user message first and then only the call's result; a third run on the
   * completed state sends nothing more.
   */
  lemma ResumeWithConversation(invoke: (string, string) -> string)
    ensures var config := RunConfig(Conversation("conv-approval"), None);
      var s := Start(InputString("user_message"), ApprovalAgent("ApprovalAgent"), DefaultMaxTurns);
      var first := Run(config, s, [Ok(CallOnly("call-approved", "foo", "resp-1"))], invoke);
      var second := Run(config, Approve(first.state, "call-approved"), [Ok(ModelResponse([AssistantText("done")], Some("resp-2")))], invoke);
      && first.state.status == Interrupted
      && second.state.status == Completed("done")
      && |first.requests| == 1 && |second.requests| == 1
      && first.requests[0].input == [UserInput("user_message")]
      && second.requests[0].input == [ResultOf("call-approved", invoke("test", Args("foo")))]
      && second.requests[0].conversationId == Some("conv-approval")
      && Run(config, second.state, [], invoke) == Outcome(second.state, [], [])
  {
    var config := RunConfig(Conversation("conv-approval"), None);
    var s := Start(InputString("user_message"), ApprovalAgent("ApprovalAgent"), DefaultMaxTurns);
    var held := AfterHeld(s.(turn := 1), "call-approved", "foo", "resp-1");
    HoldThenResume(config, s, "call-approved", "foo", "resp-1", [], "done", Some("resp-2"), invoke);
    assert held.(generated := held.generated + []) == held;
    FirstRequestSendsInput(config, s);
    ResumeSendsResult(config, held, [], "call-approved", "foo", invoke);
    assert Raws([]) == [];
  }

  /**
   * With a `previousResponseId`, the first request continues from the given response and
   * the resumed one from the interrupted turn's response, sending only the call's result.
   */
  lemma ResumeWithPreviousResponse(invoke: (string, string) -> string)
    ensures var config := RunConfig(PreviousResponse(Some("initial-response")), None);
      var s := Start(InputString("user_message"), ApprovalAgent("ApprovalPrevAgent"), DefaultMaxTurns);
      var first := Run(config, s, [Ok(CallOnly("call-prev", "foo", "resp-prev-1"))], invoke);
      var second := Run(config, Approve(first.state, "call-prev"), [Ok(ModelResponse([AssistantText("done")], Some("resp-prev-2")))], invoke);
      && second.state.status == Completed("done")
      && |first.requests| == 1 && |second.requests| == 1
      && first.requests[0].previousResponseId == Some("initial-response")
      && second.requests[0].previousResponseId == Some("resp-prev-1")
      && second.requests[0].input == [ResultOf("call-prev", invoke("test", Args("foo")))]
  {
    var config := RunConfig(PreviousResponse(Some("initial-response")), None);
    var s := Start(InputString("user_message"), ApprovalAgent("ApprovalPrevAgent"), DefaultMaxTurns);
    var held := AfterHeld(s.(turn := 1), "call-prev", "foo", "resp-prev-1");
    HoldThenResume(config, s, "call-prev", "foo", "resp-prev-1", [], "done", Some("resp-prev-2"), invoke);
    assert held.(generated := held.generated + []) == held;
    ResumeSendsResult(config, held, [], "call-prev", "foo", invoke);
    assert Raws([]) == [];
  }

  /** A message the caller appended to an interrupted state is sent on resume, before the call's result. */
  lemma ResumeSendsAppendedItems(invoke: (string, string) -> string)
    ensures var config := RunConfig(Conversation("conv-extra"), None);
      var s := Start(InputString("user_message"), ApprovalAgent("ExtraAgent"), DefaultMaxTurns);
      var first := Run(config, s, [Ok(CallOnly("call-extra", "foo", "resp-extra-1"))], invoke);
      var note := RunItem(MessageOutput, AssistantText("cached note"));
      var second := Run(config, ApprovedWith(first.state, [note], "call-extra"), [Ok(ModelResponse([AssistantText("done")], Some("resp-extra-2")))], invoke);
      && second.state.status == Completed("done")
      && |second.requests| == 1
      && second.requests[0].input == [AssistantText("cached note"), ResultOf("call-extra", invoke("test", Args("foo")))]
  {
    var config := RunConfig(Conversation("conv-extra"), None);
    var s := Start(InputString("user_message"), ApprovalAgent("ExtraAgent"), DefaultMaxTurns);
    var note := RunItem(MessageOutput, AssistantText("cached note"));
    HoldThenResumeSends(config, s, "call-extra", "foo", "resp-extra-1", [note], "done", Some("resp-extra-2"), invoke);
    RawsOne(note);
  }

  /**
   * A response with an MCP approval request and a held call: approving only the call and
   * resuming sends only the call's result, and the run completes.
   */
  lemma ResumeWithMixedApprovals(invoke: (string, string) -> string)
    ensures var config := RunConfig(Conversation("conv-mixed"), None);
      var s := Start(InputString("user_message"), ApprovalAgent("MixedAgent"), DefaultMaxTurns);
      var first := Run(config, s, [Ok(McpAndCall("call-mixed", "foo", "resp-mixed-1"))], invoke);
      var second := Run(config, Approve(first.state, "call-mixed"), [Ok(ModelResponse([AssistantText("still waiting")], Some("resp-mixed-2")))], invoke);
      && first.state.status == Interrupted
      && RunItem(ToolApproval, McpRequest) in first.state.generated
      && RunItem(ToolApproval, Call("call-mixed", "foo")) in first.state.generated
      && second.state.status == Completed("still waiting")
      && |second.requests| == 1
      && second.requests[0].input == [ResultOf("call-mixed", invoke("test", Args("foo")))]
  {
    var config := RunConfig(Conversation("conv-mixed"), None);
    var s := Start(InputString("user_message"), ApprovalAgent("MixedAgent"), DefaultMaxTurns);
    var held := AfterMcpAndHeld(s.(turn := 1), "call-mixed", "foo", "resp-mixed-1");
    HoldMcpThenResume(config, s, "call-mixed", "foo", "resp-mixed-1", "still waiting", Some("resp-mixed-2"), invoke);
    assert held.(generated := held.generated + []) == held;
    assert held.generated[1] == RunItem(ToolApproval, McpRequest);
    assert held.generated[3] == RunItem(ToolApproval, Call("call-mixed", "foo"));
    ResumeSendsResult(config, held, [], "call-mixed", "foo", invoke);
    assert Raws([]) == [];
  }
}

=== FILE: turn_input.dfy ===
/**
 * What the runner hands the model on each turn: `getTurnInput`, `selectModel`, and the
 * part of the history a server-managed conversation still has to be sent.
 *
 * A run keeps its original input and the items it has generated so far. Without
 * server-managed state, every turn resends all of it. With a `conversationId` or a
 * `previousResponseId` the backend already holds everything it has seen, so a turn sends
 * only what came after; the runner tracks that with a watermark over the generated items.
 */
module TurnInput {
  import opened Wrappers
  import opened Items

  /** What a run is started with: a plain string or a list of items. */
  datatype RunInput = InputString(text: string) | InputList(items: seq<Item>)

  /** The user message a string input becomes. */
  function UserInput(text: string): Item {
    UserMessage(UserString(text), map[])
  }

  /** The original input as a list of items. */
  function InputItems(input: RunInput): seq<Item> {
    match input
    case InputString(text) => [UserInput(text)]
    case InputList(items) => items
  }

  /** The kinds of item a run generates (`message_output_item`, `tool_call_item`, ...). */
  datatype RunItemKind =
    | MessageOutput
    | ToolCallItem
    | ToolCallOutput
    | HandoffCallItem
    | HandoffOutputItem
    | ReasoningItem
    | ToolApproval
    /** An output item of a kind the runner keeps in the history but does not act on. */
    | OtherRunItem

  /** A generated item: its kind and the protocol item it wraps. */
  datatype RunItem = RunItem(kind: RunItemKind, raw: Item)

  /**
   * The raw items of the generated items a model is shown, in order. Approval requests
   * are left out: an approval wraps the very call it asks about, which is already in the
   * history as a tool call item.
   */
  function Raws(items: seq<RunItem>): seq<Item>
  {
    if |items| == 0 then []
    else
      var last := items[|items| - 1];
      Raws(items[..|items| - 1]) + (if last.kind.ToolApproval? then [] else [last.raw])
  }

  /** `getTurnInput`: the original input as items, then the generated items' raw items. */
  function GetTurnInput(input: RunInput, generated: seq<RunItem>): (r: seq<Item>)
    ensures input.InputString? ==> |r| >= 1 && r[0] == UserInput(input.text) && r[1..] == Raws(generated)
    ensures input.InputList? ==> |r| >= |input.items| && r[..|input.items|] == input.items && r[|input.items|..] == Raws(generated)
  {
    var items := InputItems(input);
    assert (items + Raws(generated))[..|items|] == items;
    items + Raws(generated)
  }

  /** Raw items of a history split in two are the raw items of each part. */
  lemma {:induction false} RawsAppend(a: seq<RunItem>, b: seq<RunItem>)
    ensures Raws(a + b) == Raws(a) + Raws(b)
    decreases |b|
  {
    if |b| == 0 {
      assert a + b == a;
    } else {
      assert (a + b)[..|a + b| - 1] == a + b[..|b| - 1];
      RawsAppend(a, b[..|b| - 1]);
    }
  }

  /** Without approval requests every generated item is shown, each at its own position. */
  lemma {:induction false} RawsWithoutApprovals(items: seq<RunItem>)
    requires forall i :: 0 <= i < |items| ==> !items[i].kind.ToolApproval?
    ensures |Raws(items)| == |items|
    ensures forall i :: 0 <= i < |items| ==> Raws(items)[i] == items[i].raw
    decreases |items|
  {
    if |items| > 0 {
      RawsWithoutApprovals(items[..|items| - 1]);
    }
  }

  /** Approval requests alone add nothing to what a model is shown. */
  lemma {:induction false} RawsOfApprovals(items: seq<RunItem>)
    requires forall i :: 0 <= i < |items| ==> items[i].kind.ToolApproval?
    ensures Raws(items) == []
    decreases |items|
  {
    if |items| > 0 {
      RawsOfApprovals(items[..|items| - 1]);
    }
  }

  /** The history grows by exactly the raw items of what was generated since. */
  lemma TurnInputGrows(input: RunInput, before: seq<RunItem>, since: seq<RunItem>)
    ensures GetTurnInput(input, before + since) == GetTurnInput(input, before) + Raws(since)
  {
    RawsAppend(before, since);
  }

  // ---------------------------------------------------------------------------
  // selectModel
  // ---------------------------------------------------------------------------

  /** An agent's or a run's model: a model name, or a model instance (told apart by an id). */
  datatype ModelRef = ModelName(name: string) | ModelInstance(id: nat)

  /** `Agent.DEFAULT_MODEL_PLACEHOLDER`, the model of an agent created without one. */
  const DefaultModelPlaceholder: string := ""

  /** `selectModel`: the agent's own model unless it is the placeholder; then the run's, if any. */
  function SelectModel(agentModel: ModelRef, runModel: Option<ModelRef>): (r: ModelRef)
    ensures r == agentModel || (runModel.Some? && r == runModel.value)
    ensures agentModel != ModelName(DefaultModelPlaceholder) ==> r == agentModel
    ensures runModel.None? ==> r == agentModel
  {
    if agentModel != ModelName(DefaultModelPlaceholder) then agentModel
    else runModel.GetOr(agentModel)
  }

  /** The run's model matters exactly when the agent has none of its own. */
  lemma RunModelUsedOnlyForPlaceholder(agentModel: ModelRef, runModel: ModelRef)
    requires runModel != agentModel
    ensures SelectModel(agentModel, Some(runModel)) == runModel <==> agentModel == ModelName(DefaultModelPlaceholder)
  {
  }

  /** Selecting again with the same run model changes nothing. */
  lemma SelectModelIdempotent(agentModel: ModelRef, runModel: Option<ModelRef>)
    ensures SelectModel(SelectModel(agentModel, runModel), runModel) == SelectModel(agentModel, runModel)
  {
  }

  // ---------------------------------------------------------------------------
  // Server-managed conversation state
  // ---------------------------------------------------------------------------

  /** How the conversation's history is kept: by the client, or by the backend under an id. */
  datatype Memory =
    | FullHistory
    | Conversation(conversationId: string)
    | PreviousResponse(previousResponseId: Option<string>)

  /**
   * What the backend already holds: whether the original input went out, and how many
   * generated items it has seen, sent as input or returned as a response's output.
   */
  datatype Tracker = Tracker(inputSent: bool, sent: nat)

  /** A fresh run: nothing sent yet. */
  const Fresh: Tracker := Tracker(false, 0)

  /** The input a server-managed turn sends: what the backend has not seen yet. */
  function ServerInput(input: RunInput, generated: seq<RunItem>, t: Tracker): seq<Item>
    requires t.sent <= |generated|
  {
    (if t.inputSent then [] else InputItems(input)) + Raws(generated[t.sent..])
  }

  /** The tracker once the backend has seen every item generated so far. */
  function Advance(generated: seq<RunItem>): (t: Tracker)
    ensures t.inputSent && t.sent == |generated|
  {
    Tracker(true, |generated|)
  }

  /** The input of a turn under the given memory. */
  function TurnInputFor(memory: Memory, input: RunInput, generated: seq<RunItem>, t: Tracker): seq<Item>
    requires t.sent <= |generated|
  {
    if memory.FullHistory? then GetTurnInput(input, generated) else ServerInput(input, generated, t)
  }

  /** On a fresh run a server-managed turn sends the whole history, as a client-kept one does. */
  lemma FirstServerTurnIsFullHistory(input: RunInput, generated: seq<RunItem>)
    ensures ServerInput(input, generated, Fresh) == GetTurnInput(input, generated)
  {
    assert generated[0..] == generated;
  }

  /**
   * Nothing is lost and nothing is repeated: the full history is what the backend
   * already holds followed by what this turn sends.
   */
  lemma FullHistoryIsHeldPlusSent(input: RunInput, generated: seq<RunItem>, t: Tracker)
    requires t.inputSent && t.sent <= |generated|
    ensures GetTurnInput(input, generated) == GetTurnInput(input, generated[..t.sent]) + ServerInput(input, generated, t)
  {
    assert generated == generated[..t.sent] + generated[t.sent..];
    TurnInputGrows(input, generated[..t.sent], generated[t.sent..]);
  }

  /** Once the backend holds `held`, a turn sends exactly the raw items generated after it. */
  lemma SendsOnlyNewItems(input: RunInput, held: seq<RunItem>, since: seq<RunItem>)
    ensures ServerInput(input, held + since, Advance(held)) == Raws(since)
  {
    assert (held + since)[|held|..] == since;
  }

  /** A turn with nothing new since the backend last saw the history sends nothing. */
  lemma NothingNewSendsNothing(input: RunInput, generated: seq<RunItem>)
    ensures ServerInput(input, generated, Advance(generated)) == []
  {
    assert generated[|generated|..] == [];
  }
}

=== FILE: turns.dfy ===
/**
 * A run's resumable state and one turn of the runner: what the next request carries,
 * how a response is recorded and its calls concluded, and how an interrupted turn is
 * resumed once its approvals are decided.
 */
module Turns {
  import opened Wrappers
  import opened Items
  import opened TurnInput
  import opened RunEvents
  import opened Runner

  datatype Status = Running | Interrupted | Completed(output: string) | Failed(error: RunError)

  datatype ModelResponse = ModelResponse(output: seq<Item>, responseId: Option<string>)

  /** The parts of a model request the runner decides. */
  datatype ModelRequest = ModelRequest(model: ModelRef, input: seq<Item>,
                                       conversationId: Option<string>, previousResponseId: Option<string>)

  /** A run's options: how history is kept, and the run-level model. */
  datatype RunConfig = RunConfig(memory: Memory, model: Option<ModelRef>)

  /**
   * The resumable state of a run. `tracker` is the watermark of what a server-managed
   * backend holds; `pending` and `pendingHandoffs` are the interrupted turn's work.
   */
  datatype RunState = RunState(
    input: RunInput, agent: Agent, turn: nat, maxTurns: nat,
    generated: seq<RunItem>, tracker: Tracker, lastResponseId: Option<string>,
    modelResponses: seq<ModelResponse>,
    pending: seq<ToolRun>, pendingHandoffs: seq<HandoffRun>,
    decisions: map<string, Decision>, status: Status)

  /** The watermark never passes the end of the history. */
  predicate Valid(s: RunState) {
    s.tracker.sent <= |s.generated|
  }

  /** A new run of `agent` on `input`. */
  function Start(input: RunInput, agent: Agent, maxTurns: nat): (s: RunState)
    ensures Valid(s) && s.status.Running? && s.generated == [] && s.turn == 0
  {
    RunState(input, agent, 0, maxTurns, [], Fresh, None, [], [], [], map[], Running)
  }

  /** `state.approve(item)`. */
  function Approve(s: RunState, callId: string): (r: RunState)
    ensures r.decisions == s.decisions[callId := Approved] && r.(decisions := s.decisions) == s
  {
    s.(decisions := s.decisions[callId := Approved])
  }

  /** `state.reject(item)`. */
  function Reject(s: RunState, callId: string): (r: RunState)
    ensures r.decisions == s.decisions[callId := Rejected] && r.(decisions := s.decisions) == s
  {
    s.(decisions := s.decisions[callId := Rejected])
  }

  // ---------------------------------------------------------------------------
  // One turn
  // ---------------------------------------------------------------------------

  /** The text of a hand-off's tool output: the new agent's name as JSON. */
  function TransferMessage(target: Agent): string {
    "{\"assistant\":\"" + target.name + "\"}"
  }

  /** What a turn leads to. */
  datatype Step = RunAgain | Interruption | HandoffTo(run: HandoffRun) | FinalOutput(output: string)

  predicate HasHeld(outcomes: seq<CallOutcome>) {
    exists i :: 0 <= i < |outcomes| && outcomes[i].Held?
  }

  /**
   * The next step, in the order the runner checks: a held call or an MCP approval
   * interrupts; else the first hand-off switches agents; else under `stop_on_first_tool`
   * the first tool output ends the run; else any tool call runs the model again; else
   * the last assistant message's text ends the run, and without one the model runs again.
   */
  function NextStep(agent: Agent, outcomes: seq<CallOutcome>, hostedApprovals: nat,
                    handoffs: seq<HandoffRun>, message: Option<string>): (step: Step)
    ensures step.Interruption? <==> hostedApprovals > 0 || HasHeld(outcomes)
    ensures step.HandoffTo? ==> |handoffs| > 0 && step.run == handoffs[0]
    ensures step.FinalOutput? && |outcomes| > 0 ==>
      agent.toolUse == StopOnFirstTool && outcomes[0].Done? && step.output == outcomes[0].text
    ensures step.FinalOutput? && |outcomes| == 0 ==> message == Some(step.output)
  {
    if hostedApprovals > 0 || HasHeld(outcomes) then Interruption
    else if |handoffs| > 0 then HandoffTo(handoffs[0])
    else if agent.toolUse == StopOnFirstTool && |outcomes| > 0 then FinalOutput(outcomes[0].text)
    else if |outcomes| > 0 then RunAgain
    else if message.Some? then FinalOutput(message.value)
    else RunAgain
  }

  /**
   * A transition from a history `before` to the state `after` emitted `events`: the
   * history only grew, the run-item events are those of the items it grew by, in order,
   * and there is one `agent_end`, the last event and carrying the final output, exactly
   * when the run completed.
   */
  predicate Emits(before: seq<RunItem>, after: RunState, events: seq<RunEvent>) {
    && |before| <= |after.generated|
    && after.generated[..|before|] == before
    && RunItemEvents(events) == ItemEvents(after.generated[|before|..])
    && AgentEnds(events) == (if after.status.Completed? then 1 else 0)
    && (after.status.Completed? ==> |events| > 0 && events[|events| - 1] == AgentEnd(after.agent.name, after.status.output))
  }

  /** Two transitions in a row, the first of which did not complete the run, emit their joined events. */
  lemma EmitsChain(before: seq<RunItem>, mid: RunState, after: RunState, e1: seq<RunEvent>, e2: seq<RunEvent>)
    requires Emits(before, mid, e1) && Emits(mid.generated, after, e2) && !mid.status.Completed?
    ensures Emits(before, after, e1 + e2)
  {
    assert after.generated[..|before|] == after.generated[..|mid.generated|][..|before|];
    EventsChain(before, mid.generated, after.generated, e1, e2);
  }

  /**
   * The end of a turn, after the response's own items are in the history: the calls'
   * results are appended in call order, then the next step is taken.
   */
  function Conclude(s: RunState, runs: seq<ToolRun>, handoffs: seq<HandoffRun>, hostedApprovals: nat,
                    message: Option<string>, invoke: (string, string) -> string): (r: (RunState, seq<RunEvent>))
    requires Valid(s)
    ensures Valid(r.0) && r.0.turn == s.turn && r.0.maxTurns == s.maxTurns && !r.0.status.Failed?
    ensures r.0.input == s.input && r.0.tracker == s.tracker && r.0.modelResponses == s.modelResponses
    ensures r.0.lastResponseId == s.lastResponseId
    ensures Emits(s.generated, r.0, r.1)
  {
    var step := NextStep(s.agent, Outcomes(runs, s.decisions, invoke), hostedApprovals, handoffs, message);
    TakeStep(s, Results(runs, s.decisions, invoke), step, HeldRuns(runs, s.decisions), handoffs)
  }

  /** The tool output a hand-off is answered with. */
  function HandoffOutput(h: HandoffRun): RunItem {
    RunItem(HandoffOutputItem,
            FunctionCallResult(h.callId, h.handoff.toolName, TextOutput(TransferMessage(h.handoff.target)), map[]))
  }

  /**
   * Taking the next step once the calls' results are known: an interruption keeps the
   * held calls and the hand-offs for the resume; a hand-off answers its call and switches
   * agents; a final output completes the run.
   */
  function TakeStep(s: RunState, results: seq<RunItem>, step: Step, held: seq<ToolRun>, handoffs: seq<HandoffRun>)
    : (r: (RunState, seq<RunEvent>))
    requires Valid(s)
    ensures Valid(r.0) && r.0.turn == s.turn && r.0.maxTurns == s.maxTurns && !r.0.status.Failed?
    ensures r.0.input == s.input && r.0.tracker == s.tracker && r.0.modelResponses == s.modelResponses
    ensures r.0.lastResponseId == s.lastResponseId
    ensures Emits(s.generated, r.0, r.1)
  {
    var g := s.generated + results;
    assert g[..|s.generated|] == s.generated;
    assert g[|s.generated|..] == results;
    ItemEventsAreRunItemEvents(results);
    match step
    case Interruption =>
      (s.(generated := g, pending := held, pendingHandoffs := handoffs, status := Interrupted), ItemEvents(results))
    case HandoffTo(h) =>
      var out := HandoffOutput(h);
      assert (g + [out])[..|s.generated|] == s.generated;
      assert (g + [out])[|s.generated|..] == results + [out];
      ItemEventsThen(results + [out], AgentUpdated(h.handoff.target.name));
      (s.(generated := g + [out], agent := h.handoff.target, pending := [], pendingHandoffs := [], status := Running),
       ItemEvents(results + [out]) + [AgentUpdated(h.handoff.target.name)])
    case FinalOutput(output) =>
      ItemEventsThen(results, AgentEnd(s.agent.name, output));
      (s.(generated := g, pending := [], pendingHandoffs := [], status := Completed(output)),
       ItemEvents(results) + [AgentEnd(s.agent.name, output)])
    case RunAgain =>
      (s.(generated := g, pending := [], pendingHandoffs := [], status := Running), ItemEvents(results))
  }

  /**
   * A turn after its request went out: the response is recorded, its items join the
   * history and the backend now holds all of it, then its calls run.
   */
  function TakeTurn(s: RunState, response: ModelResponse, invoke: (string, string) -> string): (r: (RunState, seq<RunEvent>))
    requires Valid(s)
    ensures Valid(r.0) && r.0.turn == s.turn && r.0.maxTurns == s.maxTurns && r.0.input == s.input
    ensures r.0.modelResponses == s.modelResponses + [response]
    ensures r.0.lastResponseId == (if response.responseId.Some? then response.responseId else s.lastResponseId)
    ensures r.0.status.Failed? ==> r.0.status.error.ToolNotFound?
    ensures Emits(s.generated, r.0, r.1)
  {
    var recorded := s.(modelResponses := s.modelResponses + [response],
                       lastResponseId := if response.responseId.Some? then response.responseId else s.lastResponseId);
    match ProcessResponse(s.agent, response.output)
    case Err(e) =>
      assert s.generated[..|s.generated|] == s.generated;
      assert s.generated[|s.generated|..] == [];
      ProcessResponseAccepts(s.agent, response.output);
      (recorded.(status := Failed(e)), [])
    case Ok(p) =>
      var g := s.generated + p.items;
      var st := recorded.(generated := g, tracker := Advance(g));
      var message := LastMessageText(response.output);
      var r := Conclude(st, p.runs, p.handoffs, p.hostedApprovals, message, invoke);
      assert g[..|s.generated|] == s.generated;
      assert r.0.generated[..|s.generated|] == g[..|s.generated|];
      assert g[|s.generated|..] == p.items;
      ItemEventsAreRunItemEvents(p.items);
      EventsChain(s.generated, g, r.0.generated, ItemEvents(p.items), r.1);
      AgentEndsAppend(ItemEvents(p.items), r.1);
      (r.0, ItemEvents(p.items) + r.1)
  }

  /**
   * Resuming an interrupted turn: the held calls are decided again (approved ones run,
   * rejected ones get the refusal text), then the turn's hand-offs are taken. An MCP
   * approval left undecided no longer holds the run.
   */
  function Resume(s: RunState, invoke: (string, string) -> string): (r: (RunState, seq<RunEvent>))
    requires Valid(s)
    ensures Valid(r.0) && r.0.turn == s.turn && r.0.maxTurns == s.maxTurns && r.0.input == s.input
    ensures r.0.modelResponses == s.modelResponses && r.0.tracker == s.tracker
    ensures r.0.lastResponseId == s.lastResponseId
    ensures Emits(s.generated, r.0, r.1)
  {
    Conclude(s, s.pending, s.pendingHandoffs, 0, None, invoke)
  }

  /** The request of the next turn. */
  function BuildRequest(config: RunConfig, s: RunState): ModelRequest
    requires Valid(s)
  {
    ModelRequest(
      SelectModel(s.agent.model, config.model),
      TurnInputFor(config.memory, s.input, s.generated, s.tracker),
      if config.memory.Conversation? then Some(config.memory.conversationId) else None,
      if config.memory.PreviousResponse? then
        (if s.lastResponseId.Some? then s.lastResponseId else config.memory.previousResponseId)
      else None)
  }

  // ---------------------------------------------------------------------------
  // Tool calls come before their outputs
  // ---------------------------------------------------------------------------

  /** `x` is the tool call item of the call `callId`. */
  predicate CallItemFor(x: RunItem, callId: string) {
    x.kind.ToolCallItem? && x.raw.FunctionCall? && x.raw.callId == callId
  }

  /** Every function tool output in the history comes after the call it answers. */
  predicate CallsPrecedeOutputs(g: seq<RunItem>) {
    forall j :: 0 <= j < |g| && g[j].kind.ToolCallOutput? ==>
      g[j].raw.FunctionCallResult? && exists i :: 0 <= i < j && CallItemFor(g[i], g[j].raw.callId)
  }

  /** A run's history is well formed, and every call it holds for approval is in it. */
  predicate Coherent(s: RunState) {
    && Valid(s)
    && CallsPrecedeOutputs(s.generated)
    && (forall r :: r in s.pending ==> RunItem(ToolCallItem, r.Raw()) in s.generated)
  }

  /** Appending items that are not tool outputs keeps the history well formed. */
  lemma AppendWithoutOutputs(g: seq<RunItem>, items: seq<RunItem>)
    requires CallsPrecedeOutputs(g)
    requires forall i :: 0 <= i < |items| ==> !items[i].kind.ToolCallOutput?
    ensures CallsPrecedeOutputs(g + items)
  {
    var h := g + items;
    forall j | 0 <= j < |h| && h[j].kind.ToolCallOutput?
      ensures h[j].raw.FunctionCallResult? && exists i :: 0 <= i < j && CallItemFor(h[i], h[j].raw.callId)
    {
      if j < |g| {
        assert h[j] == g[j];
        var i :| 0 <= i < j && CallItemFor(g[i], g[j].raw.callId);
        assert h[i] == g[i];
      } else {
        assert false;
      }
    }
  }

  /** Appending the results of calls already in the history keeps it well formed. */
  lemma AppendResults(g: seq<RunItem>, runs: seq<ToolRun>, decisions: map<string, Decision>,
                      invoke: (string, string) -> string)
    requires CallsPrecedeOutputs(g)
    requires forall r :: r in runs ==> RunItem(ToolCallItem, r.Raw()) in g
    ensures CallsPrecedeOutputs(g + Results(runs, decisions, invoke))
  {
    var results := Results(runs, decisions, invoke);
    var h := g + results;
    forall j | 0 <= j < |h| && h[j].kind.ToolCallOutput?
      ensures h[j].raw.FunctionCallResult? && exists i :: 0 <= i < j && CallItemFor(h[i], h[j].raw.callId)
    {
      if j < |g| {
        assert h[j] == g[j];
        var i :| 0 <= i < j && CallItemFor(g[i], g[j].raw.callId);
        assert h[i] == g[i];
      } else {
        var k := j - |g|;
        assert h[j] == results[k];
        var run := runs[k];
        assert run in runs;
        var i :| 0 <= i < |g| && g[i] == RunItem(ToolCallItem, run.Raw());
        assert h[i] == g[i];
        assert CallItemFor(h[i], h[j].raw.callId);
      }
    }
  }

  lemma ConcludeKeepsCoherent(s: RunState, runs: seq<ToolRun>, handoffs: seq<HandoffRun>, hostedApprovals: nat,
                              message: Option<string>, invoke: (string, string) -> string)
    requires Coherent(s)
    requires forall r :: r in runs ==> RunItem(ToolCallItem, r.Raw()) in s.generated
    ensures Coherent(Conclude(s, runs, handoffs, hostedApprovals, message, invoke).0)
  {
    var outcomes := Outcomes(runs, s.decisions, invoke);
    var results := Results(runs, s.decisions, invoke);
    var g := s.generated + results;
    var r := Conclude(s, runs, handoffs, hostedApprovals, message, invoke);
    AppendResults(s.generated, runs, s.decisions, invoke);
    match NextStep(s.agent, outcomes, hostedApprovals, handoffs, message)
    case Interruption =>
      HeldRunsExactly(runs, s.decisions);
      forall x | x in r.0.pending
        ensures RunItem(ToolCallItem, x.Raw()) in r.0.generated
      {
        assert x in runs;
        var i :| 0 <= i < |s.generated| && s.generated[i] == RunItem(ToolCallItem, x.Raw());
        assert g[i] == s.generated[i];
      }
    case HandoffTo(h) =>
      AppendWithoutOutputs(g, [HandoffOutput(h)]);
    case FinalOutput(output) =>
    case RunAgain =>
  }

  /** A turn keeps a well-formed history well formed, when nothing was held before it. */
  lemma TakeTurnKeepsCoherent(s: RunState, response: ModelResponse, invoke: (string, string) -> string)
    requires Valid(s)
    ensures Coherent(s) && s.pending == [] ==> Coherent(TakeTurn(s, response, invoke).0)
  {
    if Coherent(s) && s.pending == [] {
      match ProcessResponse(s.agent, response.output)
      case Err(e) =>
      case Ok(p) => ProcessedTurnKeepsCoherent(s, response, invoke, p);
    }
  }

  /** The case of `TakeTurnKeepsCoherent` where the response was understood. */
  lemma ProcessedTurnKeepsCoherent(s: RunState, response: ModelResponse, invoke: (string, string) -> string, p: Processed)
    requires Valid(s) && Coherent(s) && s.pending == []
    requires ProcessResponse(s.agent, response.output) == Ok(p)
    ensures Coherent(TakeTurn(s, response, invoke).0)
  {
    var recorded := s.(modelResponses := s.modelResponses + [response],
                       lastResponseId := if response.responseId.Some? then response.responseId else s.lastResponseId);
    var g := s.generated + p.items;
    var st := recorded.(generated := g, tracker := Advance(g));
    ProcessResponseRecordsOutput(s.agent, response.output);
    AppendWithoutOutputs(s.generated, p.items);
    forall x | x in p.runs
      ensures RunItemToolCall(x) in g
    {
      var i :| 0 <= i < |p.items| && p.items[i] == RunItemToolCall(x);
      assert g[|s.generated| + i] == p.items[i];
    }
    ConcludeKeepsCoherent(st, p.runs, p.handoffs, p.hostedApprovals, LastMessageText(response.output), invoke);
  }

  /** Resuming keeps a well-formed history well formed, and leaves nothing held if it runs on. */
  lemma ResumeKeepsCoherent(s: RunState, invoke: (string, string) -> string)
    requires Valid(s)
    ensures Coherent(s) ==> Coherent(Resume(s, invoke).0)
    ensures Settled(Resume(s, invoke).0)
  {
    if Coherent(s) {
      ConcludeKeepsCoherent(s, s.pending, s.pendingHandoffs, 0, None, invoke);
    }
    ConcludeSettles(s, s.pending, s.pendingHandoffs, 0, None, invoke);
  }

  /** The tool call item of a run, as the history records it. */
  function RunItemToolCall(r: ToolRun): RunItem {
    RunItem(ToolCallItem, r.Raw())
  }

  /** A running state holds nothing for approval; only an interruption does. */
  predicate Settled(s: RunState) {
    s.status.Running? ==> s.pending == []
  }

  lemma ConcludeSettles(s: RunState, runs: seq<ToolRun>, handoffs: seq<HandoffRun>, hostedApprovals: nat,
                        message: Option<string>, invoke: (string, string) -> string)
    requires Valid(s)
    ensures Settled(Conclude(s, runs, handoffs, hostedApprovals, message, invoke).0)
  {
  }

  lemma TakeTurnSettles(s: RunState, response: ModelResponse, invoke: (string, string) -> string)
    requires Valid(s)
    ensures Settled(TakeTurn(s, response, invoke).0)
  {
    var recorded := s.(modelResponses := s.modelResponses + [response],
                       lastResponseId := if response.responseId.Some? then response.responseId else s.lastResponseId);
    match ProcessResponse(s.agent, response.output)
    case Err(e) =>
    case Ok(p) =>
      var g := s.generated + p.items;
      ConcludeSettles(recorded.(generated := g, tracker := Advance(g)), p.runs, p.handoffs, p.hostedApprovals,
                      LastMessageText(response.output), invoke);
  }

  // ---------------------------------------------------------------------------
  // What a server-managed turn sends
  // ---------------------------------------------------------------------------

  /**
   * After a response, the backend holds the history up to and including the response's
   * items; the next server-managed request sends only what was added after them: the
   * calls' results and a hand-off's output.
   */
  lemma TurnAfterResponseSendsOnlyResults(config: RunConfig, s: RunState, response: ModelResponse,
                                          invoke: (string, string) -> string)
    requires Valid(s) && !config.memory.FullHistory?
    requires ProcessResponse(s.agent, response.output).Ok?
    ensures var held := s.generated + ProcessResponse(s.agent, response.output).value.items;
      var r := TakeTurn(s, response, invoke).0;
      && |held| <= |r.generated| && r.generated[..|held|] == held
      && BuildRequest(config, r).input == Raws(r.generated[|held|..])
  {
    var p := ProcessResponse(s.agent, response.output).value;
    var held := s.generated + p.items;
    var r := TakeTurn(s, response, invoke).0;
    assert r.tracker == Advance(held);
    assert r.generated == held + r.generated[|held|..];
    SendsOnlyNewItems(r.input, held, r.generated[|held|..]);
  }

  /** Without server-managed state every request carries the whole history. */
  lemma FullHistoryRequest(config: RunConfig, s: RunState)
    requires Valid(s) && config.memory.FullHistory?
    ensures BuildRequest(config, s).input == InputItems(s.input) + Raws(s.generated)
    ensures BuildRequest(config, s).conversationId.None? && BuildRequest(config, s).previousResponseId.None?
  {
  }

  /**
   * A turn under `previousResponseId` moves the chain on: the next request names the
   * response the turn got when the backend gave it an id, and otherwise the same
   * response as the turn's own request.
   */
  lemma TurnChainsResponseId(config: RunConfig, s: RunState, response: ModelResponse,
                             invoke: (string, string) -> string)
    requires Valid(s) && config.memory.PreviousResponse?
    ensures response.responseId.Some? ==>
      BuildRequest(config, TakeTurn(s, response, invoke).0).previousResponseId == response.responseId
    ensures response.responseId.None? ==>
      BuildRequest(config, TakeTurn(s, response, invoke).0).previousResponseId == BuildRequest(config, s).previousResponseId
  {
  }

  /**
   * Resuming an interrupted turn does not move the chain: the resumed request names the
   * same response as the interrupted turn's next request would have.
   */
  lemma ResumeKeepsResponseId(config: RunConfig, s: RunState, invoke: (string, string) -> string)
    requires Valid(s)
    ensures BuildRequest(config, Resume(s, invoke).0).previousResponseId == BuildRequest(config, s).previousResponseId
  {
  }

  // ---------------------------------------------------------------------------
  // What deciding the calls leaves in the history
  // ---------------------------------------------------------------------------

  /** A history that starts with `a + b` holds `b` right after `a`. */
  lemma AppendedAt<T>(a: seq<T>, b: seq<T>, c: seq<T>)
    requires |a| + |b| <= |c| && c[..|a| + |b|] == a + b
    ensures c[|a|..|a| + |b|] == b
    ensures forall i :: 0 <= i < |b| ==> c[|a| + i] == b[i]
  {
    assert c[|a|..|a| + |b|] == c[..|a| + |b|][|a|..];
    assert (a + b)[|a|..] == b;
    forall i | 0 <= i < |b|
      ensures c[|a| + i] == b[i]
    {
      assert c[|a| + i] == c[..|a| + |b|][|a| + i];
    }
  }

  /** A call left undecided is a held outcome. */
  lemma HeldRunsAreHeld(runs: seq<ToolRun>, decisions: map<string, Decision>, invoke: (string, string) -> string)
    requires HeldRuns(runs, decisions) != []
    ensures HasHeld(Outcomes(runs, decisions, invoke))
  {
    var x := HeldRuns(runs, decisions)[0];
    HeldRunsExactly(runs, decisions);
    assert x in HeldRuns(runs, decisions);
    var i :| 0 <= i < |runs| && runs[i] == x;
    assert Outcomes(runs, decisions, invoke)[i].Held?;
  }

  /** Taking a step keeps the history and appends the calls' items to it; an interruption holds `held`. */
  lemma TakeStepAppends(s: RunState, results: seq<RunItem>, step: Step, held: seq<ToolRun>, handoffs: seq<HandoffRun>,
                        r: RunState)
    requires Valid(s) && TakeStep(s, results, step, held, handoffs).0 == r
    ensures |s.generated| + |results| <= |r.generated|
    ensures forall i :: 0 <= i < |results| ==> r.generated[|s.generated| + i] == results[i]
    ensures step.Interruption? ==> r.status.Interrupted? && r.pending == held
  {
    var g := s.generated + results;
    if step.HandoffTo? {
      assert r.generated == g + [HandoffOutput(step.run)];
      assert (g + [HandoffOutput(step.run)])[..|g|] == g;
    } else {
      assert r.generated == g;
    }
    AppendedAt(s.generated, results, r.generated);
  }

  /** The end of a turn appends one item per call, in call order, right after the history it started from. */
  lemma ConcludeAppendsResults(s: RunState, runs: seq<ToolRun>, handoffs: seq<HandoffRun>, hostedApprovals: nat,
                               message: Option<string>, invoke: (string, string) -> string, r: RunState)
    requires Valid(s) && Conclude(s, runs, handoffs, hostedApprovals, message, invoke).0 == r
    ensures |s.generated| + |runs| <= |r.generated|
    ensures forall i :: 0 <= i < |runs| ==> r.generated[|s.generated| + i] == Results(runs, s.decisions, invoke)[i]
  {
    var step := NextStep(s.agent, Outcomes(runs, s.decisions, invoke), hostedApprovals, handoffs, message);
    TakeStepAppends(s, Results(runs, s.decisions, invoke), step, HeldRuns(runs, s.decisions), handoffs, r);
  }

  /** If the end of a turn leaves a call undecided, the run is interrupted holding exactly those calls. */
  lemma ConcludeHoldsUndecided(s: RunState, runs: seq<ToolRun>, handoffs: seq<HandoffRun>, hostedApprovals: nat,
                               message: Option<string>, invoke: (string, string) -> string, r: RunState)
    requires Valid(s) && Conclude(s, runs, handoffs, hostedApprovals, message, invoke).0 == r
    requires HeldRuns(runs, s.decisions) != []
    ensures r.status.Interrupted? && r.pending == HeldRuns(runs, s.decisions)
  {
    HeldRunsAreHeld(runs, s.decisions, invoke);
  }

  /** The item a decided call leaves: the tool's text when it runs, the refusal when rejected, else its approval request. */
  lemma AnswerOf(run: ToolRun, decisions: map<string, Decision>, invoke: (string, string) -> string, x: RunItem)
    requires x == OutcomeItem(run, Decide(run, decisions, invoke))
    ensures Executes(run, decisions) ==>
      x == RunItem(ToolCallOutput, FunctionCallResult(run.callId, run.tool.name, TextOutput(invoke(run.tool.name, run.arguments)), map[]))
    ensures run.tool.needsApproval && run.callId in decisions && decisions[run.callId] == Rejected ==>
      x == RunItem(ToolCallOutput, FunctionCallResult(run.callId, run.tool.name, TextOutput(NotApprovedMessage), map[]))
    ensures run.tool.needsApproval && run.callId !in decisions ==> x == RunItem(ToolApproval, run.Raw())
  {
  }

  /**
   * Resuming answers every held call in place, in the order they were held: an approved
   * call runs and its output is the tool's text, a rejected one gets the refusal, and
   * one still undecided leaves its approval request in the history again.
   */
  lemma ResumeAnswersHeldCalls(s: RunState, invoke: (string, string) -> string, r: RunState)
    requires Valid(s) && Resume(s, invoke).0 == r
    ensures |s.generated| + |s.pending| <= |r.generated|
    ensures forall i :: 0 <= i < |s.pending| && Executes(s.pending[i], s.decisions) ==>
      r.generated[|s.generated| + i] == RunItem(ToolCallOutput, FunctionCallResult(s.pending[i].callId, s.pending[i].tool.name,
                                                  TextOutput(invoke(s.pending[i].tool.name, s.pending[i].arguments)), map[]))
    ensures forall i :: 0 <= i < |s.pending| && s.pending[i].tool.needsApproval && s.pending[i].callId in s.decisions
                        && s.decisions[s.pending[i].callId] == Rejected ==>
      r.generated[|s.generated| + i] == RunItem(ToolCallOutput, FunctionCallResult(s.pending[i].callId, s.pending[i].tool.name,
                                                  TextOutput(NotApprovedMessage), map[]))
    ensures forall i :: 0 <= i < |s.pending| && s.pending[i].tool.needsApproval && s.pending[i].callId !in s.decisions ==>
      r.generated[|s.generated| + i] == RunItem(ToolApproval, s.pending[i].Raw())
  {
    ConcludeAppendsResults(s, s.pending, s.pendingHandoffs, 0, None, invoke, r);
    var n := |s.generated|;
    forall i | 0 <= i < |s.pending|
      ensures Executes(s.pending[i], s.decisions) ==>
        r.generated[n + i] == RunItem(ToolCallOutput, FunctionCallResult(s.pending[i].callId, s.pending[i].tool.name,
                                                        TextOutput(invoke(s.pending[i].tool.name, s.pending[i].arguments)), map[]))
      ensures s.pending[i].tool.needsApproval && s.pending[i].callId in s.decisions && s.decisions[s.pending[i].callId] == Rejected ==>
        r.generated[n + i] == RunItem(ToolCallOutput, FunctionCallResult(s.pending[i].callId, s.pending[i].tool.name,
                                                        TextOutput(NotApprovedMessage), map[]))
      ensures s.pending[i].tool.needsApproval && s.pending[i].callId !in s.decisions ==>
        r.generated[n + i] == RunItem(ToolApproval, s.pending[i].Raw())
    {
      AnswerOf(s.pending[i], s.decisions, invoke, r.generated[n + i]);
    }
  }

  /** A held call that is still undecided when the run resumes interrupts the run again, and stays held. */
  lemma ResumeKeepsUndecidedHeld(s: RunState, invoke: (string, string) -> string, r: RunState)
    requires Valid(s) && Resume(s, invoke).0 == r
    ensures forall i :: 0 <= i < |s.pending| && s.pending[i].tool.needsApproval && s.pending[i].callId !in s.decisions ==>
      r.status.Interrupted? && s.pending[i] in r.pending
  {
    forall i | 0 <= i < |s.pending| && s.pending[i].tool.needsApproval && s.pending[i].callId !in s.decisions
      ensures r.status.Interrupted? && s.pending[i] in r.pending
    {
      HeldRunsExactly(s.pending, s.decisions);
      assert s.pending[i] in HeldRuns(s.pending, s.decisions);
      ConcludeHoldsUndecided(s, s.pending, s.pendingHandoffs, 0, None, invoke, r);
    }
  }
}

=== FILE: wrappers.dfy ===
/** Failure-compatible Option and Result types shared by every module of the model. */
module Wrappers {

  datatype Option<+T> = None | Some(value: T) {

    /** The wrapped value, or `default` when there is none (the `??` operator). */
    function GetOr(default: T): T {
      match this
      case Some(v) => v
      case None => default
    }
  }

  /** Either a value or the error a thrown exception would have carried. */
  datatype Result<+T, +E> = Ok(value: T) | Err(error: E) {

    predicate IsFailure() {
      Err?
    }

    function PropagateFailure<U>(): Result<U, E>
      requires Err?
    {
      Err(error)
    }

    function Extract(): T
      requires Ok?
    {
      value
    }

    /** The same outcome with the error rewrapped by `f`. */
    function MapError<E2>(f: E -> E2): Result<T, E2> {
      match this
      case Ok(v) => Ok(v)
      case Err(e) => Err(f(e))
    }
  }
}
